=== FILE: README.md ===
# HK MPF processor: a verified model

This project models the HK MPF program processor of the MTS shop-floor
system. HK MPF is a line-oriented dialect for laser cutters. The processor
comes in two copies: the main application's (`app/main.py`) and the
standalone cut planner's (`mts-hk-cutplan/app/main.py`). The project also
models the text helpers of the cut-sheet reader (`samples/parse_cutsheets.py`).

What is modelled:

- **The line parser, `parse_hk_mpf`** (modules `ParseState`, `AppParser`
  and `CutplanParser`). It is a fold over the lines with an explicit state:
  - the cursor;
  - the cutting flag;
  - the sheet;
  - the parts, and the current part;
  - the open contours.

  The two copies share the state record, the command recognition and the
  post-parse numbering. The cut planner's copy adds the placement table:
  - HKOST registers its part under its program id.
  - HKSTR looks the table up by the line's own `N<number>`, read through
    `line_no or -1`.
  - HKSTR then opens one contour per placed part, each shifted by that
    part's HKOST offset.
- **Ring flattening, `_contour_to_ring`** (module `Ring`). It chains the
  points of the segments, dropping a polyline's first point only when it
  equals the last point so far. There is no ring below four points. The
  ring is closed when its ends are further apart than `1e-4`.
- **Block reorder, `export_reordered_mpf`** (module `Reorder`). It splits
  the lines into a preamble, HKSTR…HKSTO blocks and a postamble, checks the
  order's length and reassembles the pieces.
- **Skeleton append, `generate_skeleton_mpf`** (module `Skeleton`). It
  writes an extra part before the program's end: an HKOST line, seven lines
  per cut and an HKPED line.
- **The cut-sheet helpers**:
  - `parse_filename` (module `Filename`);
  - `parse_part_line` (module `PartLine`);
  - `parse_sheet_size` and `parse_sheet_dimensions` (module `SheetNumbers`);
  - `notes_score`, `resolve_notes_and_description`, `slice_part_section`
    and `extract_parts_from_lines` (module `Cutsheets`);
  - in `Cutsheets` too, the choice between layout rows and line-scan rows
    in `extract_metadata` and its de-duplication loop.

Shared modules:

- `Wrappers`: `Option` and `Result`.
- `Text`: ASCII versions of `strip`, `upper`, `lower`, `in`, `startswith`,
  `split`/`join`, `str(n)` and `int(d)`.
- `Seqs`: generic sequence helpers.
- `Geometry`: points, segments, contours, parts and the sheet.

Lines are `seq<string>`, so `splitlines()` and `"\n".join` are not
modelled. Coordinates are `real`. The parts of the processor that parse
numbers with regular expressions, tessellate arcs or format floats are
parameters:

- `ParseState.Lexer` carries `callArgs`, `word` and `arc`;
- `Skeleton` takes `fmt`, the `:.4f` formatting.

Only the facts the source relies on are assumed about these parameters:
an arc has at least two points, and a formatted number is digits, a point
and a sign.

## Model

| member | source | states |
|---|---|---|
| ParseState.ClassifyChain | app/main.py:3731-3786 | A normalised line is blank, else HKINI only at its start, then HKOST(, HKSTR(, HKCUT, HKSTO, HKPED anywhere in that priority, then WHEN, G1, G2 (clockwise), G3 at its start, else nothing |
| ParseState.LineNumber | mts-hk-cutplan/app/main.py:108-109 | A line has a number exactly when it starts with `N` followed by a digit, and the number is the value of the whole digit run after the `N` |
| ParseState.PlacementKey | mts-hk-cutplan/app/main.py:139 | The lookup key is the line's number when that is positive, and -1 when the line has no number or number 0 (`line_no or -1`) |
| ParseState.AddContour | mts-hk-cutplan/app/main.py:148-154 | Opening a contour on a part appends it to that part's contours, keeps the part's id, tech and offset, leaves every other part alone and adds one to the contour total |
| ParseState.AddEach | mts-hk-cutplan/app/main.py:148-154 | Opening a contour on each of a list of distinct parts adds one to each listed part, none elsewhere, and adds the list's length to the total |
| ParseState.OpenContours | mts-hk-cutplan/app/main.py:146-156 | HKSTR's open set: one new empty contour per target part, at the end of that part, carrying that part's offset; the part list keeps its length |
| ParseState.ExtendEffect | mts-hk-cutplan/app/main.py:184-186 | A move appends exactly one segment, its own, to each open contour; every contour that is not open keeps its segments |
| ParseState.Move | mts-hk-cutplan/app/main.py:184-187 | After a move the cursor is the target, each open contour has gained its segment, and the open set, the flags and the shape of the parts are unchanged |
| ParseState.NumberParts | mts-hk-cutplan/app/main.py:207-212 | The post-parse pass drops each part's offset and keeps id, tech, kind, arguments and segments of every contour |
| ParseState.NumberingIsSequential | app/main.py:3789-3793 | After numbering, the contours read part by part carry ids `next, next+1, …`, one per contour |
| ParseState.Finish | app/main.py:3787-3794 | The model keeps the sheet and one part per part parsed, and its contour ids are exactly 1..N in part-then-contour order |
| AppParser.OnHkost | app/main.py:3742-3746 | HKOST appends an empty part with `int(args[3])` / `int(args[4])` when present and makes it current; nothing else changes |
| AppParser.OnHkstr | app/main.py:3747-3759 | HKSTR moves the cursor to args 3/4 (each kept when absent), opens one new empty contour, outer iff `int(args[0]) == 0`, on the current part or on a new anonymous part, and keeps every earlier contour |
| AppParser.OnMove | app/main.py:3772-3786 | A move changes nothing unless cutting with a contour open; an arc without all of X, Y, I, J changes nothing; G1 appends the line from the cursor to the target and moves the cursor there, a missing X or Y keeping its coordinate |
| AppParser.OnCall | app/main.py:3736-3771 | HKCUT sets cutting; HKSTO clears cutting and the open contour; HKPED also clears the current part; WHEN, blanks and unknown lines change nothing; only HKSTR adds a contour |
| AppParser.Step | app/main.py:3731-3786 | One line: the sheet changes only on an HKINI line with three numbers, and exactly the HKSTR lines add one contour each |
| AppParser.OneContourPerHkstr | app/main.py:3747-3759 | Over any run of lines, the contour total grows by the number of HKSTR lines |
| AppParser.SheetFromLastHkini | app/main.py:3736-3741 | The sheet after a run of lines is the one set by the last line starting with HKINI that has three numbers, else the sheet before |
| AppParser.IdleUntilHkstr | app/main.py:3760-3773 | With no contour open, lines without HKSTR never open a contour nor change any existing part's contours (they may only append parts) |
| AppParser.Parse | app/main.py:3724-3794 | The parsed program's contour ids are exactly 1..N in part-then-contour order |
| AppParser.ParseContourCount | app/main.py:3747-3793 | The parsed program has exactly one contour per HKSTR line |
| AppParser.ParseSheet | app/main.py:3787-3788 | The sheet is the last HKINI line's 2nd and 3rd numbers, or 0.0 by 0.0 when no line sets it |
| CutplanParser.PartsWith | mts-hk-cutplan/app/main.py:129-130 | The placement table entry for a key: exactly the parts with that program id, in the order they were added |
| CutplanParser.PartsWithAppend | mts-hk-cutplan/app/main.py:128-130 | Adding a part appends it to its own program id's entry and keeps all earlier registrations |
| CutplanParser.OnHkost | mts-hk-cutplan/app/main.py:118-131 | HKOST appends an empty part at offset (args[0], args[1]), each 0.0 when absent, with `int(args[3])` / `int(args[4])` when present, and makes it current |
| CutplanParser.HkostRegisters | mts-hk-cutplan/app/main.py:129-130 | After HKOST the entry for a key gains the new part exactly when `int(args[3])` is that key |
| CutplanParser.HkstrTargets | mts-hk-cutplan/app/main.py:139-144 | The parts HKSTR opens contours on are distinct and exist |
| CutplanParser.OnHkstrPart | mts-hk-cutplan/app/main.py:140-144 | With nothing placed under the key and no current part, an anonymous part at offset 0 is appended and made current; otherwise nothing changes |
| CutplanParser.OnHkstr | mts-hk-cutplan/app/main.py:133-157 | HKSTR moves the cursor to args 3/4 (each kept when absent), opens at least one contour and adds one contour per open contour |
| CutplanParser.HkstrOpens | mts-hk-cutplan/app/main.py:139-156 | HKSTR opens one contour on each part placed under the line's key when there are any, else exactly one on the current (or new anonymous) part |
| CutplanParser.HkstrContours | mts-hk-cutplan/app/main.py:146-156 | Each contour HKSTR opens is new, empty, outer iff `int(args[0]) == 0`, last on its part, and carries its part's offset |
| CutplanParser.HkstrKeepsContours | mts-hk-cutplan/app/main.py:148-156 | HKSTR leaves every contour that existed before unchanged |
| CutplanParser.OnMove | mts-hk-cutplan/app/main.py:176-202 | A move changes nothing unless cutting with contours open or, for an arc, unless X, Y, I, J are all present; otherwise every open contour gains its shifted segment and the cursor, unshifted, moves to the target |
| CutplanParser.OnCall | mts-hk-cutplan/app/main.py:111-171 | HKCUT sets cutting; HKSTO clears cutting and empties the open set; HKPED also clears the current part; WHEN and unknown lines change nothing |
| CutplanParser.Step | mts-hk-cutplan/app/main.py:103-202 | One line: the sheet changes only on an HKINI line with three numbers; an HKSTR line opens at least one contour and adds one per open contour; other lines add none |
| CutplanParser.ContoursPerHkstr | mts-hk-cutplan/app/main.py:133-157 | Over a run of lines there are at least as many new contours as HKSTR lines, and none without an HKSTR line |
| CutplanParser.SheetFromLastHkini | mts-hk-cutplan/app/main.py:111-116 | The sheet is set by the last line starting with HKINI that has three numbers |
| CutplanParser.IdleUntilHkstr | mts-hk-cutplan/app/main.py:159-177 | With no contour open, lines without HKSTR never open one and change no existing part's contours (they may only append parts) |
| CutplanParser.Parse | mts-hk-cutplan/app/main.py:88-214 | The parsed program's contour ids are exactly 1..N over parts in list order |
| CutplanParser.ParseContourCount | mts-hk-cutplan/app/main.py:133-157 | The parsed program has at least one contour per HKSTR line |
| CutplanParser.ParseSheet | mts-hk-cutplan/app/main.py:204-205 | The sheet is the last HKINI line's 2nd and 3rd numbers, or 0.0 by 0.0, the same sheet the application's copy finds |
| Ring.Join | app/main.py:3799-3810 | One flattening step keeps the points so far and appends: a line its end (after its start when there are no points yet); a polyline its points, less the first exactly when it equals the last point so far, compared exactly rather than within a tolerance |
| Ring.JoinAdds | app/main.py:3799-3810 | Every point a flattening step appends is a point of the segment being joined |
| Ring.Chain | app/main.py:3798-3810 | The loop over the segments, joined in order. It has no contract of its own: `ChainGrows`, `ChainOfLines`, `ChainPoints` and `ChainLength` state what it gives |
| Ring.ToRing | app/main.py:3797-3815 | No ring exactly when the chain has fewer than 4 points; otherwise the ring is the chain with its first point appended exactly when the chain's ends are more than `1e-4` apart, so the ring's ends are within tolerance |
| Ring.ChainGrows | app/main.py:3799-3810 | The chain of a prefix of the segments is a prefix of the whole chain |
| Ring.ChainOfLines | mts-hk-cutplan/app/main.py:221-225 | Straight moves flatten to the first line's start followed by every line's end |
| Ring.ChainPoints | app/main.py:3799-3810 | Every point of the chain is a point of some segment |
| Ring.ChainLength | app/main.py:3799-3810 | A chain of n well-formed segments has at least n + 1 points |
| Ring.ThreeSegmentsMakeRing | app/main.py:3811-3815 | A contour of three or more well-formed segments always yields a ring |
| Reorder.FirstBegin | app/main.py:3886-3892 | The index of the first HKSTR line, or the number of lines when there is none |
| Reorder.Split | app/main.py:3881-3903 | The splitting loop, with a block still open at the end dropped. It has no contract of its own: `PreambleIsPrefix`, `SplitShaped` and `SplitPartition` state what it gives |
| Reorder.PreambleIsPrefix | app/main.py:3900-3901 | The preamble is exactly the lines before the first HKSTR line |
| Reorder.SplitShaped | app/main.py:3886-3899 | Every block is an HKSTR line, lines with neither HKSTR nor HKSTO, then an HKSTO line, so it ends at the first HKSTO line after its start; the preamble and postamble hold no HKSTR line |
| Reorder.SplitPartition | mts-hk-cutplan/app/main.py:381-398 | When every HKSTR line reaches an HKSTO line before the next HKSTR line, preamble, blocks and postamble together hold every input line exactly once, and there is one block per HKSTR line |
| Reorder.PyIndex | app/main.py:3908 | `blocks[cid - 1]` succeeds exactly for `-n <= cid - 1 < n`, negative indices counting from the end |
| Reorder.Pick | app/main.py:3907-3908 | Looking the blocks up succeeds exactly when every id indexes a block, and then entry j is `blocks[order[j] - 1]` with Python's negative indexing; a failure names an id of the order |
| Reorder.Assemble | app/main.py:3904-3910 | The length-mismatch error comes exactly when the order's length differs from the block count; a success is the preamble, the blocks the ids name in the order given (negative indices counting from the end), then the postamble |
| Reorder.ReorderLines | app/main.py:3880-3910 | `export_reordered_mpf` fails with the length mismatch exactly when the lengths differ, and its output starts with the preamble |
| Reorder.AssembleOrder | app/main.py:3906-3910 | With ids in 1..n, the output is the preamble, then `blocks[order[j] - 1]` for each j in turn, then the postamble |
| Reorder.AssembleIdentity | mts-hk-cutplan/app/main.py:403-410 | The order 1..n gives back the preamble, the blocks in order and the postamble |
| Reorder.AssemblePermutes | mts-hk-cutplan/app/main.py:400-410 | A permutation of 1..n is accepted and puts back exactly the lines of the pieces |
| Reorder.ReorderPermutes | mts-hk-cutplan/app/main.py:371-410 | With every block closed, a permutation of 1..n yields exactly the input lines, rearranged |
| Reorder.RepeatedIdAccepted | app/main.py:3904-3908 | The order [1, 1] on two blocks is accepted and writes the first block twice; the output's lines differ from the input's whenever the blocks do |
| Reorder.ZeroIdIsLastBlock | app/main.py:3907-3908 | The id 0 is accepted and names the last block |
| Reorder.AssembleChecked | app/main.py:3904-3910 | With the permutation check added, the reorder succeeds exactly for permutations of 1..n, agrees with the unchecked one then, and keeps every line |
| Reorder.ReorderChecked | app/main.py:3880-3910 | The checked reorder of a program succeeds exactly for permutations of 1..n and, with every block closed, outputs exactly the input lines |
| Skeleton.EndsProgramAgree | mts-hk-cutplan/app/main.py:338 | The cut planner's end test (upper, then strip) and the application's (strip, then upper) agree on every line |
| Skeleton.FirstWhere | app/main.py:3915-3919 | The insertion index is the first line that ends the program, or the number of lines |
| Skeleton.GenerateSkeleton | app/main.py:3913-3931 | The output has `|lines| + 7k + 2` lines for k cuts; the lines before the insertion index and those from it on come through unchanged |
| Skeleton.SkeletonRemovable | app/main.py:3920-3930 | Cutting the extra part out of the output gives back the program |
| Skeleton.SkeletonLayout | app/main.py:3920-3930 | The extra part sits at the insertion index: the HKOST line, then the cut blocks, then the HKPED line |
| Skeleton.BlockAt | app/main.py:3923-3928 | Line j of block i is line j of cut i's block, numbered `900010 + 10i` |
| Skeleton.SkeletonNumbers | app/main.py:3922-3927 | The HKSTR line of cut i reads back, as a placement key, as `900010 + 10i` |
| Skeleton.SkeletonFrameNumbers | app/main.py:3921-3929 | The HKOST line is numbered 900000 and the HKPED line follows the last cut's number |
| Skeleton.BlockCommands | app/main.py:3926-3928 | Each block is read back by the parser as HKSTR, two ignored calls, HKCUT, two G1 moves, HKSTO |
| Skeleton.HeaderCommand | app/main.py:3921 | The extra part's first line is read back as HKOST |
| Skeleton.PedCommand | app/main.py:3929 | The extra part's last line is read back as HKPED |
| Skeleton.SkeletonAddsHkstr | app/main.py:3920-3930 | The output has k more HKSTR lines than the program |
| Skeleton.SkeletonAddsContours | app/main.py:3913-3931 | Parsing the output finds exactly one more contour per cut than parsing the program |
| Text.StripUpperCommute | app/main.py:3917 | Stripping then upper-casing equals upper-casing then stripping |
| Text.DigitsRoundTrip | app/main.py:3926 | A line number written in decimal reads back as itself |
| Text.Trunc | app/main.py:3754 | `int(f)` truncates toward zero |
| Filename.Cuts | samples/parse_cutsheets.py:26-28 | Where the pattern's groups end: the station is the upper-case tail, the run is digits, the separator is blanks with at most one hyphen, the product is non-empty |
| Filename.Match | samples/parse_cutsheets.py:26-28 | A match's four groups put together are the stem |
| Filename.MatchSound | samples/parse_cutsheets.py:26-28 | A match has the pattern's shape and its station is the whole upper-case tail of the stem |
| Filename.MatchComplete | samples/parse_cutsheets.py:26-28 | Every stem of the pattern's shape matches, with that shape's station, at least its run digits and a product no longer than its product; with `MatchSound` the product matched is the shortest the pattern allows, as the lazy `.+?` makes it |
| Filename.ParseFilename | samples/parse_cutsheets.py:54-65 | A match gives the stripped product, the station and the run; otherwise the stem is the product, with no station or run. The match's product is the shortest one, by `MatchComplete` |
| Filename.ParseFilenameFallback | samples/parse_cutsheets.py:54-65 | There is a station exactly when the stem splits as product, separator, digits, capitals; otherwise the entry is the stem alone |
| PartLine.FirstFr | samples/parse_cutsheets.py:85-88 | The first `FR-` token of the line, or none when no `FR-` is followed by a part character |
| PartLine.StartMatch | samples/parse_cutsheets.py:91-94 | A match at the line's start takes a proper prefix of the opening `FR-` token, longer than `FR-` and ending in a capital; the rest of the token is one or two digits ending at a word boundary, and the count is their value |
| PartLine.Appended | samples/parse_cutsheets.py:96-99 | A count follows the part number somewhere exactly when the appended pattern matches; the count is the value of the digits at the leftmost match, below 100 |
| PartLine.LastLone | samples/parse_cutsheets.py:101-104 | There is a lone number exactly when one occurs; the count is the value of the rightmost one, below 100 |
| PartLine.ParsePartLine | samples/parse_cutsheets.py:82-106 | Nothing exactly when the `FR-` search finds nothing: the `"FR-" in text` guard never hides a part number. What it returns is stated by `ParsePartLineNone`, `ParsePartLineToken`, `ParsePartLineShape`, `ParsePartLineCount` and `StartSplit` |
| PartLine.ParsePartLineNone | samples/parse_cutsheets.py:83-87 | A line gives nothing exactly when no `FR-` followed by a part character occurs in it |
| PartLine.ParsePartLineToken | samples/parse_cutsheets.py:85-94 | The part number is a prefix of the first `FR-` token of the line |
| PartLine.ParsePartLineShape | samples/parse_cutsheets.py:85-94 | The part number is `FR-` followed by capitals and digits |
| PartLine.ParsePartLineCount | samples/parse_cutsheets.py:91-104 | Any count found is below 100 |
| PartLine.StartSplit | samples/parse_cutsheets.py:91-94 | On a line with a decimal that opens with a part number ending in a capital run into a one- or two-digit count, the number and count are split apart |
| SheetNumbers.NumbersMatch | samples/parse_cutsheets.py:164 | Each number found starts on a digit and is the greedy `\d+(?:\.\d+)?` match there |
| SheetNumbers.NumbersOrdered | samples/parse_cutsheets.py:164 | The numbers found come in text order and do not overlap |
| SheetNumbers.NumbersCover | samples/parse_cutsheets.py:164 | Every digit of the text lies in one of the numbers found |
| SheetNumbers.Numbers | samples/parse_cutsheets.py:164 | Every number found lies inside the text, from the starting position on; `NumbersMatch`, `NumbersOrdered` and `NumbersCover` state which numbers they are |
| SheetNumbers.ParseSheetDimensions | samples/parse_cutsheets.py:163-168 | None exactly below three numbers; otherwise the last three as length, width, thickness |
| SheetNumbers.ParseSheetSize | samples/parse_cutsheets.py:152-160 | A size returned is at most 20 by 30 feet |
| SheetNumbers.SheetSizeFound | samples/parse_cutsheets.py:152-160 | A size within bounds at the leftmost match comes back |
| SheetNumbers.SheetSizeFirst | samples/parse_cutsheets.py:153-157 | What comes back is read at the leftmost match of the pattern |
| SheetNumbers.SheetSizeOversized | samples/parse_cutsheets.py:158-159 | An oversized leftmost match gives no size, even if a later match would fit |
| SheetNumbers.SheetSizeNone | samples/parse_cutsheets.py:153-155 | Without a match there is no size |
| Cutsheets.HasWord | samples/parse_cutsheets.py:295-297 | The word search succeeds exactly when the word stands between word boundaries somewhere |
| Cutsheets.NotesScore | samples/parse_cutsheets.py:291-301 | The score is 0 for a missing or empty text and never above 4 |
| Cutsheets.NotesScoreIgnoresCase | samples/parse_cutsheets.py:295-299 | Upper-casing a text does not change its score |
| Cutsheets.ResolveNotes | samples/parse_cutsheets.py:304-310 | The pair comes back as given or swapped, swapped exactly when both are given and the description scores strictly higher |
| Cutsheets.ResolveNotesIdempotent | samples/parse_cutsheets.py:304-310 | Resolving a resolved pair changes nothing |
| Cutsheets.ResolveNotesOrders | samples/parse_cutsheets.py:307-309 | With both given, the notes that come back score at least as high as the description |
| Cutsheets.SectionStart | samples/parse_cutsheets.py:314-324 | With a hint, the table starts after the first line holding it (at 0 if none does); without one, at the first line with a part number (at 0 if none has one) |
| Cutsheets.SlicePartSection | samples/parse_cutsheets.py:313-330 | The result is the contiguous run of lines from the table start up to, not including, the first stop line, and holds no stop line |
| Cutsheets.LineRow | samples/parse_cutsheets.py:111-127 | A line gives a row exactly when it is not blank, does not start `# Part #` and `parse_part_line` reads its collapsed text; the row is what that call returns, tagged with the source |
| Cutsheets.ExtractParts | samples/parse_cutsheets.py:109-128 | At most one row per line; `ExtractPartsAppend` and `ExtractPartsOrigins` state which rows and in what order |
| Cutsheets.ExtractPartsAppend | samples/parse_cutsheets.py:109-128 | The rows of two runs of lines are the rows of the first, then those of the second |
| Cutsheets.ExtractPartsOrigins | samples/parse_cutsheets.py:109-128 | Row k comes from the k-th line that gives a row, in line order, and every such line gives one |
| Cutsheets.Absorb | samples/parse_cutsheets.py:381-387 | A new part number is added at the end; a known one keeps its place and takes the row's quantity only when it had none |
| Cutsheets.Dedupe | samples/parse_cutsheets.py:380-387 | The merging loop over the rows. It has no contract of its own: `DedupeUnique`, `DedupeFromRows`, `DedupeCovers`, `DedupeOrder` and `DedupeQuantity` state what it gives |
| Cutsheets.DedupeUnique | samples/parse_cutsheets.py:380-387 | The merged list holds each part number once |
| Cutsheets.DedupeFromRows | samples/parse_cutsheets.py:380-387 | Every merged part number comes from a row |
| Cutsheets.DedupeCovers | samples/parse_cutsheets.py:380-387 | Every row's part number is in the merged list |
| Cutsheets.DedupeOrder | samples/parse_cutsheets.py:380-387 | The merged list keeps the order in which part numbers first appear |
| Cutsheets.DedupeQuantity | samples/parse_cutsheets.py:383-387 | Each merged part has the first quantity any row gives it, none when no row gives one |
| Cutsheets.CutsheetPartsMerged | samples/parse_cutsheets.py:376-387 | The reported parts, from the layout rows or else the line-scan rows, list each number once, in first-appearance order, with its first quantity |

## Left out

- Web routes, sessions, uploads, the database, file reads and writes, and
  PDF reading: they are I/O around the processor.
- `splitlines()` and `"\n".join`: the model works on lines, so trailing
  newlines and line-break kinds are not modelled.
- `_extract_call_floats` and the `RE_X`, `RE_Y`, `RE_I`, `RE_J` searches
  are `Lexer.callArgs` and `Lexer.word`, left uninterpreted: they are
  regular-expression number tokenisers over floats.
- `_arc_points` is `Lexer.arc`. It is assumed only to give at least two
  points, because it uses trigonometry on floats.
- The `:.4f` formatting in `generate_skeleton_mpf` is the parameter `fmt`.
  It is assumed only to write digits, a point and a sign.
- `compute_skeleton` and `parts_to_polygons` are left out: they are
  polygon geometry in the Shapely library. The skeleton cuts are an input
  of `Skeleton.GenerateSkeleton`.
- Floating point:
  - coordinates and `float()` values are exact reals;
  - `math.hypot(d) > tol` is compared as squared distances.
- Character classes are ASCII only. This covers Python's Unicode `\s`,
  `\b`, `\d`, `isspace`, `isalpha` and `upper`.
- The HK component helpers `_extract_hk_component_debug` and
  `_parse_hk_components` in `app/main.py` are not part of this model. They
  are string heuristics outside the processor and its cut-sheet reader.
- `parse_layout_metadata`, `parse_plain_metadata`, `read_pdf_text`,
  `material_hint_from_product`, `collect_related_files` and the
  gauge/date/time patterns are not modelled. They feed metadata fields,
  not the part list or the program.
- `extract_metadata` is modelled only in its part-list choice and its
  de-duplication (`Cutsheets.CutsheetParts`). The rest of it copies
  fields between dictionaries.
- CutplanParser.ParseContourCount: states "at least one contour per HKSTR
  line" rather than the exact count, because an HKSTR line opens one
  contour per placed part and the number of placements depends on earlier
  HKOST lines.
- CutplanParser.OnHkstr: its contract gives counts and cursor only. What
  it opens and keeps is stated by `HkstrOpens`, `HkstrContours` and
  `HkstrKeepsContours`.
- Ring.ToRing: requires every polyline segment to be non-empty. The source
  raises `IndexError` on an empty polyline once points exist, and the
  tessellator never produces one.
- Filename.MatchComplete: states that the run found is at least the
  shape's run, and the product at most the shape's product, not equal to
  them. When the product ends in digits, the pattern's lazy product gives
  those digits to the run.
- Reorder.SplitPartition: requires every HKSTR line to reach an HKSTO line.
  Lines of a block still open at the end of the program are dropped by the
  source, and no partition holds then.
- Cutsheets.NotesScore: its contract states the bounds only (0 for a
  missing or empty text, never above 4). The keyword count itself is the
  function's definition, and `NotesScoreIgnoresCase` and `ResolveNotes`
  state what depends on it.
- SheetNumbers.ParseSheetSize: its contract states only the bounds. Which
  match is read is stated by `SheetSizeFound`, `SheetSizeFirst`,
  `SheetSizeOversized` and `SheetSizeNone`.

## Findings

| source | as written | input that shows it | evidently intended | confidence | as-written member | corrected member |
|---|---|---|---|---|---|---|
| app/main.py:3904-3908 | Only the order's length is checked before `blocks[cid - 1]` is looked up, so repeated ids, and ids that index from the end, are accepted | Two blocks with order `[1, 1]` writes block 1 twice and drops block 2; one block with order `[0]` writes `blocks[-1]` | A reorder writes each block exactly once, so the order must be a permutation of 1..n | medium, not executed | Reorder.RepeatedIdAccepted | Reorder.ReorderChecked |
| mts-hk-cutplan/app/main.py:400-403 | The same length-only check before `blocks[cid - 1]` | One block with order `[0]` is accepted and names `blocks[-1]` | An id outside 1..n is rejected | medium, not executed | Reorder.ZeroIdIsLastBlock | Reorder.AssembleChecked |

=== FILE: app_parser.dfy ===
/** `parse_hk_mpf` of the main application (app/main.py): a fold over the
    program's lines with one open contour at a time, no placement table
    and no HKOST offsets. */
module AppParser {
  import opened Wrappers
  import opened Text
  import opened Geometry
  import opened ParseState
  import opened Seqs

  /** HKOST: a new, empty part becomes the current part; its program id
      and technology are the 4th and 5th arguments, truncated. */
  function OnHkost(s: State, v: seq<real>): (t: State)
    requires Valid(s)
    ensures Valid(t)
    ensures t.parts == s.parts + [PartDraft(ArgInt(v, 3), ArgInt(v, 4), Origin, [])]
    ensures t.current == Some(|s.parts|)
    ensures t.cursor == s.cursor && t.cutting == s.cutting && t.open == s.open && t.sheet == s.sheet
    ensures ContourCount(t.parts) == ContourCount(s.parts)
  {
    var part := PartDraft(ArgInt(v, 3), ArgInt(v, 4), Origin, []);
    StartPart(s, part)
  }

  /** HKSTR: the cursor jumps to the 3rd/4th arguments (each kept when
      absent) and one new, empty contour is opened on the current part,
      creating an anonymous part first when there is none. */
  function OnHkstr(s: State, v: seq<real>): (t: State)
    requires Valid(s)
    ensures Valid(t)
    ensures t.cursor == Point(ArgOr(v, 2, s.cursor.x), ArgOr(v, 3, s.cursor.y))
    ensures |t.open| == 1 && t.current == Some(t.open[0].part)
    ensures t.open[0].contour == |t.parts[t.open[0].part].contours| - 1
    ensures t.parts[t.open[0].part].contours[t.open[0].contour] == Draft(KindOf(v), v, [])
    ensures s.current.Some? ==> t.open[0].part == s.current.value && |t.parts| == |s.parts|
    ensures s.current.None? ==>
              t.open[0].part == |s.parts| && |t.parts| == |s.parts| + 1
              && t.parts[|s.parts|].programId == None && t.parts[|s.parts|].tech == None
    ensures |t.parts| >= |s.parts|
    ensures forall p, c :: 0 <= p < |s.parts| && 0 <= c < |s.parts[p].contours| ==>
              c < |t.parts[p].contours| && t.parts[p].contours[c] == s.parts[p].contours[c]
    ensures ContourCount(t.parts) == ContourCount(s.parts) + 1
    ensures t.cutting == s.cutting && t.sheet == s.sheet
  {
    var s1 := if s.current.None? then OnHkost(s, []) else s;
    OpenContours(s1, [s1.current.value], Draft(KindOf(v), v, []), Point(ArgOr(v, 2, s.cursor.x), ArgOr(v, 3, s.cursor.y)))
  }

  /** G1, G2 or G3: while cutting with a contour open, the segment from the
      cursor to the target is appended to the open contour; otherwise the
      line is ignored. */
  function OnMove(lex: Lexer, s: State, u: string, cmd: Command): (t: State)
    requires Valid(s) && Tessellates(lex) && (cmd.G1? || cmd.Arc?)
    ensures Valid(t)
    ensures t.open == s.open && t.cutting == s.cutting && t.sheet == s.sheet && t.current == s.current
    ensures SameShape(s.parts, t.parts) && ContourCount(t.parts) == ContourCount(s.parts)
    ensures !s.cutting || s.open == [] ==> t == s
    ensures cmd.Arc? && !ArcComplete(lex, u) ==> t == s
    ensures forall p, c :: 0 <= p < |s.parts| && 0 <= c < |s.parts[p].contours| && !Targeted(s.open, p, c)
              ==> t.parts[p].contours[c] == s.parts[p].contours[c]
    ensures cmd.G1? && s.cutting ==>
              (&& t.cursor == (if s.open == [] then s.cursor else Target(lex, s, u))
               && forall k :: 0 <= k < |s.open| ==>
                    Segs(t.parts, s.open[k]) == Segs(s.parts, s.open[k]) + [Line(s.cursor, Target(lex, s, u))])
    ensures cmd.Arc? && s.cutting && ArcComplete(lex, u) ==>
              (&& t.cursor == (if s.open == [] then s.cursor else Target(lex, s, u))
               && forall k :: 0 <= k < |s.open| ==>
                    Segs(t.parts, s.open[k]) == Segs(s.parts, s.open[k])
                      + [Polyline(lex.arc(s.cursor, Target(lex, s, u), lex.word(u, 'I').value, lex.word(u, 'J').value, cmd.cw))])
  {
    var next := Target(lex, s, u);
    if !s.cutting || s.open == [] then
      s
    else if cmd.G1? then
      Move(s, o => Line(s.cursor, next), next)
    else if ArcComplete(lex, u) then
      var i, j := lex.word(u, 'I').value, lex.word(u, 'J').value;
      Move(s, o => Polyline(lex.arc(s.cursor, next, i, j, cmd.cw)), next)
    else
      s
  }

  /** The effect of a line recognised as anything but a move. */
  function OnCall(lex: Lexer, s: State, u: string, cmd: Command): (t: State)
    requires Valid(s) && !cmd.G1? && !cmd.Arc?
    ensures Valid(t)
    ensures |t.parts| >= |s.parts|
    ensures |s.open| <= 1 ==> |t.open| <= 1
    ensures t.sheet == (if cmd == Ini && |lex.callArgs(u, "HKINI")| >= 3
                        then Sheet(lex.callArgs(u, "HKINI")[1], lex.callArgs(u, "HKINI")[2]) else s.sheet)
    ensures cmd in {Blank, When, Other} ==> t == s
    ensures cmd == Cut ==> t == s.(cutting := true)
    ensures cmd == Sto ==> t == s.(cutting := false, open := [])
    ensures cmd == Ped ==> t == s.(cutting := false, open := [], current := None)
    ensures ContourCount(t.parts) == ContourCount(s.parts) + (if cmd == Str then 1 else 0)
    ensures cmd != Str && s.open == [] ==> t.open == [] && s.parts <= t.parts
  {
    match cmd
    case Blank => s
    case Ini => OnHkini(s, lex.callArgs(u, "HKINI"))
    case Ost => OnHkost(s, lex.callArgs(u, "HKOST"))
    case Str => OnHkstr(s, lex.callArgs(u, "HKSTR"))
    case Cut => s.(cutting := true)
    case Sto => s.(cutting := false, open := [])
    case Ped => s.(cutting := false, open := [], current := None)
    case When => s
    case Other => s
  }

  /** One line of the program: `raw.strip().upper()` is recognised, then
      applied (see `OnCall` and `OnMove` for the effect of each command). */
  function Step(lex: Lexer, s: State, raw: string): (t: State)
    requires Valid(s) && Tessellates(lex)
    ensures Valid(t)
    ensures |t.parts| >= |s.parts|
    ensures |s.open| <= 1 ==> |t.open| <= 1
    // only a line starting with HKINI and carrying three numbers sets the sheet
    ensures t.sheet == (if IniLine(lex, raw) then IniSheet(lex, raw) else s.sheet)
    // only HKSTR adds a contour, and it adds exactly one
    ensures ContourCount(t.parts) == ContourCount(s.parts) + (if CommandOf(raw) == Str then 1 else 0)
    // without an open contour, nothing but HKSTR touches an existing part
    ensures CommandOf(raw) != Str && s.open == [] ==> t.open == [] && s.parts <= t.parts
  {
    var u := Normalize(raw);
    var cmd := Classify(u);
    if cmd.G1? || cmd.Arc? then OnMove(lex, s, u, cmd) else OnCall(lex, s, u, cmd)
  }

  /** The fold over the lines, starting from `s`. */
  function Run(lex: Lexer, s: State, lines: seq<string>): (t: State)
    requires Valid(s) && Tessellates(lex)
    ensures Valid(t)
    ensures |s.open| <= 1 ==> |t.open| <= 1
    decreases |lines|
  {
    if lines == [] then s else Step(lex, Run(lex, s, lines[..|lines| - 1]), lines[|lines| - 1])
  }

  /** Every HKSTR line adds exactly one contour, and no other line adds any. */
  lemma {:induction false} OneContourPerHkstr(lex: Lexer, s: State, lines: seq<string>)
    requires Valid(s) && Tessellates(lex)
    ensures ContourCount(Run(lex, s, lines).parts) == ContourCount(s.parts) + CountCommand(lines, Str)
    decreases |lines|
  {
    if lines != [] {
      OneContourPerHkstr(lex, s, lines[..|lines| - 1]);
    }
  }

  /** The sheet is set by the last line that starts with HKINI and carries
      three numbers; with no such line it keeps its value. */
  lemma {:induction false} SheetFromLastHkini(lex: Lexer, s: State, lines: seq<string>)
    requires Valid(s) && Tessellates(lex)
    ensures Run(lex, s, lines).sheet == (match LastIni(lex, lines)
                                         case Some(i) => IniSheet(lex, lines[i])
                                         case None => s.sheet)
    decreases |lines|
  {
    if lines != [] {
      var init := lines[..|lines| - 1];
      SheetFromLastHkini(lex, s, init);
      if !IniLine(lex, lines[|lines| - 1]) {
        match LastIni(lex, init)
        case Some(i) => assert init[i] == lines[i];
        case None =>
      }
    }
  }

  /** With no contour open, lines other than HKSTR never touch an existing
      part: after HKSTO or HKPED, moves are ignored until the next HKSTR. */
  lemma {:induction false} IdleUntilHkstr(lex: Lexer, s: State, lines: seq<string>)
    requires Valid(s) && Tessellates(lex) && s.open == []
    requires CountCommand(lines, Str) == 0
    ensures Run(lex, s, lines).open == []
    ensures s.parts <= Run(lex, s, lines).parts
    decreases |lines|
  {
    if lines != [] {
      IdleUntilHkstr(lex, s, lines[..|lines| - 1]);
    }
  }

  /** `parse_hk_mpf`: the model of the lines of a program. Contour ids run
      1..N in part-then-contour order. */
  function Parse(lex: Lexer, lines: seq<string>): (prog: Program)
    requires Tessellates(lex)
    ensures NumberedFromOne(prog.parts)
  {
    Finish(Run(lex, Init, lines))
  }

  /** The parsed program has one contour per HKSTR line. */
  lemma {:induction false} ParseContourCount(lex: Lexer, lines: seq<string>)
    requires Tessellates(lex)
    ensures |Contours(Parse(lex, lines).parts)| == CountCommand(lines, Str)
  {
    OneContourPerHkstr(lex, Init, lines);
  }

  /** The sheet of the parsed program is the one the last HKINI line with
      three numbers sets, and 0 x 0 when there is none. */
  lemma {:induction false} ParseSheet(lex: Lexer, lines: seq<string>)
    requires Tessellates(lex)
    ensures Parse(lex, lines).sheet == (match LastIni(lex, lines)
                                       case Some(i) => IniSheet(lex, lines[i])
                                       case None => Sheet(0.0, 0.0))
  {
    SheetFromLastHkini(lex, Init, lines);
  }
}

=== FILE: cutplan_parser.dfy ===
/** `parse_hk_mpf` of the standalone cut-plan service
    (mts-hk-cutplan/app/main.py): the same fold as the main application,
    plus a placement table. HKOST records the part's sheet offset and
    registers it under its program id; an HKSTR line whose leading
    `N<number>` names registered parts opens one contour on each of them,
    and moves are drawn shifted by each contour's own offset. */
module CutplanParser {
  import opened Wrappers
  import opened Text
  import opened Geometry
  import opened ParseState
  import opened Seqs
  import AppParser

  /** `part_starts.get(key)`: the parts placed under program id `key`, in
      the order of their HKOST lines. The source keeps these lists in a
      dictionary that only HKOST appends to, one entry per part that
      carries the id (see `HkostRegisters`), so the model reads them off
      the parts themselves. */
  function PartsWith(parts: seq<PartDraft>, key: int): (r: seq<nat>)
    ensures Increasing(r)
    ensures forall i :: 0 <= i < |r| ==> r[i] < |parts| && parts[r[i]].programId == Some(key)
    ensures forall p :: 0 <= p < |parts| && parts[p].programId == Some(key) ==> p in r
    decreases |parts|
  {
    if parts == [] then []
    else
      var init := parts[..|parts| - 1];
      assert forall p :: 0 <= p < |init| ==> init[p] == parts[p];
      PartsWith(init, key) + (if parts[|parts| - 1].programId == Some(key) then [|parts| - 1] else [])
  }

  /** The parts placed under `key`. */
  function Placed(s: State, key: int): seq<nat> {
    PartsWith(s.parts, key)
  }

  /** The parts of the open contours, in order. */
  function PartsOf(open: seq<Open>): (r: seq<nat>)
    ensures |r| == |open| && forall i :: 0 <= i < |open| ==> r[i] == open[i].part
  {
    seq(|open|, i requires 0 <= i < |open| => open[i].part)
  }

  /** Adding a part appends it to the list of its own program id and
      leaves every other list alone: `part_starts.setdefault(id, []).append(part)`. */
  lemma {:induction false} PartsWithAppend(parts: seq<PartDraft>, part: PartDraft, key: int)
    ensures PartsWith(parts + [part], key) == PartsWith(parts, key) + (if part.programId == Some(key) then [|parts|] else [])
  {
    assert (parts + [part])[..|parts|] == parts;
  }

  /** The sheet offset an HKOST line places its part at: the 1st and 2nd
      arguments, each 0.0 when absent. */
  function HkostOffset(v: seq<real>): Point {
    Point(ArgOr(v, 0, 0.0), ArgOr(v, 1, 0.0))
  }

  /** HKOST: a new, empty part at the line's offset becomes the current
      part; its program id and technology are the 4th and 5th arguments,
      truncated. */
  function OnHkost(s: State, v: seq<real>): (t: State)
    requires Valid(s)
    ensures Valid(t)
    ensures t.parts == s.parts + [PartDraft(ArgInt(v, 3), ArgInt(v, 4), HkostOffset(v), [])]
    ensures t.current == Some(|s.parts|)
    ensures t.cursor == s.cursor && t.cutting == s.cutting && t.open == s.open && t.sheet == s.sheet
    ensures ContourCount(t.parts) == ContourCount(s.parts)
  {
    StartPart(s, PartDraft(ArgInt(v, 3), ArgInt(v, 4), HkostOffset(v), []))
  }

  /** HKOST registers its part under its program id, when it has one,
      after the parts registered before; no other list changes. */
  lemma {:induction false} HkostRegisters(s: State, v: seq<real>, key: int)
    requires Valid(s)
    ensures Placed(OnHkost(s, v), key) == Placed(s, key) + (if ArgInt(v, 3) == Some(key) then [|s.parts|] else [])
  {
    PartsWithAppend(s.parts, PartDraft(ArgInt(v, 3), ArgInt(v, 4), HkostOffset(v), []), key);
  }

  /** The parts an HKSTR line opens contours on: those placed under `key`,
      or else the one `OnHkstrPart` falls back to. */
  function HkstrTargets(s: State, key: int): (r: seq<nat>)
    requires Valid(s)
    ensures Increasing(r) && forall i :: 0 <= i < |r| ==> r[i] < |OnHkstrPart(s, key).parts|
  {
    if Placed(s, key) != [] then Placed(s, key) else [OnHkstrPart(s, key).current.value]
  }

  /** HKSTR: the cursor jumps to the 3rd/4th arguments (each kept when
      absent), and one new, empty contour is opened on every part
      placed under `key`; see `HkstrOpens` and `HkstrContours`. */
  function OnHkstr(s: State, key: int, v: seq<real>): (t: State)
    requires Valid(s)
    ensures Valid(t)
    ensures t.cursor == Point(ArgOr(v, 2, s.cursor.x), ArgOr(v, 3, s.cursor.y))
    ensures |t.parts| >= |s.parts| && |t.open| >= 1
    ensures ContourCount(t.parts) == ContourCount(s.parts) + |t.open|
    ensures t.cutting == s.cutting && t.sheet == s.sheet
  {
    OpenContours(OnHkstrPart(s, key), HkstrTargets(s, key), Draft(KindOf(v), v, []),
                 Point(ArgOr(v, 2, s.cursor.x), ArgOr(v, 3, s.cursor.y)))
  }

  /** Where HKSTR opens its contours: on every part placed under `key`,
      in placement order; with none, on the current part; with no current
      part either, on a new anonymous part at the origin, which becomes
      current. */
  lemma {:induction false} HkstrOpens(s: State, key: int, v: seq<real>)
    requires Valid(s)
    ensures var t := OnHkstr(s, key, v);
            && (Placed(s, key) != [] ==>
                  |t.parts| == |s.parts| && t.current == s.current && PartsOf(t.open) == Placed(s, key))
            && (Placed(s, key) == [] && s.current.Some? ==>
                  |t.parts| == |s.parts| && t.current == s.current && PartsOf(t.open) == [s.current.value])
            && (Placed(s, key) == [] && s.current.None? ==>
                  && |t.parts| == |s.parts| + 1 && t.current == Some(|s.parts|) && PartsOf(t.open) == [|s.parts|]
                  && t.parts[|s.parts|].programId == None && t.parts[|s.parts|].tech == None
                  && t.parts[|s.parts|].offset == Origin)
  {
    var t := OnHkstr(s, key, v);
    var s1 := OnHkstrPart(s, key);
    var targets := HkstrTargets(s, key);
    assert PartsOf(t.open) == targets;
    if Placed(s, key) == [] && s.current.None? {
      assert s1.parts[|s.parts|] == PartDraft(None, None, Origin, []);
    }
  }

  /** What HKSTR opens: each open contour is a new, empty contour at the
      end of its part, of the kind the first argument gives, drawn at its
      part's own offset. */
  lemma {:induction false} HkstrContours(s: State, key: int, v: seq<real>)
    requires Valid(s)
    ensures var t := OnHkstr(s, key, v);
            forall i :: 0 <= i < |t.open| ==>
              && t.open[i].part < |t.parts|
              && t.open[i].contour == |t.parts[t.open[i].part].contours| - 1
              && t.open[i].offset == t.parts[t.open[i].part].offset
              && t.parts[t.open[i].part].contours[t.open[i].contour] == Draft(KindOf(v), v, [])
  {
    var t := OnHkstr(s, key, v);
    var s1 := OnHkstrPart(s, key);
    var targets := HkstrTargets(s, key);
    forall i | 0 <= i < |t.open|
      ensures && t.open[i].part < |t.parts|
              && t.open[i].contour == |t.parts[t.open[i].part].contours| - 1
              && t.open[i].offset == t.parts[t.open[i].part].offset
              && t.parts[t.open[i].part].contours[t.open[i].contour] == Draft(KindOf(v), v, [])
    {
      var q := targets[i];
      assert q in targets;
      assert t.parts[q].contours == s1.parts[q].contours + [Draft(KindOf(v), v, [])];
    }
  }

  /** HKSTR leaves every contour that existed before unchanged. */
  lemma {:induction false} HkstrKeepsContours(s: State, key: int, v: seq<real>)
    requires Valid(s)
    ensures var t := OnHkstr(s, key, v);
            forall p, c :: 0 <= p < |s.parts| && 0 <= c < |s.parts[p].contours| ==>
              c < |t.parts[p].contours| && t.parts[p].contours[c] == s.parts[p].contours[c]
  {
    var t := OnHkstr(s, key, v);
    var s1 := OnHkstrPart(s, key);
    forall p, c | 0 <= p < |s.parts| && 0 <= c < |s.parts[p].contours|
      ensures c < |t.parts[p].contours| && t.parts[p].contours[c] == s.parts[p].contours[c]
    {
      assert s1.parts[p] == s.parts[p];
    }
  }

  /** The part HKSTR falls back to when nothing is placed under `key`: the
      current part, or a new anonymous part at the origin. */
  function OnHkstrPart(s: State, key: int): (t: State)
    requires Valid(s)
    ensures Valid(t)
    ensures Placed(s, key) == [] ==> t.current.Some?
    ensures Placed(s, key) != [] || s.current.Some? ==> t == s
    ensures Placed(s, key) == [] && s.current.None? ==>
              t == s.(parts := s.parts + [PartDraft(None, None, Origin, [])], current := Some(|s.parts|))
    ensures ContourCount(t.parts) == ContourCount(s.parts)
  {
    if Placed(s, key) == [] && s.current.None? then StartPart(s, PartDraft(None, None, Origin, [])) else s
  }

  /** The segment a move appends to the open contour `o`: drawn from the
      cursor to `next`, both shifted by the contour's own offset. */
  function Drawn(lex: Lexer, u: string, cmd: Command, from: Point, next: Point, o: Open): (seg: Segment)
    requires Tessellates(lex) && (cmd.G1? || cmd.Arc?)
    requires cmd.Arc? ==> ArcComplete(lex, u)
    ensures WellFormed(seg)
  {
    if cmd.G1? then Line(from.Shift(o.offset), next.Shift(o.offset))
    else
      var a, b, i, j := from.Shift(o.offset), next.Shift(o.offset), lex.word(u, 'I').value, lex.word(u, 'J').value;
      ArcHasEnds(lex, a, b, i, j, cmd.cw);
      Polyline(lex.arc(a, b, i, j, cmd.cw))
  }

  /** G1, G2 or G3: while cutting with contours open, every open contour
      gets the move, shifted by its own offset (an arc's centre offsets I
      and J are not shifted); the cursor itself stays unshifted. Otherwise
      the line is ignored. */
  function OnMove(lex: Lexer, s: State, u: string, cmd: Command): (t: State)
    requires Valid(s) && Tessellates(lex) && (cmd.G1? || cmd.Arc?)
    ensures Valid(t)
    ensures t.open == s.open && t.cutting == s.cutting && t.sheet == s.sheet
    ensures t.current == s.current
    ensures SameShape(s.parts, t.parts) && ContourCount(t.parts) == ContourCount(s.parts)
    ensures !s.cutting || s.open == [] ==> t == s
    ensures cmd.Arc? && !ArcComplete(lex, u) ==> t == s
    ensures forall p, c :: 0 <= p < |s.parts| && 0 <= c < |s.parts[p].contours| && !Targeted(s.open, p, c)
              ==> t.parts[p].contours[c] == s.parts[p].contours[c]
    ensures s.cutting && s.open != [] && (cmd.G1? || ArcComplete(lex, u)) ==>
              (&& t.cursor == Target(lex, s, u)
               && forall k :: 0 <= k < |s.open| ==>
                    Segs(t.parts, s.open[k]) == Segs(s.parts, s.open[k]) + [Drawn(lex, u, cmd, s.cursor, Target(lex, s, u), s.open[k])])
  {
    var next := Target(lex, s, u);
    if !s.cutting || s.open == [] || (cmd.Arc? && !ArcComplete(lex, u)) then
      s
    else
      Move(s, o => Drawn(lex, u, cmd, s.cursor, next, o), next)
  }

  /** The effect of a line recognised as anything but a move. */
  function OnCall(lex: Lexer, s: State, u: string, cmd: Command): (t: State)
    requires Valid(s) && !cmd.G1? && !cmd.Arc?
    ensures Valid(t)
    ensures |t.parts| >= |s.parts|
    ensures t.sheet == (if cmd == Ini && |lex.callArgs(u, "HKINI")| >= 3
                        then Sheet(lex.callArgs(u, "HKINI")[1], lex.callArgs(u, "HKINI")[2]) else s.sheet)
    ensures cmd in {Blank, When, Other} ==> t == s
    ensures cmd == Cut ==> t == s.(cutting := true)
    ensures cmd == Sto ==> t == s.(cutting := false, open := [])
    ensures cmd == Ped ==> t == s.(cutting := false, open := [], current := None)
    ensures ContourCount(t.parts) == ContourCount(s.parts) + (if cmd == Str then |t.open| else 0)
    ensures cmd == Str ==> |t.open| >= 1
    ensures cmd != Str && s.open == [] ==> t.open == [] && s.parts <= t.parts
  {
    match cmd
    case Blank => s
    case Ini => OnHkini(s, lex.callArgs(u, "HKINI"))
    case Ost => OnHkost(s, lex.callArgs(u, "HKOST"))
    case Str => OnHkstr(s, PlacementKey(u), lex.callArgs(u, "HKSTR"))
    case Cut => s.(cutting := true)
    case Sto => s.(cutting := false, open := [])
    case Ped => s.(cutting := false, open := [], current := None)
    case When => s
    case Other => s
  }

  /** One line of the program: `raw.strip().upper()` is recognised, then
      applied (see `OnCall` and `OnMove` for the effect of each command). */
  function Step(lex: Lexer, s: State, raw: string): (t: State)
    requires Valid(s) && Tessellates(lex)
    ensures Valid(t)
    ensures |t.parts| >= |s.parts|
    // only a line starting with HKINI and carrying three numbers sets the sheet
    ensures t.sheet == (if IniLine(lex, raw) then IniSheet(lex, raw) else s.sheet)
    // only HKSTR adds contours: one per open placement, at least one
    ensures ContourCount(t.parts) == ContourCount(s.parts) + (if CommandOf(raw) == Str then |t.open| else 0)
    ensures CommandOf(raw) == Str ==> |t.open| >= 1
    // without an open contour, nothing but HKSTR touches an existing part
    ensures CommandOf(raw) != Str && s.open == [] ==> t.open == [] && s.parts <= t.parts
  {
    var u := Normalize(raw);
    var cmd := Classify(u);
    if cmd.G1? || cmd.Arc? then OnMove(lex, s, u, cmd) else OnCall(lex, s, u, cmd)
  }

  /** The fold over the lines, starting from `s`. */
  function Run(lex: Lexer, s: State, lines: seq<string>): (t: State)
    requires Valid(s) && Tessellates(lex)
    ensures Valid(t)
    decreases |lines|
  {
    if lines == [] then s else Step(lex, Run(lex, s, lines[..|lines| - 1]), lines[|lines| - 1])
  }

  /** There are at least as many contours as HKSTR lines: each HKSTR line
      opens one contour per placement, and at least one. */
  lemma {:induction false} ContoursPerHkstr(lex: Lexer, s: State, lines: seq<string>)
    requires Valid(s) && Tessellates(lex)
    ensures ContourCount(Run(lex, s, lines).parts) >= ContourCount(s.parts) + CountCommand(lines, Str)
    ensures CountCommand(lines, Str) == 0 ==> ContourCount(Run(lex, s, lines).parts) == ContourCount(s.parts)
    decreases |lines|
  {
    if lines != [] {
      ContoursPerHkstr(lex, s, lines[..|lines| - 1]);
    }
  }

  /** The sheet is set by the last line that starts with HKINI and carries
      three numbers; with no such line it keeps its value. */
  lemma {:induction false} SheetFromLastHkini(lex: Lexer, s: State, lines: seq<string>)
    requires Valid(s) && Tessellates(lex)
    ensures Run(lex, s, lines).sheet == (match LastIni(lex, lines)
                                         case Some(i) => IniSheet(lex, lines[i])
                                         case None => s.sheet)
    decreases |lines|
  {
    if lines != [] {
      var init := lines[..|lines| - 1];
      SheetFromLastHkini(lex, s, init);
      if !IniLine(lex, lines[|lines| - 1]) {
        match LastIni(lex, init)
        case Some(i) => assert init[i] == lines[i];
        case None =>
      }
    }
  }

  /** With no contour open, lines other than HKSTR never touch an existing
      part: after HKSTO or HKPED, moves are ignored until the next HKSTR. */
  lemma {:induction false} IdleUntilHkstr(lex: Lexer, s: State, lines: seq<string>)
    requires Valid(s) && Tessellates(lex) && s.open == []
    requires CountCommand(lines, Str) == 0
    ensures Run(lex, s, lines).open == []
    ensures s.parts <= Run(lex, s, lines).parts
    decreases |lines|
  {
    if lines != [] {
      IdleUntilHkstr(lex, s, lines[..|lines| - 1]);
    }
  }

  /** `parse_hk_mpf`: the model of the lines of a program. Offsets are
      dropped and contour ids run 1..N in part-then-contour order. */
  function Parse(lex: Lexer, lines: seq<string>): (prog: Program)
    requires Tessellates(lex)
    ensures NumberedFromOne(prog.parts)
  {
    Finish(Run(lex, Init, lines))
  }

  /** The parsed program has at least one contour per HKSTR line. */
  lemma {:induction false} ParseContourCount(lex: Lexer, lines: seq<string>)
    requires Tessellates(lex)
    ensures |Contours(Parse(lex, lines).parts)| >= CountCommand(lines, Str)
  {
    ContoursPerHkstr(lex, Init, lines);
  }

  /** The sheet of the parsed program is the one the last HKINI line with
      three numbers sets, and 0 x 0 when there is none: the same sheet the
      application's copy of the parser finds. */
  lemma {:induction false} ParseSheet(lex: Lexer, lines: seq<string>)
    requires Tessellates(lex)
    ensures Parse(lex, lines).sheet == (match LastIni(lex, lines)
                                       case Some(i) => IniSheet(lex, lines[i])
                                       case None => Sheet(0.0, 0.0))
    ensures Parse(lex, lines).sheet == AppParser.Parse(lex, lines).sheet
  {
    SheetFromLastHkini(lex, Init, lines);
    AppParser.ParseSheet(lex, lines);
  }
}

=== FILE: cutsheets.dfy ===
/** The cut-sheet reader's line handling: scoring a text as notes, putting
    notes and description the right way round, cutting the part table out
    of a sheet's lines, reading its rows and merging rows of the same part
    number. */
module Cutsheets {
  import opened Wrappers
  import opened Text
  import opened Seqs
  import opened PartLine

  // ---------------------------------------------------------------------
  // notes_score

  /** `\b<w>\b` matches at `i`, for a word `w` of word characters. */
  predicate WordAt(l: string, w: string, i: nat) {
    i + |w| <= |l| && l[i..i + |w|] == w
    && (i == 0 || !IsWordChar(l[i - 1]))
    && (i + |w| == |l| || !IsWordChar(l[i + |w|]))
  }

  /** `re.search(r"\b<w>\b", l)` finds something from `i` on. */
  function HasWord(l: string, w: string, i: nat): (r: bool)
    requires i <= |l|
    ensures r <==> exists j :: i <= j <= |l| && WordAt(l, w, j)
    decreases |l| - i
  {
    if WordAt(l, w, i) then true
    else if i == |l| then false
    else HasWord(l, w, i + 1)
  }

  /** `re.search(r"\d+", t)` finds something. */
  predicate HasDigit(t: string) {
    exists i :: 0 <= i < |t| && IsDigit(t[i])
  }

  const Make: string := "make"
  const Makes: string := "makes"
  const Qty: string := "qty"
  const Quantity: string := "quantity"
  const Frame: string := "frame"
  const Frames: string := "frames"

  /** The words of `\bmake(?:s)?\b|\bqty\b|\bquantity\b`, looked for in
      lower case as `re.IGNORECASE` does. */
  predicate SaysCount(l: string) {
    HasWord(l, Make, 0) || HasWord(l, Makes, 0) || HasWord(l, Qty, 0) || HasWord(l, Quantity, 0)
  }

  /** `\bframes?\b` */
  predicate SaysFrame(l: string) {
    HasWord(l, Frame, 0) || HasWord(l, Frames, 0)
  }

  /** `notes_score`: how much a text reads like production notes. Two
      points for a count word, one for a frame word, one for a digit;
      nothing for a missing or empty text. */
  function NotesScore(text: Option<string>): (r: nat)
    ensures r <= 4
    ensures text.None? || text.value == [] ==> r == 0
  {
    if text.None? || text.value == [] then 0
    else
      var t := text.value;
      var l := Lower(t);
      (if SaysCount(l) then 2 else 0) + (if SaysFrame(l) then 1 else 0) + (if HasDigit(t) then 1 else 0)
  }

  lemma {:induction false} LowerUpper(t: string)
    ensures Lower(Upper(t)) == Lower(t)
  {
    var a := Lower(Upper(t));
    forall k | 0 <= k < |t| ensures a[k] == Lower(t)[k] {
      assert Upper(t)[k] == ToUpper(t[k]);
    }
  }

  /** The score does not depend on case. */
  lemma {:induction false} NotesScoreIgnoresCase(t: string)
    ensures NotesScore(Some(Upper(t))) == NotesScore(Some(t))
  {
    LowerUpper(t);
    var u := Upper(t);
    assert HasDigit(u) <==> HasDigit(t) by {
      if HasDigit(t) {
        var i :| 0 <= i < |t| && IsDigit(t[i]);
        assert u[i] == ToUpper(t[i]);
      }
      if HasDigit(u) {
        var i :| 0 <= i < |u| && IsDigit(u[i]);
        assert u[i] == ToUpper(t[i]);
      }
    }
  }

  // ---------------------------------------------------------------------
  // resolve_notes_and_description

  /** A present, non-empty text: Python's truth value of a `str | None`. */
  predicate Given(t: Option<string>) {
    t.Some? && t.value != []
  }

  /** `resolve_notes_and_description`: swaps the two when both are given and
      the description reads more like notes than the notes do. */
  function ResolveNotes(notes: Option<string>, description: Option<string>): (r: (Option<string>, Option<string>))
    ensures r == (notes, description) || r == (description, notes)
    ensures r == (description, notes) && r != (notes, description) ==>
              Given(notes) && Given(description) && NotesScore(description) > NotesScore(notes)
    ensures Given(notes) && Given(description) && NotesScore(description) > NotesScore(notes) ==>
              r == (description, notes)
  {
    if Given(notes) && Given(description) && NotesScore(description) > NotesScore(notes) then
      (description, notes)
    else
      (notes, description)
  }

  /** Resolving twice changes nothing more: after a swap the notes score
      higher than the description. */
  lemma {:induction false} ResolveNotesIdempotent(notes: Option<string>, description: Option<string>)
    ensures var (n, d) := ResolveNotes(notes, description);
            ResolveNotes(n, d) == (n, d)
  {
  }

  /** When both are given, the notes that come back score at least as high
      as the description that comes back. */
  lemma {:induction false} ResolveNotesOrders(notes: Option<string>, description: Option<string>)
    requires Given(notes) && Given(description)
    ensures var (n, d) := ResolveNotes(notes, description);
            NotesScore(n) >= NotesScore(d)
  {
  }

  // ---------------------------------------------------------------------
  // slice_part_section

  /** `PART_PATTERN = \b(FR-[A-Z0-9]+)\b` matches at `p`. */
  predicate PartAt(l: string, p: nat) {
    FrAt(l, p) && (p == 0 || !IsWordChar(l[p - 1]))
    && (TokenEnd(l, p) == |l| || !IsWordChar(l[TokenEnd(l, p)]))
  }

  /** `PART_PATTERN.search(l)` finds something. */
  predicate HasPart(l: string) {
    exists p :: 0 <= p < |l| && PartAt(l, p)
  }

  const Dwg: string := "DWG#"
  const DatePrinted: string := "DATE PRINTED"
  const Description: string := "DESCRIPTION"

  /** A line that ends the part table. */
  predicate IsStop(l: string) {
    Contains(l, Dwg) || Contains(l, DatePrinted) || Contains(l, Description)
  }

  function HintFlags(lines: seq<string>, hint: string): (bs: seq<bool>)
    ensures |bs| == |lines| && forall i :: 0 <= i < |lines| ==> bs[i] == Contains(lines[i], hint)
  {
    seq(|lines|, i requires 0 <= i < |lines| => Contains(lines[i], hint))
  }

  function PartFlags(lines: seq<string>): (bs: seq<bool>)
    ensures |bs| == |lines| && forall i :: 0 <= i < |lines| ==> bs[i] == HasPart(lines[i])
  {
    seq(|lines|, i requires 0 <= i < |lines| => HasPart(lines[i]))
  }

  function StopFlags(lines: seq<string>): (bs: seq<bool>)
    ensures |bs| == |lines| && forall i :: 0 <= i < |lines| ==> bs[i] == IsStop(lines[i])
  {
    seq(|lines|, i requires 0 <= i < |lines| => IsStop(lines[i]))
  }

  /** Where the part table starts: after the first line holding the hint
      when a non-empty hint is given, at the first line with a part number
      otherwise, and at the top when there is no such line. */
  function SectionStart(lines: seq<string>, hint: Option<string>): (s: nat)
    ensures s <= |lines|
    ensures Given(hint) ==>
              if exists i :: 0 <= i < |lines| && Contains(lines[i], hint.value)
              then 0 < s && Contains(lines[s - 1], hint.value)
                   && forall i :: 0 <= i < s - 1 ==> !Contains(lines[i], hint.value)
              else s == 0
    ensures !Given(hint) ==>
              if exists i :: 0 <= i < |lines| && HasPart(lines[i])
              then s < |lines| && HasPart(lines[s]) && forall i :: 0 <= i < s ==> !HasPart(lines[i])
              else s == 0
  {
    if Given(hint) then
      match FirstSet(HintFlags(lines, hint.value), 0)
      case None => 0
      case Some(i) => i + 1
    else
      match FirstSet(PartFlags(lines), 0)
      case None => 0
      case Some(i) => i
  }

  /** `slice_part_section`: the lines from the start of the part table up
      to the first line at or after it that holds `DWG#`, `DATE PRINTED` or
      `DESCRIPTION`. */
  function SlicePartSection(lines: seq<string>, hint: Option<string>): (r: seq<string>)
    ensures var s := SectionStart(lines, hint);
            s + |r| <= |lines| && r == lines[s..s + |r|]
    ensures forall k :: 0 <= k < |r| ==> !IsStop(r[k])
    ensures var e := SectionStart(lines, hint) + |r|;
            e == |lines| || IsStop(lines[e])
  {
    var s := SectionStart(lines, hint);
    match FirstSet(StopFlags(lines), s)
    case None => lines[s..]
    case Some(e) => lines[s..e]
  }

  // ---------------------------------------------------------------------
  // extract_parts_from_lines

  /** A row of a part table: the part number, the quantity if the line gave
      one, and which reading of the sheet it came from. */
  datatype Row = Row(number: string, quantity: Option<nat>, source: string)

  const TableHeader: string := "# Part #"

  /** The row a line gives: none for a blank line, the table's header or a
      line without a part number. */
  function LineRow(line: string, source: string): (r: Option<Row>)
    ensures Strip(line) == [] ==> r.None?
    ensures StartsWith(Collapse(line), TableHeader) ==> r.None?
    ensures r.Some? ==> r.value.source == source
                        && ParsePartLine(Collapse(line)) == Some((r.value.number, r.value.quantity))
    // every other line that `parse_part_line` reads gives a row
    ensures r.Some? <==> Strip(line) != [] && !StartsWith(Collapse(line), TableHeader)
                         && ParsePartLine(Collapse(line)).Some?
  {
    if Strip(line) == [] then None
    else
      var clean := Collapse(line);
      if StartsWith(clean, TableHeader) then None
      else
        match ParsePartLine(clean)
        case None => None
        case Some((number, quantity)) => Some(Row(number, quantity, source))
  }

  /** What each line gives. */
  function LineRows(lines: seq<string>, source: string): (rs: seq<Option<Row>>)
    ensures |rs| == |lines| && forall i :: 0 <= i < |lines| ==> rs[i] == LineRow(lines[i], source)
  {
    Map(l => LineRow(l, source), lines)
  }

  /** `extract_parts_from_lines`: the rows of the lines, in line order. */
  function ExtractParts(lines: seq<string>, source: string): (rows: seq<Row>)
    ensures |rows| <= |lines|
  {
    Somes(LineRows(lines, source))
  }

  /** Reading two runs of lines one after the other gives the rows of the
      first, then those of the second. */
  lemma {:induction false} ExtractPartsAppend(a: seq<string>, b: seq<string>, source: string)
    ensures ExtractParts(a + b, source) == ExtractParts(a, source) + ExtractParts(b, source)
  {
    MapAppend(l => LineRow(l, source), a, b);
    SomesAppend(LineRows(a, source), LineRows(b, source));
  }

  /** The rows are exactly the rows of the lines that give one, in line
      order: the `k`-th row comes from the `k`-th such line. */
  lemma {:induction false} ExtractPartsOrigins(lines: seq<string>, source: string)
    ensures var rows := ExtractParts(lines, source);
            var os := SomeIndices(LineRows(lines, source), 0);
            && |rows| == |os|
            && (forall k :: 0 <= k < |os| ==> LineRow(lines[os[k]], source) == Some(rows[k]))
            && (forall k, l :: 0 <= k < l < |os| ==> os[k] < os[l])
            && (forall i :: 0 <= i < |lines| && LineRow(lines[i], source).Some? ==> i in os)
  {
    var rs := LineRows(lines, source);
    SomesAt(rs, 0);
    assert rs[0..] == rs;
    var os := SomeIndices(rs, 0);
    assert Picks(rs, os, ExtractParts(lines, source));
  }

  // ---------------------------------------------------------------------
  // The de-duplication in extract_metadata

  /** An entry of the merged part list. */
  datatype Part = Part(number: string, quantity: Option<nat>)

  function Keys(ps: seq<Part>): (ks: seq<string>)
    ensures |ks| == |ps| && forall k :: 0 <= k < |ps| ==> ks[k] == ps[k].number
  {
    seq(|ps|, k requires 0 <= k < |ps| => ps[k].number)
  }

  /** The entry for a part number, if there is one. */
  function Lookup(ps: seq<Part>, n: string): (r: Option<nat>)
    ensures r.Some? ==> r.value < |ps| && ps[r.value].number == n
    ensures r.None? ==> forall k :: 0 <= k < |ps| ==> ps[k].number != n
    decreases |ps|
  {
    if ps == [] then None
    else if ps[|ps| - 1].number == n then Some(|ps| - 1)
    else Lookup(ps[..|ps| - 1], n)
  }

  /** One turn of the loop: a new part number is added at the end; a known
      one takes the row's quantity only when it had none and the row has
      one, keeping its place. */
  function Absorb(acc: seq<Part>, row: Row): (r: seq<Part>)
    ensures Lookup(acc, row.number).None? ==> r == acc + [Part(row.number, row.quantity)]
    ensures Lookup(acc, row.number).Some? ==>
              var k := Lookup(acc, row.number).value;
              && |r| == |acc| && (forall j :: 0 <= j < |acc| && j != k ==> r[j] == acc[j])
              && r[k].number == acc[k].number
              && r[k].quantity == if acc[k].quantity.None? then row.quantity else acc[k].quantity
  {
    match Lookup(acc, row.number)
    case None => acc + [Part(row.number, row.quantity)]
    case Some(k) =>
      if acc[k].quantity.None? && row.quantity.Some? then acc[k := Part(row.number, row.quantity)] else acc
  }

  /** The `deduped_parts` dictionary after the loop, in insertion order. */
  function Dedupe(rows: seq<Row>): seq<Part> {
    if rows == [] then [] else Absorb(Dedupe(rows[..|rows| - 1]), rows[|rows| - 1])
  }

  /** Where part number `n` first appears among the rows; `|rows|` when it
      does not. */
  function FirstAt(rows: seq<Row>, n: string): (r: nat)
    ensures r <= |rows| && (r < |rows| ==> rows[r].number == n)
    ensures forall j :: 0 <= j < r ==> rows[j].number != n
    decreases |rows|
  {
    if rows == [] then 0
    else if rows[0].number == n then 0
    else
      var r := 1 + FirstAt(rows[1..], n);
      assert forall j :: 1 <= j < r ==> rows[j] == rows[1..][j - 1];
      r
  }

  /** The first quantity any row gives for part number `n`. */
  function FirstQuantity(rows: seq<Row>, n: string): (q: Option<nat>)
    ensures q.None? ==> forall i :: 0 <= i < |rows| && rows[i].number == n ==> rows[i].quantity.None?
    ensures q.Some? ==> exists i :: 0 <= i < |rows| && rows[i].number == n && rows[i].quantity == q
                           && forall j :: 0 <= j < i && rows[j].number == n ==> rows[j].quantity.None?
    decreases |rows|
  {
    if rows == [] then None
    else if rows[0].number == n && rows[0].quantity.Some? then rows[0].quantity
    else
      var q := FirstQuantity(rows[1..], n);
      assert forall i :: 1 <= i < |rows| ==> rows[i] == rows[1..][i - 1];
      assert q.Some? ==> exists i :: 0 <= i < |rows| && rows[i].number == n && rows[i].quantity == q
                           && forall j :: 0 <= j < i && rows[j].number == n ==> rows[j].quantity.None? by {
        if q.Some? {
          var i :| 0 <= i < |rows| - 1 && rows[1..][i].number == n && rows[1..][i].quantity == q
                   && forall j :: 0 <= j < i && rows[1..][j].number == n ==> rows[1..][j].quantity.None?;
          assert rows[i + 1] == rows[1..][i];
        }
      }
      q
  }

  lemma {:induction false} FirstAtAppend(rows: seq<Row>, x: Row, n: string)
    ensures FirstAt(rows, n) < |rows| ==> FirstAt(rows + [x], n) == FirstAt(rows, n)
    ensures FirstAt(rows, n) == |rows| && x.number == n ==> FirstAt(rows + [x], n) == |rows|
  {
    var r, r' := FirstAt(rows, n), FirstAt(rows + [x], n);
    assert forall j :: 0 <= j < |rows| ==> (rows + [x])[j] == rows[j];
    if r < |rows| {
      assert (rows + [x])[r].number == n;
    } else if x.number == n {
      assert (rows + [x])[|rows|] == x;
    }
  }

  lemma {:induction false} FirstQuantityAppend(rows: seq<Row>, x: Row, n: string)
    ensures FirstQuantity(rows + [x], n) ==
              if FirstQuantity(rows, n).Some? then FirstQuantity(rows, n)
              else if x.number == n then x.quantity
              else None
    decreases |rows|
  {
    if rows != [] {
      assert (rows + [x])[1..] == rows[1..] + [x];
      FirstQuantityAppend(rows[1..], x, n);
    } else {
      assert [] + [x] == [x];
    }
  }

  /** No part number is listed twice. */
  predicate Unique(ps: seq<Part>) {
    forall k, l :: 0 <= k < l < |ps| ==> ps[k].number != ps[l].number
  }

  /** Every listed part number comes from a row. */
  predicate FromRows(rows: seq<Row>, ps: seq<Part>) {
    forall k :: 0 <= k < |ps| ==> FirstAt(rows, ps[k].number) < |rows|
  }

  /** Every row's part number is listed. */
  predicate Covers(rows: seq<Row>, ps: seq<Part>) {
    forall i :: 0 <= i < |rows| ==> Lookup(ps, rows[i].number).Some?
  }

  /** The part numbers are listed in the order they first appear in. */
  predicate InFirstOrder(rows: seq<Row>, ps: seq<Part>) {
    forall k, l :: 0 <= k < l < |ps| ==> FirstAt(rows, ps[k].number) < FirstAt(rows, ps[l].number)
  }

  /** Each listed part has the first quantity any row gives it. */
  predicate FirstQuantities(rows: seq<Row>, ps: seq<Part>) {
    forall k :: 0 <= k < |ps| ==> ps[k].quantity == FirstQuantity(rows, ps[k].number)
  }

  /** A turn of the loop keeps every entry's part number, and adds one for
      a new part number. */
  lemma {:induction false} AbsorbNumbers(acc: seq<Part>, x: Row)
    ensures var r := Absorb(acc, x);
            && (forall k :: 0 <= k < |acc| ==> r[k].number == acc[k].number)
            && (if Lookup(acc, x.number).None? then |r| == |acc| + 1 && r[|acc|].number == x.number
                else |r| == |acc|)
  {
  }

  /** The merged list holds each part number once. */
  lemma {:induction false} DedupeUnique(rows: seq<Row>)
    ensures Unique(Dedupe(rows))
    decreases |rows|
  {
    if rows != [] {
      var init, x := rows[..|rows| - 1], rows[|rows| - 1];
      DedupeUnique(init);
      var r0, r := Dedupe(init), Dedupe(rows);
      assert r == Absorb(r0, x);
      AbsorbNumbers(r0, x);
      forall k, l | 0 <= k < l < |r| ensures r[k].number != r[l].number {
        if l < |r0| {
          assert r[k].number == r0[k].number && r[l].number == r0[l].number;
        } else {
          assert r[k].number == r0[k].number;
        }
      }
    }
  }

  /** Every part number of the merged list comes from a row. */
  lemma {:induction false} DedupeFromRows(rows: seq<Row>)
    ensures FromRows(rows, Dedupe(rows))
    decreases |rows|
  {
    if rows != [] {
      var init, x := rows[..|rows| - 1], rows[|rows| - 1];
      assert rows == init + [x];
      DedupeFromRows(init);
      var r0, r := Dedupe(init), Dedupe(rows);
      assert r == Absorb(r0, x);
      AbsorbNumbers(r0, x);
      forall k | 0 <= k < |r| ensures FirstAt(rows, r[k].number) < |rows| {
        FirstAtAppend(init, x, r[k].number);
        if k < |r0| {
          assert r[k].number == r0[k].number;
        } else {
          assert rows[|init|].number == r[k].number;
        }
      }
    }
  }

  /** Every part number of the rows is in the merged list. */
  lemma {:induction false} DedupeCovers(rows: seq<Row>)
    ensures Covers(rows, Dedupe(rows))
    decreases |rows|
  {
    if rows != [] {
      var init, x := rows[..|rows| - 1], rows[|rows| - 1];
      DedupeCovers(init);
      var r0, r := Dedupe(init), Dedupe(rows);
      forall i | 0 <= i < |rows| ensures Lookup(r, rows[i].number).Some? {
        if i < |init| {
          assert rows[i] == init[i];
          var k := Lookup(r0, init[i].number).value;
          assert r[k].number == r0[k].number;
        } else if Lookup(r0, x.number).None? {
          assert r[|r0|].number == x.number;
        } else {
          var k := Lookup(r0, x.number).value;
          assert r[k].number == x.number;
        }
      }
    }
  }

  /** The merged list keeps the order in which part numbers first appear. */
  lemma {:induction false} DedupeOrder(rows: seq<Row>)
    ensures InFirstOrder(rows, Dedupe(rows))
    decreases |rows|
  {
    if rows != [] {
      var init, x := rows[..|rows| - 1], rows[|rows| - 1];
      assert rows == init + [x];
      DedupeOrder(init);
      DedupeFromRows(init);
      var r0, r := Dedupe(init), Dedupe(rows);
      assert r == Absorb(r0, x);
      AbsorbNumbers(r0, x);
      forall k | 0 <= k < |r0| ensures FirstAt(rows, r[k].number) == FirstAt(init, r0[k].number) < |init| {
        FirstAtAppend(init, x, r0[k].number);
      }
      if Lookup(r0, x.number).None? {
        NewNumber(init, x);
        FirstAtAppend(init, x, x.number);
      }
      forall k, l | 0 <= k < l < |r| ensures FirstAt(rows, r[k].number) < FirstAt(rows, r[l].number) {
      }
    }
  }

  /** Each merged part keeps the first quantity given for it: a later row
      fills in a missing quantity but never overwrites one. */
  lemma {:induction false} DedupeQuantity(rows: seq<Row>)
    ensures FirstQuantities(rows, Dedupe(rows))
    decreases |rows|
  {
    if rows != [] {
      var init, x := rows[..|rows| - 1], rows[|rows| - 1];
      assert rows == init + [x];
      DedupeQuantity(init);
      DedupeUnique(init);
      var r0, r := Dedupe(init), Dedupe(rows);
      assert r == Absorb(r0, x);
      forall k | 0 <= k < |r| ensures r[k].quantity == FirstQuantity(rows, r[k].number) {
        FirstQuantityAppend(init, x, r[k].number);
        if Lookup(r0, x.number).None? {
          if k == |r0| {
            NewNumber(init, x);
            assert r[k] == Part(x.number, x.quantity);
          } else {
            assert r[k] == r0[k];
          }
        } else {
          var m := Lookup(r0, x.number).value;
          if k != m {
            assert r[k] == r0[k];
            assert r0[k].number != r0[m].number;
          }
        }
      }
    }
  }

  /** A part number the merged list does not hold yet has not appeared. */
  lemma {:induction false} NewNumber(init: seq<Row>, x: Row)
    requires Lookup(Dedupe(init), x.number).None?
    ensures FirstQuantity(init, x.number).None? && FirstAt(init, x.number) == |init|
  {
    DedupeCovers(init);
    forall i | 0 <= i < |init| ensures init[i].number != x.number {
      assert Lookup(Dedupe(init), init[i].number).Some?;
    }
  }

  // ---------------------------------------------------------------------
  // The part list of a cut sheet

  const LayoutSource: string := "layout"
  const LineScanSource: string := "line_scan"

  /** The rows `extract_metadata` merges: those of the layout text's part
      table, or those of the plain text's when the layout gives none. */
  function CutsheetRows(layoutLines: seq<string>, lines: seq<string>): seq<Row> {
    var layout := ExtractParts(SlicePartSection(layoutLines, Some(TableHeader)), LayoutSource);
    if layout == [] then ExtractParts(SlicePartSection(lines, None), LineScanSource) else layout
  }

  /** The parts `extract_metadata` reports: its rows merged by part number. */
  function CutsheetParts(layoutLines: seq<string>, lines: seq<string>): seq<Part> {
    Dedupe(CutsheetRows(layoutLines, lines))
  }

  /** A cut sheet lists each part number of its rows once, in the order the
      numbers first appear, with the first quantity given for each. */
  lemma {:induction false} CutsheetPartsMerged(layoutLines: seq<string>, lines: seq<string>)
    ensures var rows := CutsheetRows(layoutLines, lines);
            var ps := CutsheetParts(layoutLines, lines);
            && Unique(ps) && FromRows(rows, ps) && Covers(rows, ps)
            && InFirstOrder(rows, ps) && FirstQuantities(rows, ps)
  {
    var rows := CutsheetRows(layoutLines, lines);
    DedupeUnique(rows);
    DedupeFromRows(rows);
    DedupeCovers(rows);
    DedupeOrder(rows);
    DedupeQuantity(rows);
  }
}

=== FILE: filename.dfy ===
/** `parse_filename` of the cut-sheet reader: a file stem such as
    `PRODUCT - 12AB` splits into a product, a run number and a station code
    by the pattern `^(?P<product>.+?)\s*-?\s*(?P<run>\d+)(?P<station>[A-Z]+)$`;
    a stem the pattern does not match is all product. */
module Filename {
  import opened Wrappers
  import opened Text

  datatype FileEntry = FileEntry(product: string, station: Option<string>, run: Option<string>)

  /** The three groups of a match, as matched (the product not yet
      stripped). */
  datatype Groups = Groups(product: string, sep: string, run: string, station: string)

  /** The length of the longest suffix of `s` whose characters all satisfy
      `p`. */
  function Tail(p: char -> bool, s: string): (r: nat)
    ensures r <= |s|
    ensures forall i :: |s| - r <= i < |s| ==> p(s[i])
    ensures r < |s| ==> !p(s[|s| - r - 1])
    decreases |s|
  {
    if |s| > 0 && p(s[|s| - 1]) then
      var r := 1 + Tail(p, s[..|s| - 1]);
      assert forall i :: |s| - r <= i < |s| - 1 ==> s[i] == s[..|s| - 1][i];
      r
    else 0
  }

  /** Text `\s*-?\s*` matches: blanks, at most one hyphen, blanks. */
  predicate Sep(s: string) {
    AllSpace(s) || exists k :: 0 <= k < |s| && s[k] == '-' && AllSpace(s[..k]) && AllSpace(s[k + 1..])
  }

  /** Where the separator before the run number starts: after the product,
      which the lazy `.+?` keeps as short as it can. */
  function SepStart(before: string): (k: nat)
    ensures k <= |before| && Sep(before[k..])
  {
    var j := |before| - Tail(IsSpace, before);
    if j > 0 && before[j - 1] == '-' then
      var head := before[..j - 1];
      var k := |head| - Tail(IsSpace, head);
      var s := before[k..];
      var h := j - 1 - k;
      assert s[..h] == head[k..];
      assert s[h + 1..] == before[j..];
      assert s[h] == '-' && AllSpace(s[..h]) && AllSpace(s[h + 1..]);
      k
    else
      assert AllSpace(before[j..]);
      j
  }

  /** Where the pattern's groups end in a stem: the station is the
      upper-case tail, the run the digits before it, the separator the
      blanks and hyphen before those, the product what remains and never
      empty. */
  function Cuts(stem: string): (r: Option<(nat, nat, nat)>)
    ensures r.Some? ==> 0 < r.value.0 <= r.value.1 < r.value.2 < |stem|
    ensures r.Some? ==> r.value.2 == |stem| - Tail(IsUpper, stem)
    ensures r.Some? ==> forall i :: r.value.1 <= i < r.value.2 ==> IsDigit(stem[i])
    ensures r.Some? ==> Sep(stem[r.value.0..r.value.1])
    // a product longer than one character ends where the separator starts
    ensures r.Some? && r.value.0 > 1 ==> r.value.0 == SepStart(stem[..r.value.1])
  {
    var u := Tail(IsUpper, stem);
    var e := |stem| - u;
    if u == 0 || e == 0 || !IsDigit(stem[e - 1]) then None
    else
      var d := Tail(IsDigit, stem[..e]);
      var b := e - d;
      assert forall i :: b <= i < e ==> stem[i] == stem[..e][i];
      if b == 0 then
        if d < 2 then None
        else
          assert Sep(stem[1..1]) by { assert AllSpace(stem[1..1]); }
          Some((1, 1, e))
      else
        var k := SepStart(stem[..b]);
        SepCut(stem, b);
        if k == 0 then Some((1, b, e)) else Some((k, b, e))
  }

  /** The separator `SepStart` finds before position `b`, and the one left
      when the product has to take its first character. */
  lemma {:induction false} SepCut(stem: string, b: nat)
    requires 0 < b <= |stem|
    ensures Sep(stem[SepStart(stem[..b])..b])
    ensures SepStart(stem[..b]) == 0 ==> Sep(stem[1..b])
  {
    var k := SepStart(stem[..b]);
    assert stem[..b][k..] == stem[k..b];
    if k == 0 {
      SepDropFirst(stem[..b]);
      assert stem[..b][1..] == stem[1..b];
    }
  }

  /** The pattern's match of a stem. */
  function Match(stem: string): (r: Option<Groups>)
    ensures r.Some? ==> stem == r.value.product + r.value.sep + r.value.run + r.value.station
  {
    match Cuts(stem)
    case None => None
    case Some((p, q, e)) =>
      Split4(stem, p, q, e);
      Some(Groups(stem[..p], stem[p..q], stem[q..e], stem[e..]))
  }

  /** A string is its four consecutive slices. */
  lemma {:induction false} Split4(s: string, p: nat, q: nat, e: nat)
    requires p <= q <= e <= |s|
    ensures s == s[..p] + s[p..q] + s[q..e] + s[e..]
  {
    assert s[..q] == s[..p] + s[p..q];
    assert s[..e] == s[..q] + s[q..e];
    assert s == s[..e] + s[e..];
  }

  /** The shape of a match: a non-empty product, a separator, a non-empty
      run of digits and a non-empty run of upper-case letters ending the
      stem. */
  predicate Shaped(g: Groups) {
    g.product != [] && Sep(g.sep) && g.run != [] && AllDigits(g.run) && g.station != [] && AllUpper(g.station)
  }

  /** What the match gives back has the pattern's shape, and the station
      is the whole upper-case tail. */
  lemma {:induction false} MatchSound(stem: string)
    requires Match(stem).Some?
    ensures Shaped(Match(stem).value)
    ensures |Match(stem).value.station| == Tail(IsUpper, stem)
  {
    var (p, q, e) := Cuts(stem).value;
    var st := stem[e..];
    forall i | 0 <= i < |st| ensures IsUpper(st[i]) {
      assert st[i] == stem[e + i];
    }
    var run := stem[q..e];
    forall i | 0 <= i < |run| ensures IsDigit(run[i]) {
      assert run[i] == stem[q + i];
    }
    assert Match(stem).value == Groups(stem[..p], stem[p..q], run, st);
  }

  /** Separators are closed under dropping their first character. */
  lemma {:induction false} SepDropFirst(s: string)
    requires s != [] && Sep(s)
    ensures Sep(s[1..])
  {
    if !AllSpace(s) {
      var k :| 0 <= k < |s| && s[k] == '-' && AllSpace(s[..k]) && AllSpace(s[k + 1..]);
      if k == 0 {
        assert s[1..] == s[k + 1..];
      } else {
        var t := s[1..];
        assert t[k - 1] == '-' && t[..k - 1] == s[1..k] && t[k..] == s[k + 1..];
      }
    }
  }

  /** Every stem of the pattern's shape has cuts: the station is cut off
      where the shape says, and the run starts no later. */
  lemma {:induction false} CutsComplete(stem: string, g: Groups)
    requires Shaped(g) && stem == g.product + g.sep + g.run + g.station
    ensures Cuts(stem).Some?
    ensures Cuts(stem).value.2 == |stem| - |g.station|
    ensures Cuts(stem).value.1 <= |stem| - |g.station| - |g.run|
  {
    var a := g.product + g.sep + g.run;
    assert stem == a + g.station;
    TailOf(IsUpper, a, g.station);
    var e := |stem| - Tail(IsUpper, stem);
    assert e == |a| && stem[..e] == a;
    assert stem[e - 1] == g.run[|g.run| - 1];
    assert a == (g.product + g.sep) + g.run;
    TailAtLeast(IsDigit, g.product + g.sep, g.run);
    var d := Tail(IsDigit, a);
    assert |g.run| <= d <= e;
  }

  /** The pattern matches every stem of its shape, and then finds that
      shape's station, at least that shape's digits and, the product being
      lazy, a product no longer than that shape's. */
  lemma {:induction false} MatchComplete(stem: string, g: Groups)
    requires Shaped(g) && stem == g.product + g.sep + g.run + g.station
    ensures Match(stem).Some?
    ensures Match(stem).value.station == g.station
    ensures |Match(stem).value.run| >= |g.run|
    ensures |Match(stem).value.product| <= |g.product|
  {
    CutsComplete(stem, g);
    CutsLeast(stem, g);
    var (p, q, e) := Cuts(stem).value;
    assert Match(stem).value == Groups(stem[..p], stem[p..q], stem[q..e], stem[e..]);
    assert stem[e..] == g.station;
  }

  /** A separator holds only blanks and hyphens. */
  lemma {:induction false} SepChars(s: string)
    requires Sep(s)
    ensures forall i :: 0 <= i < |s| ==> IsSpace(s[i]) || s[i] == '-'
  {
    if !AllSpace(s) {
      var k :| 0 <= k < |s| && s[k] == '-' && AllSpace(s[..k]) && AllSpace(s[k + 1..]);
      forall i | 0 <= i < |s| ensures IsSpace(s[i]) || s[i] == '-' {
        if i < k {
          assert s[i] == s[..k][i];
        } else if i > k {
          assert s[i] == s[k + 1..][i - k - 1];
        }
      }
    }
  }

  /** A separator holds no digit. */
  lemma {:induction false} SepNoDigit(s: string, i: nat)
    requires Sep(s) && i < |s|
    ensures !IsDigit(s[i])
  {
    SepChars(s);
  }

  /** Before the one hyphen of a separator there are only blanks. */
  lemma {:induction false} SepSpaceBefore(s: string, h: nat, i: nat)
    requires Sep(s) && i < h < |s| && s[h] == '-'
    ensures IsSpace(s[i])
  {
    assert !IsSpace(s[h]);
    var k :| 0 <= k < |s| && s[k] == '-' && AllSpace(s[..k]) && AllSpace(s[k + 1..]);
    assert s[..k][i] == s[i];
  }

  /** `SepStart` is the earliest start of a separator ending the text,
      which is where the shortest product ends. */
  lemma {:induction false} SepStartLeast(before: string, k': nat)
    requires k' <= |before| && Sep(before[k'..])
    ensures SepStart(before) <= k'
  {
    var j := |before| - Tail(IsSpace, before);
    if j > 0 && before[j - 1] == '-' {
      HyphenSepLeast(before, j, k');
    } else if k' < j {
      SepChars(before[k'..]);
    }
  }

  /** When the trailing blanks follow a hyphen, no separator starts before
      the blanks ahead of that hyphen. */
  lemma {:induction false} HyphenSepLeast(before: string, j: nat, k': nat)
    requires 0 < j <= |before| && before[j - 1] == '-' && k' <= |before| && Sep(before[k'..])
    requires forall i :: j <= i < |before| ==> IsSpace(before[i])
    ensures k' >= |before[..j - 1]| - Tail(IsSpace, before[..j - 1])
  {
    var s := before[k'..];
    var head := before[..j - 1];
    var k := |head| - Tail(IsSpace, head);
    if k' < k {
      assert s[j - 1 - k'] == before[j - 1];
      SepSpaceBefore(s, j - 1 - k', k - 1 - k');
    }
  }

  /** The cuts put the product's end no later than any split of the
      pattern's shape does. */
  lemma {:induction false} CutsLeast(stem: string, g: Groups)
    requires Shaped(g) && stem == g.product + g.sep + g.run + g.station
    ensures Cuts(stem).Some? && Cuts(stem).value.0 <= |g.product|
  {
    CutsComplete(stem, g);
    SepSlice(stem, g);
    CutsLeastAt(stem, g.sep, |g.product|);
  }

  /** The same, for a separator known only by where it lies. */
  lemma {:induction false} CutsLeastAt(stem: string, sep: string, pl: nat)
    requires 0 < pl && Sep(sep) && pl + |sep| <= |stem| && stem[pl..pl + |sep|] == sep
    requires Cuts(stem).Some? && Cuts(stem).value.1 <= pl + |sep| < Cuts(stem).value.2
    ensures Cuts(stem).value.0 <= pl
  {
    var c := Cuts(stem).value;
    if c.0 > pl {
      SepBeforeDigits(stem, sep, pl, c.1, c.2);
    }
  }

  /** The separator's place in the stem. */
  lemma {:induction false} SepSlice(stem: string, g: Groups)
    requires stem == g.product + g.sep + g.run + g.station
    ensures stem[|g.product|..|g.product| + |g.sep|] == g.sep
  {
    assert forall i :: 0 <= i < |g.sep| ==> stem[|g.product| + i] == g.sep[i];
  }

  /** A separator from `pl` up to a run of digits starting at `b` or later
      makes `pl` a separator start of the text before `b`. */
  lemma {:induction false} SepBeforeDigits(stem: string, sep: string, pl: nat, b: nat, e: nat)
    requires pl < b <= pl + |sep| < e <= |stem|
    requires forall i :: b <= i < e ==> IsDigit(stem[i])
    requires Sep(sep) && stem[pl..pl + |sep|] == sep
    ensures SepStart(stem[..b]) <= pl
  {
    if pl + |sep| > b {
      SepNoDigit(sep, b - pl);
    } else {
      assert stem[..b][pl..] == sep;
      SepStartLeast(stem[..b], pl);
    }
  }

  /** The tail of `a + b` is `b` when `b` is all `p` and `a` does not end in
      `p`. */
  lemma {:induction false} TailOf(p: char -> bool, a: string, b: string)
    requires forall i :: 0 <= i < |b| ==> p(b[i])
    requires b != [] && a != [] && !p(a[|a| - 1])
    ensures Tail(p, a + b) == |b|
  {
    TailAtLeast(p, a, b);
    var s := a + b;
    assert s[|s| - |b| - 1] == a[|a| - 1];
  }

  lemma {:induction false} TailAtLeast(p: char -> bool, a: string, b: string)
    requires forall i :: 0 <= i < |b| ==> p(b[i])
    ensures Tail(p, a + b) >= |b|
    decreases |b|
  {
    if b != [] {
      var s := a + b;
      assert s[..|s| - 1] == a + b[..|b| - 1];
      TailAtLeast(p, a, b[..|b| - 1]);
    }
  }

  /** `parse_filename`: the stripped product, station and run of a match;
      the whole stem as product, without station or run, otherwise. */
  function ParseFilename(stem: string): (e: FileEntry)
    ensures Match(stem).None? ==> e == FileEntry(stem, None, None)
    ensures Match(stem).Some? ==>
              && e.product == Strip(Match(stem).value.product)
              && e.station == Some(Match(stem).value.station)
              && e.run == Some(Match(stem).value.run)
  {
    match Match(stem)
    case Some(g) => FileEntry(Strip(g.product), Some(g.station), Some(g.run))
    case None => FileEntry(stem, None, None)
  }

  /** A stem without the pattern's shape is all product: there is a station
      and run exactly when the stem splits as the pattern says. */
  lemma {:induction false} ParseFilenameFallback(stem: string)
    ensures ParseFilename(stem).station.Some? <==>
              exists g :: Shaped(g) && stem == g.product + g.sep + g.run + g.station
    ensures ParseFilename(stem).station.None? ==> ParseFilename(stem) == FileEntry(stem, None, None)
  {
    if Match(stem).Some? {
      MatchSound(stem);
      var g := Match(stem).value;
      assert Shaped(g) && stem == g.product + g.sep + g.run + g.station;
    } else {
      forall g | Shaped(g) && stem == g.product + g.sep + g.run + g.station ensures false {
        MatchComplete(stem, g);
      }
    }
  }
}

=== FILE: geometry.dfy ===
/** The parsed program: a sheet and the parts cut from it, each part a list
    of contours, each contour a list of segments. This is the shape both
    HK MPF parsers return once contour ids have been assigned. */
module Geometry {
  import opened Wrappers

  /** A point in sheet coordinates (inches). */
  datatype Point = Point(x: real, y: real) {
    /** The point moved by a placement offset. */
    function Shift(off: Point): Point {
      Point(x + off.x, y + off.y)
    }
  }

  const Origin: Point := Point(0.0, 0.0)

  /** A straight move, or the points of a tessellated arc. */
  datatype Segment = Line(a: Point, b: Point) | Polyline(points: seq<Point>)

  /** A tessellated arc always carries at least its two end points. */
  predicate WellFormed(s: Segment) {
    s.Polyline? ==> |s.points| >= 2
  }

  /** `"outer"` when the first HKSTR argument is zero, `"hole"` otherwise. */
  datatype Kind = Outer | Hole

  /** `id` is assigned after parsing, counting from 1 over the whole program;
      `hkstr` keeps the numeric arguments of the HKSTR line that opened it. */
  datatype Contour = Contour(id: nat, kind: Kind, hkstr: seq<real>, segments: seq<Segment>)

  datatype Part = Part(programId: Option<int>, tech: Option<int>, contours: seq<Contour>)

  /** Both dimensions are 0.0 until an HKINI line sets them. */
  datatype Sheet = Sheet(width: real, height: real)

  datatype Program = Program(sheet: Sheet, parts: seq<Part>)

  /** Every contour of the program, in part-then-contour order. */
  function Contours(parts: seq<Part>): seq<Contour> {
    if parts == [] then [] else parts[0].contours + Contours(parts[1..])
  }

  /** Contour ids run 1, 2, 3, ... over the whole program, in
      part-then-contour order. */
  predicate NumberedFromOne(parts: seq<Part>) {
    forall k :: 0 <= k < |Contours(parts)| ==> Contours(parts)[k].id == k + 1
  }
}

=== FILE: parse_state.dfy ===
/** The state both HK MPF parsers carry from line to line, the command
    recognition they share, and the post-parse numbering of contours.

    The source threads mutable dictionaries through the loop and keeps
    aliases to the current part and the open contours. Here parts only ever
    grow, so an alias is an index: `current` names a part, each `Open` names
    one contour of one part together with the placement offset its
    coordinates are shifted by. */
module ParseState {
  import opened Wrappers
  import opened Text
  import opened Geometry
  import opened Seqs

  /** The regular-expression tokenisers and the arc tessellator, which the
      model does not interpret:
      - `callArgs(u, "HKOST")` is the list of numbers inside `HKOST(...)`;
      - `word(u, 'X')` is the number after the first `X` word, if any;
      - `arc(start, end, i, j, cw)` is the tessellated arc. */
  datatype Lexer = Lexer(
    callArgs: (string, string) -> seq<real>,
    word: (string, char) -> Option<real>,
    arc: (Point, Point, real, real, bool) -> seq<Point>)

  /** The tessellator samples at least 9 points, so every polyline it
      yields has at least its two end points. */
  ghost predicate Tessellates(lex: Lexer) {
    forall a, b, i, j, cw :: |lex.arc(a, b, i, j, cw)| >= 2
  }

  /** The points a tessellating lexer gives for an arc. */
  lemma {:induction false} ArcHasEnds(lex: Lexer, a: Point, b: Point, i: real, j: real, cw: bool)
    requires Tessellates(lex)
    ensures |lex.arc(a, b, i, j, cw)| >= 2
  {
  }

  /** A contour before its id is assigned. */
  datatype Draft = Draft(kind: Kind, hkstr: seq<real>, segments: seq<Segment>)

  /** A part while parsing; `offset` is the HKOST placement offset, dropped
      once parsing ends. */
  datatype PartDraft = PartDraft(programId: Option<int>, tech: Option<int>, offset: Point, contours: seq<Draft>)

  /** An open contour: `parts[part].contours[contour]`, placed at `offset`. */
  datatype Open = Open(part: nat, contour: nat, offset: Point)

  datatype State = State(
    cursor: Point,
    cutting: bool,
    sheet: Sheet,
    parts: seq<PartDraft>,
    current: Option<nat>,
    open: seq<Open>)

  const Init: State := State(Origin, false, Sheet(0.0, 0.0), [], None, [])

  function Segs(parts: seq<PartDraft>, o: Open): seq<Segment>
    requires o.part < |parts| && o.contour < |parts[o.part].contours|
  {
    parts[o.part].contours[o.contour].segments
  }

  predicate OpenValid(parts: seq<PartDraft>, open: seq<Open>) {
    && (forall i :: 0 <= i < |open| ==> open[i].part < |parts| && open[i].contour < |parts[open[i].part].contours|)
    && (forall i, j :: 0 <= i < j < |open| ==> open[i].part < open[j].part)
  }

  predicate PartsWellFormed(parts: seq<PartDraft>) {
    forall p, c, k :: 0 <= p < |parts| && 0 <= c < |parts[p].contours| && 0 <= k < |parts[p].contours[c].segments|
      ==> WellFormed(parts[p].contours[c].segments[k])
  }

  predicate Valid(s: State) {
    && (s.current.Some? ==> s.current.value < |s.parts|)
    && OpenValid(s.parts, s.open)
    && PartsWellFormed(s.parts)
  }

  /** The line commands, in the order the parsers try them. */
  datatype Command = Blank | Ini | Ost | Str | Cut | Sto | Ped | When | G1 | Arc(cw: bool) | Other

  /** Recognises the command of a normalised line. HKINI only counts at the
      start of the line; the HK calls are found anywhere in it, in a fixed
      priority order; motions count only at the start. */
  function Classify(u: string): Command {
    if u == [] then Blank else FirstRule(Rules, u)
  }

  /** Where a rule's pattern must occur in the line. */
  datatype Where = AtStart | Anywhere

  datatype Rule = Rule(where: Where, pattern: string, cmd: Command)

  /** The recognition rules, in the order the parsers try them. */
  const Rules: seq<Rule> := [
    Rule(AtStart, "HKINI", Ini), Rule(Anywhere, "HKOST(", Ost), Rule(Anywhere, "HKSTR(", Str),
    Rule(Anywhere, "HKCUT", Cut), Rule(Anywhere, "HKSTO", Sto), Rule(Anywhere, "HKPED", Ped),
    Rule(AtStart, "WHEN", When), Rule(AtStart, "G1", G1), Rule(AtStart, "G2", Arc(true)),
    Rule(AtStart, "G3", Arc(false))]

  predicate Fires(r: Rule, u: string) {
    match r.where
    case AtStart => StartsWith(u, r.pattern)
    case Anywhere => Contains(u, r.pattern)
  }

  /** The command of the first rule that fires, `Other` when none does. */
  function FirstRule(rules: seq<Rule>, u: string): Command {
    if rules == [] then Other
    else if Fires(rules[0], u) then rules[0].cmd
    else FirstRule(rules[1..], u)
  }

  /** The first six rules of the table, the HK calls, as a chain of
      tests. */
  lemma {:induction false} ClassifyCalls(u: string)
    ensures FirstRule(Rules, u) ==
      if StartsWith(u, "HKINI") then Ini
      else if Contains(u, "HKOST(") then Ost
      else if Contains(u, "HKSTR(") then Str
      else if Contains(u, "HKCUT") then Cut
      else if Contains(u, "HKSTO") then Sto
      else if Contains(u, "HKPED") then Ped
      else FirstRule(Rules[6..], u)
  {
    assert Rules[5..][1..] == Rules[6..];
    assert FirstRule(Rules[5..], u) == if Contains(u, "HKPED") then Ped else FirstRule(Rules[6..], u);
    assert Rules[4..][1..] == Rules[5..];
    assert FirstRule(Rules[4..], u) == if Contains(u, "HKSTO") then Sto else FirstRule(Rules[5..], u);
    assert Rules[3..][1..] == Rules[4..];
    assert FirstRule(Rules[3..], u) == if Contains(u, "HKCUT") then Cut else FirstRule(Rules[4..], u);
    assert Rules[2..][1..] == Rules[3..];
    assert FirstRule(Rules[2..], u) == if Contains(u, "HKSTR(") then Str else FirstRule(Rules[3..], u);
    assert Rules[1..][1..] == Rules[2..];
    assert FirstRule(Rules[1..], u) == if Contains(u, "HKOST(") then Ost else FirstRule(Rules[2..], u);
    assert Rules[0..][1..] == Rules[1..];
    assert FirstRule(Rules[0..], u) == if StartsWith(u, "HKINI") then Ini else FirstRule(Rules[1..], u);
    assert Rules[0..] == Rules;
  }

  /** The last four rules of the table, the line-start words. */
  lemma {:induction false} ClassifyWords(u: string)
    ensures FirstRule(Rules[6..], u) ==
      if StartsWith(u, "WHEN") then When
      else if StartsWith(u, "G1") then G1
      else if StartsWith(u, "G2") then Arc(true)
      else if StartsWith(u, "G3") then Arc(false)
      else Other
  {
    assert Rules[10..] == [];
    assert Rules[9..][1..] == Rules[10..];
    assert FirstRule(Rules[9..], u) == if StartsWith(u, "G3") then Arc(false) else FirstRule(Rules[10..], u);
    assert Rules[8..][1..] == Rules[9..];
    assert FirstRule(Rules[8..], u) == if StartsWith(u, "G2") then Arc(true) else FirstRule(Rules[9..], u);
    assert Rules[7..][1..] == Rules[8..];
    assert FirstRule(Rules[7..], u) == if StartsWith(u, "G1") then G1 else FirstRule(Rules[8..], u);
    assert Rules[6..][1..] == Rules[7..];
    assert FirstRule(Rules[6..], u) == if StartsWith(u, "WHEN") then When else FirstRule(Rules[7..], u);
  }

  /** The rule table read as the parsers' chain of tests. */
  lemma {:induction false} ClassifyChain(u: string)
    ensures Classify(u) ==
      if u == [] then Blank
      else if StartsWith(u, "HKINI") then Ini
      else if Contains(u, "HKOST(") then Ost
      else if Contains(u, "HKSTR(") then Str
      else if Contains(u, "HKCUT") then Cut
      else if Contains(u, "HKSTO") then Sto
      else if Contains(u, "HKPED") then Ped
      else if StartsWith(u, "WHEN") then When
      else if StartsWith(u, "G1") then G1
      else if StartsWith(u, "G2") then Arc(true)
      else if StartsWith(u, "G3") then Arc(false)
      else Other
  {
    ClassifyCalls(u);
    ClassifyWords(u);
  }

  /** The recognised command of a raw line. */
  function CommandOf(raw: string): Command {
    Classify(Normalize(raw))
  }

  /** Number of lines recognised as `cmd`. */
  function CountCommand(lines: seq<string>, cmd: Command): nat {
    if lines == [] then 0
    else CountCommand(lines[..|lines| - 1], cmd) + (if CommandOf(lines[|lines| - 1]) == cmd then 1 else 0)
  }

  /** A line that sets the sheet: it starts with HKINI and carries at
      least three numbers. */
  predicate IniLine(lex: Lexer, raw: string) {
    CommandOf(raw) == Ini && |lex.callArgs(Normalize(raw), "HKINI")| >= 3
  }

  /** The sheet an HKINI line sets: width and height are its 2nd and 3rd
      numbers. */
  function IniSheet(lex: Lexer, raw: string): Sheet
    requires IniLine(lex, raw)
  {
    var v := lex.callArgs(Normalize(raw), "HKINI");
    Sheet(v[1], v[2])
  }

  /** The index of the last line that sets the sheet, if any. */
  function LastIni(lex: Lexer, lines: seq<string>): Option<nat> {
    LastWhere(l => IniLine(lex, l), lines)
  }

  /** `int(vals[k]) if len(vals) > k else None` */
  function ArgInt(v: seq<real>, k: nat): Option<int> {
    if |v| > k then Some(Trunc(v[k])) else None
  }

  /** `vals[k] if len(vals) > k else default` */
  function ArgOr(v: seq<real>, k: nat, default: real): real {
    if |v| > k then v[k] else default
  }

  /** Outer when the first HKSTR argument truncates to zero (or is absent). */
  function KindOf(v: seq<real>): Kind {
    if (if |v| >= 1 then Trunc(v[0]) else 0) == 0 then Outer else Hole
  }

  /** The HKINI rule shared by both parsers: with three or more arguments
      the second and third become the sheet width and height. */
  function OnHkini(s: State, v: seq<real>): (t: State)
    ensures |v| >= 3 ==> t == s.(sheet := Sheet(v[1], v[2]))
    ensures |v| < 3 ==> t == s
  {
    if |v| >= 3 then s.(sheet := Sheet(v[1], v[2])) else s
  }

  /** The destination of a G1/G2/G3 move: a missing X or Y keeps the
      cursor's coordinate. */
  function Target(lex: Lexer, s: State, u: string): Point {
    Point(lex.word(u, 'X').GetOr(s.cursor.x), lex.word(u, 'Y').GetOr(s.cursor.y))
  }

  /** True when all four of X, Y, I and J are present on the line. */
  predicate ArcComplete(lex: Lexer, u: string) {
    lex.word(u, 'X').Some? && lex.word(u, 'Y').Some? && lex.word(u, 'I').Some? && lex.word(u, 'J').Some?
  }

  /** Two part lists that differ at most in the segments of their contours. */
  predicate SameShape(a: seq<PartDraft>, b: seq<PartDraft>) {
    && |a| == |b|
    && (forall p :: 0 <= p < |a| ==>
          a[p].programId == b[p].programId && a[p].tech == b[p].tech && a[p].offset == b[p].offset
          && |a[p].contours| == |b[p].contours|)
    && (forall p, c :: 0 <= p < |a| && 0 <= c < |a[p].contours| ==>
          a[p].contours[c].kind == b[p].contours[c].kind && a[p].contours[c].hkstr == b[p].contours[c].hkstr)
  }

  predicate Targeted(open: seq<Open>, p: nat, c: nat) {
    exists i :: 0 <= i < |open| && open[i].part == p && open[i].contour == c
  }

  /** Appends one segment to one contour. */
  function AppendAt(parts: seq<PartDraft>, o: Open, seg: Segment): (r: seq<PartDraft>)
    requires o.part < |parts| && o.contour < |parts[o.part].contours|
    ensures SameShape(parts, r)
    ensures Segs(r, o) == Segs(parts, o) + [seg]
  {
    var part := parts[o.part];
    var contour := part.contours[o.contour];
    parts[o.part := part.(contours := part.contours[o.contour := contour.(segments := contour.segments + [seg])])]
  }

  /** `AppendAt` changes the named contour only. */
  lemma {:induction false} AppendAtContour(parts: seq<PartDraft>, o: Open, seg: Segment, p: nat, c: nat)
    requires o.part < |parts| && o.contour < |parts[o.part].contours|
    requires p < |parts| && c < |parts[p].contours|
    ensures AppendAt(parts, o, seg)[p].contours[c].segments
         == parts[p].contours[c].segments + (if o.part == p && o.contour == c then [seg] else [])
  {
  }

  /** Appending to the first open contour keeps the rest of the open list
      valid. */
  lemma {:induction false} AppendKeepsOpen(parts: seq<PartDraft>, open: seq<Open>, seg: Segment)
    requires OpenValid(parts, open) && open != []
    ensures OpenValid(AppendAt(parts, open[0], seg), open[1..])
  {
    var mid := AppendAt(parts, open[0], seg);
    forall i | 0 <= i < |open[1..]|
      ensures open[1..][i].part < |mid| && open[1..][i].contour < |mid[open[1..][i].part].contours|
    {
      assert open[1..][i] == open[i + 1];
    }
    forall i, j | 0 <= i < j < |open[1..]| ensures open[1..][i].part < open[1..][j].part {
      assert open[1..][i] == open[i + 1] && open[1..][j] == open[j + 1];
    }
  }

  /** Appends `segOf(o)` to every open contour `o`, in order. */
  function Extend(parts: seq<PartDraft>, open: seq<Open>, segOf: Open -> Segment): (r: seq<PartDraft>)
    requires OpenValid(parts, open)
    ensures SameShape(parts, r)
    decreases |open|
  {
    if open == [] then parts
    else
      AppendKeepsOpen(parts, open, segOf(open[0]));
      Extend(AppendAt(parts, open[0], segOf(open[0])), open[1..], segOf)
  }

  /** The segments `Extend` appends to contour `c` of part `p`: one for
      each open entry naming that contour. */
  function Added(open: seq<Open>, segOf: Open -> Segment, p: nat, c: nat): seq<Segment> {
    if open == [] then []
    else (if open[0].part == p && open[0].contour == c then [segOf(open[0])] else []) + Added(open[1..], segOf, p, c)
  }

  lemma {:induction false} ExtendContour(parts: seq<PartDraft>, open: seq<Open>, segOf: Open -> Segment, p: nat, c: nat)
    requires OpenValid(parts, open) && p < |parts| && c < |parts[p].contours|
    ensures Extend(parts, open, segOf)[p].contours[c].segments
         == parts[p].contours[c].segments + Added(open, segOf, p, c)
    decreases |open|
  {
    if open != [] {
      var before := parts[p].contours[c].segments;
      var here := if open[0].part == p && open[0].contour == c then [segOf(open[0])] else [];
      var later := Added(open[1..], segOf, p, c);
      var mid := AppendAt(parts, open[0], segOf(open[0]));
      AppendKeepsOpen(parts, open, segOf(open[0]));
      AppendAtContour(parts, open[0], segOf(open[0]), p, c);
      ExtendContour(mid, open[1..], segOf, p, c);
      assert Extend(parts, open, segOf) == Extend(mid, open[1..], segOf);
      assert Added(open, segOf, p, c) == here + later;
      AppendAssoc(before, here, later);
    }
  }

  lemma {:induction false} AddedNone(open: seq<Open>, segOf: Open -> Segment, p: nat, c: nat)
    requires !Targeted(open, p, c)
    ensures Added(open, segOf, p, c) == []
    decreases |open|
  {
    if open != [] {
      assert !(open[0].part == p && open[0].contour == c);
      forall k | 0 <= k < |open[1..]| ensures !(open[1..][k].part == p && open[1..][k].contour == c) {
        assert open[1..][k] == open[k + 1];
      }
      AddedNone(open[1..], segOf, p, c);
    }
  }

  lemma {:induction false} AddedOne(open: seq<Open>, segOf: Open -> Segment, i: nat)
    requires i < |open|
    requires forall a, b :: 0 <= a < b < |open| ==> open[a].part < open[b].part
    ensures Added(open, segOf, open[i].part, open[i].contour) == [segOf(open[i])]
    decreases |open|
  {
    var p, c := open[i].part, open[i].contour;
    if i == 0 {
      forall k | 0 <= k < |open[1..]| ensures !(open[1..][k].part == p && open[1..][k].contour == c) {
        assert open[1..][k] == open[k + 1];
        assert open[0].part < open[k + 1].part;
      }
      AddedNone(open[1..], segOf, p, c);
    } else {
      assert open[0].part < open[i].part;
      assert open[1..][i - 1] == open[i];
      AddedOne(open[1..], segOf, i - 1);
    }
  }

  lemma {:induction false} AddedWellFormed(open: seq<Open>, segOf: Open -> Segment, p: nat, c: nat)
    requires forall i :: 0 <= i < |open| ==> WellFormed(segOf(open[i]))
    ensures forall k :: 0 <= k < |Added(open, segOf, p, c)| ==> WellFormed(Added(open, segOf, p, c)[k])
    decreases |open|
  {
    if open != [] {
      assert forall i :: 0 <= i < |open[1..]| ==> WellFormed(segOf(open[1..][i])) by {
        forall i | 0 <= i < |open[1..]| ensures WellFormed(segOf(open[1..][i])) {
          assert open[1..][i] == open[i + 1];
        }
      }
      AddedWellFormed(open[1..], segOf, p, c);
    }
  }

  /** `Extend` appends exactly `segOf(o)` to each open contour `o`, leaves
      every other contour as it was, and keeps every polyline well formed. */
  lemma {:induction false} ExtendEffect(parts: seq<PartDraft>, open: seq<Open>, segOf: Open -> Segment)
    requires OpenValid(parts, open)
    ensures forall i :: 0 <= i < |open| ==>
              Segs(Extend(parts, open, segOf), open[i]) == Segs(parts, open[i]) + [segOf(open[i])]
    ensures forall p, c :: 0 <= p < |parts| && 0 <= c < |parts[p].contours| && !Targeted(open, p, c)
              ==> Extend(parts, open, segOf)[p].contours[c] == parts[p].contours[c]
    ensures (PartsWellFormed(parts) && forall i :: 0 <= i < |open| ==> WellFormed(segOf(open[i])))
              ==> PartsWellFormed(Extend(parts, open, segOf))
  {
    var r := Extend(parts, open, segOf);
    forall i | 0 <= i < |open|
      ensures Segs(r, open[i]) == Segs(parts, open[i]) + [segOf(open[i])]
    {
      ExtendContour(parts, open, segOf, open[i].part, open[i].contour);
      AddedOne(open, segOf, i);
    }
    forall p, c | 0 <= p < |parts| && 0 <= c < |parts[p].contours| && !Targeted(open, p, c)
      ensures r[p].contours[c] == parts[p].contours[c]
    {
      ExtendContour(parts, open, segOf, p, c);
      AddedNone(open, segOf, p, c);
    }
    if PartsWellFormed(parts) && forall i :: 0 <= i < |open| ==> WellFormed(segOf(open[i])) {
      forall p, c, k | 0 <= p < |r| && 0 <= c < |r[p].contours| && 0 <= k < |r[p].contours[c].segments|
        ensures WellFormed(r[p].contours[c].segments[k])
      {
        ExtendContour(parts, open, segOf, p, c);
        AddedWellFormed(open, segOf, p, c);
        var before := parts[p].contours[c].segments;
        if k >= |before| {
          assert r[p].contours[c].segments[k] == Added(open, segOf, p, c)[k - |before|];
        }
      }
    }
  }

  /** `Extend` depends only on the segments it appends. */
  lemma {:induction false} ExtendCongruent(parts: seq<PartDraft>, open: seq<Open>, f: Open -> Segment, g: Open -> Segment)
    requires OpenValid(parts, open)
    requires forall i :: 0 <= i < |open| ==> f(open[i]) == g(open[i])
    ensures Extend(parts, open, f) == Extend(parts, open, g)
    decreases |open|
  {
    if open != [] {
      var mid := AppendAt(parts, open[0], f(open[0]));
      AppendKeepsOpen(parts, open, f(open[0]));
      ExtendCongruent(mid, open[1..], f, g);
    }
  }

  /** Opens a new, empty contour at the end of part `p`. */
  function AddContour(parts: seq<PartDraft>, p: nat, d: Draft): (r: seq<PartDraft>)
    requires p < |parts|
    ensures |r| == |parts| && r[p].contours == parts[p].contours + [d]
    ensures r[p].programId == parts[p].programId && r[p].tech == parts[p].tech && r[p].offset == parts[p].offset
    ensures forall q :: 0 <= q < |parts| && q != p ==> r[q] == parts[q]
    ensures ContourCount(r) == ContourCount(parts) + 1
  {
    ContourCountUpdate(parts, p, parts[p].(contours := parts[p].contours + [d]));
    parts[p := parts[p].(contours := parts[p].contours + [d])]
  }

  predicate Increasing(xs: seq<nat>) {
    forall i, j :: 0 <= i < j < |xs| ==> xs[i] < xs[j]
  }

  /** Opens a new contour `d` at the end of each part in `targets`. */
  function AddEach(parts: seq<PartDraft>, targets: seq<nat>, d: Draft): (r: seq<PartDraft>)
    requires Increasing(targets) && forall i :: 0 <= i < |targets| ==> targets[i] < |parts|
    ensures |r| == |parts|
    ensures forall q :: 0 <= q < |parts| ==>
              r[q].programId == parts[q].programId && r[q].tech == parts[q].tech && r[q].offset == parts[q].offset
              && r[q].contours == parts[q].contours + (if q in targets then [d] else [])
    ensures ContourCount(r) == ContourCount(parts) + |targets|
    decreases |targets|
  {
    if targets == [] then parts
    else
      var mid := AddContour(parts, targets[0], d);
      assert targets[0] !in targets[1..] by {
        forall i | 0 <= i < |targets[1..]| ensures targets[1..][i] != targets[0] {
          assert targets[1..][i] == targets[i + 1];
        }
      }
      assert forall q :: q in targets <==> q == targets[0] || q in targets[1..] by {
        assert targets == [targets[0]] + targets[1..];
      }
      AddEach(mid, targets[1..], d)
  }

  /** Opening empty contours keeps every polyline well formed. */
  lemma {:induction false} AddEachWellFormed(parts: seq<PartDraft>, targets: seq<nat>, d: Draft)
    requires Increasing(targets) && forall i :: 0 <= i < |targets| ==> targets[i] < |parts|
    requires PartsWellFormed(parts) && d.segments == []
    ensures PartsWellFormed(AddEach(parts, targets, d))
  {
    var r := AddEach(parts, targets, d);
    forall p, c, k | 0 <= p < |r| && 0 <= c < |r[p].contours| && 0 <= k < |r[p].contours[c].segments|
      ensures WellFormed(r[p].contours[c].segments[k])
    {
      assert c < |parts[p].contours|;
      assert r[p].contours[c] == parts[p].contours[c];
    }
  }

  /** HKSTR's effect on the open set: one new, empty contour per target
      part, each opened at its part's placement offset, replacing whatever
      was open before; the cursor moves to `cursor`. */
  function OpenContours(s: State, targets: seq<nat>, d: Draft, cursor: Point): (t: State)
    requires Valid(s) && d.segments == []
    requires Increasing(targets) && forall i :: 0 <= i < |targets| ==> targets[i] < |s.parts|
    ensures Valid(t)
    ensures |t.parts| == |s.parts| && |t.open| == |targets|
    ensures forall i :: 0 <= i < |targets| ==>
              t.open[i] == Open(targets[i], |s.parts[targets[i]].contours|, s.parts[targets[i]].offset)
              && t.parts[targets[i]].contours[t.open[i].contour] == d
    ensures forall q :: 0 <= q < |s.parts| ==>
              t.parts[q].programId == s.parts[q].programId && t.parts[q].tech == s.parts[q].tech
              && t.parts[q].offset == s.parts[q].offset
              && t.parts[q].contours == s.parts[q].contours + (if q in targets then [d] else [])
    ensures ContourCount(t.parts) == ContourCount(s.parts) + |targets|
    ensures t.cursor == cursor && t.cutting == s.cutting && t.sheet == s.sheet
    ensures t.current == s.current
  {
    var parts := AddEach(s.parts, targets, d);
    var open := seq(|targets|, i requires 0 <= i < |targets| =>
      Open(targets[i], |s.parts[targets[i]].contours|, s.parts[targets[i]].offset));
    AddEachWellFormed(s.parts, targets, d);
    forall i | 0 <= i < |targets|
      ensures open[i].contour < |parts[targets[i]].contours| && parts[targets[i]].contours[open[i].contour] == d
    {
      assert targets[i] in targets;
    }
    s.(parts := parts, open := open, cursor := cursor)
  }

  /** Appends a part with no contours and makes it the current part. */
  function StartPart(s: State, part: PartDraft): (t: State)
    requires Valid(s) && part.contours == []
    ensures Valid(t)
    ensures t.parts == s.parts + [part] && t.current == Some(|s.parts|)
    ensures t.cursor == s.cursor && t.cutting == s.cutting && t.sheet == s.sheet && t.open == s.open
    ensures ContourCount(t.parts) == ContourCount(s.parts)
  {
    ContourCountAppend(s.parts, [part]);
    assert ContourCount([part]) == 0;
    var t := s.(parts := s.parts + [part], current := Some(|s.parts|));
    assert forall p :: 0 <= p < |s.parts| ==> t.parts[p] == s.parts[p];
    t
  }

  /** Moves the cursor to `next` after appending `segOf(o)` to every open
      contour `o`. */
  function Move(s: State, segOf: Open -> Segment, next: Point): (t: State)
    requires Valid(s)
    requires forall i :: 0 <= i < |s.open| ==> WellFormed(segOf(s.open[i]))
    ensures Valid(t)
    ensures t.cursor == next
    ensures t.cutting == s.cutting && t.sheet == s.sheet && t.current == s.current
    ensures t.open == s.open
    ensures SameShape(s.parts, t.parts) && ContourCount(t.parts) == ContourCount(s.parts)
    ensures forall i :: 0 <= i < |s.open| ==> Segs(t.parts, s.open[i]) == Segs(s.parts, s.open[i]) + [segOf(s.open[i])]
    ensures forall p, c :: 0 <= p < |s.parts| && 0 <= c < |s.parts[p].contours| && !Targeted(s.open, p, c)
              ==> t.parts[p].contours[c] == s.parts[p].contours[c]
  {
    var parts := Extend(s.parts, s.open, segOf);
    ExtendEffect(s.parts, s.open, segOf);
    ContourCountShape(s.parts, parts);
    s.(parts := parts, cursor := next)
  }

  /** Total number of contours over a list of parts. */
  function ContourCount(parts: seq<PartDraft>): nat {
    if parts == [] then 0 else |parts[0].contours| + ContourCount(parts[1..])
  }

  lemma {:induction false} ContourCountShape(a: seq<PartDraft>, b: seq<PartDraft>)
    requires SameShape(a, b)
    ensures ContourCount(a) == ContourCount(b)
    decreases |a|
  {
    if a != [] {
      assert SameShape(a[1..], b[1..]) by {
        forall p, c | 0 <= p < |a[1..]| && 0 <= c < |a[1..][p].contours|
          ensures a[1..][p].contours[c].kind == b[1..][p].contours[c].kind
        {
          assert a[1..][p] == a[p + 1];
        }
      }
      ContourCountShape(a[1..], b[1..]);
    }
  }

  lemma {:induction false} ContourCountAppend(a: seq<PartDraft>, b: seq<PartDraft>)
    ensures ContourCount(a + b) == ContourCount(a) + ContourCount(b)
    decreases |a|
  {
    if a != [] {
      assert (a + b)[1..] == a[1..] + b;
      ContourCountAppend(a[1..], b);
    } else {
      assert a + b == b;
    }
  }

  /** Replacing one part changes the total by the difference in its
      contour count. */
  lemma {:induction false} ContourCountUpdate(a: seq<PartDraft>, p: nat, x: PartDraft)
    requires p < |a|
    ensures ContourCount(a[p := x]) + |a[p].contours| == ContourCount(a) + |x.contours|
  {
    assert a == a[..p] + [a[p]] + a[p + 1..];
    assert a[p := x] == a[..p] + [x] + a[p + 1..];
    ContourCountAppend(a[..p] + [a[p]], a[p + 1..]);
    ContourCountAppend(a[..p], [a[p]]);
    ContourCountAppend(a[..p] + [x], a[p + 1..]);
    ContourCountAppend(a[..p], [x]);
    assert [a[p]][1..] == [] && [x][1..] == [];
  }

  /** Numbers the contours of one part consecutively from `next`. */
  function NumberContours(cs: seq<Draft>, next: nat): (r: seq<Contour>)
    ensures |r| == |cs|
    ensures forall i :: 0 <= i < |cs| ==>
              r[i].id == next + i && r[i].kind == cs[i].kind && r[i].hkstr == cs[i].hkstr && r[i].segments == cs[i].segments
  {
    seq(|cs|, i requires 0 <= i < |cs| => Contour(next + i, cs[i].kind, cs[i].hkstr, cs[i].segments))
  }

  /** The post-parse pass: drops each part's offset and numbers every
      contour, part by part, starting at `next`. */
  function NumberParts(parts: seq<PartDraft>, next: nat): (r: seq<Part>)
    ensures |r| == |parts|
    ensures forall p :: 0 <= p < |parts| ==>
              r[p].programId == parts[p].programId && r[p].tech == parts[p].tech
              && |r[p].contours| == |parts[p].contours|
              && forall c :: 0 <= c < |parts[p].contours| ==>
                   r[p].contours[c].kind == parts[p].contours[c].kind
                   && r[p].contours[c].hkstr == parts[p].contours[c].hkstr
                   && r[p].contours[c].segments == parts[p].contours[c].segments
    decreases |parts|
  {
    if parts == [] then []
    else
      [Part(parts[0].programId, parts[0].tech, NumberContours(parts[0].contours, next))]
        + NumberParts(parts[1..], next + |parts[0].contours|)
  }

  /** After numbering, the contours of the whole program, read in
      part-then-contour order, carry the ids `next, next + 1, ...`, and
      there are exactly as many as the drafts held. */
  lemma {:induction false} NumberingIsSequential(parts: seq<PartDraft>, next: nat)
    ensures |Contours(NumberParts(parts, next))| == ContourCount(parts)
    ensures forall k :: 0 <= k < |Contours(NumberParts(parts, next))| ==> Contours(NumberParts(parts, next))[k].id == next + k
    decreases |parts|
  {
    if parts != [] {
      var r := NumberParts(parts, next);
      var head := NumberContours(parts[0].contours, next);
      NumberingIsSequential(parts[1..], next + |parts[0].contours|);
      assert r[1..] == NumberParts(parts[1..], next + |parts[0].contours|);
      assert Contours(r) == head + Contours(r[1..]);
    }
  }

  /** The final model: the sheet, and the parts with numbered contours. */
  function Finish(s: State): (prog: Program)
    ensures prog.sheet == s.sheet && |prog.parts| == |s.parts|
    ensures |Contours(prog.parts)| == ContourCount(s.parts)
    ensures NumberedFromOne(prog.parts)
  {
    NumberingIsSequential(s.parts, 1);
    Program(s.sheet, NumberParts(s.parts, 1))
  }

  /** `re.match(r"N(\d+)", u)`: the number right after a leading `N`. */
  function LineNumber(u: string): (r: Option<nat>)
    ensures r.Some? <==> |u| >= 2 && u[0] == 'N' && IsDigit(u[1])
    ensures r.Some? ==> r.value == DigitsValue(DigitRun(u[1..]))
  {
    if |u| >= 1 && u[0] == 'N' && DigitRun(u[1..]) != [] then Some(DigitsValue(DigitRun(u[1..]))) else None
  }

  /** `line_no or -1`: the key an HKSTR line looks its placed parts up by. A
      missing number and the number 0 both give -1. */
  function PlacementKey(u: string): (k: int)
    ensures k == -1 || (k > 0 && LineNumber(u) == Some(k))
    ensures LineNumber(u).Some? && LineNumber(u).value > 0 ==> k == LineNumber(u).value
  {
    match LineNumber(u)
    case Some(n) => if n == 0 then -1 else n
    case None => -1
  }
}

=== FILE: part_line.dfy ===
/** `parse_part_line` of the cut-sheet reader: the first `FR-` part number
    of a line and the quantity the line gives for it. The regular
    expressions it uses are written out as predicates on positions, with
    Python's `\b` on ASCII text (word characters are letters, digits and
    `_`). */
module PartLine {
  import opened Wrappers
  import opened Text
  import opened Seqs

  predicate IsWordChar(c: char) {
    IsAlpha(c) || IsDigit(c) || c == '_'
  }

  /** `[A-Z0-9]` */
  predicate IsPartChar(c: char) {
    IsUpper(c) || IsDigit(c)
  }

  /** The end of the run of characters satisfying `p` that starts at `i`. */
  function Span(p: char -> bool, t: string, i: nat): (e: nat)
    requires i <= |t|
    ensures i <= e <= |t| && (e < |t| ==> !p(t[e]))
    ensures forall k :: i <= k < e ==> p(t[k])
    decreases |t| - i
  {
    if i < |t| && p(t[i]) then Span(p, t, i + 1) else i
  }

  /** A run is found where it really ends. */
  lemma {:induction false} SpanOf(p: char -> bool, t: string, i: nat, e: nat)
    requires i <= e <= |t| && (e < |t| ==> !p(t[e]))
    requires forall k :: i <= k < e ==> p(t[k])
    ensures Span(p, t, i) == e
    decreases e - i
  {
    if i < e {
      SpanOf(p, t, i + 1, e);
    }
  }

  /** The start of the run of digits that ends at `e`, not reaching below
      `lo`. */
  function DigitTail(t: string, lo: nat, e: nat): (b: nat)
    requires lo <= e <= |t|
    ensures lo <= b <= e && (b > lo ==> !IsDigit(t[b - 1]))
    ensures forall k :: b <= k < e ==> IsDigit(t[k])
    decreases e
  {
    if e > lo && IsDigit(t[e - 1]) then DigitTail(t, lo, e - 1) else e
  }

  lemma {:induction false} DigitTailOf(t: string, lo: nat, b: nat, e: nat)
    requires lo <= b <= e <= |t| && (b > lo ==> !IsDigit(t[b - 1]))
    requires forall k :: b <= k < e ==> IsDigit(t[k])
    ensures DigitTail(t, lo, e) == b
    decreases e
  {
    if b < e {
      DigitTailOf(t, lo, b, e - 1);
    }
  }

  /** `int()` of the digits `t[b..e]`. */
  function DigitsAt(t: string, b: nat, e: nat): (v: nat)
    requires b <= e <= |t| && forall k :: b <= k < e ==> IsDigit(t[k])
    ensures e - b <= 2 ==> v < 100
  {
    var d := t[b..e];
    assert forall k :: 0 <= k < |d| ==> d[k] == t[b + k];
    if |d| == 2 then
      var h := d[..1];
      assert h[..0] == [] && h[0] == d[0] && IsDigit(h[0]);
      assert DigitsValue(h) == DigitsValue(h[..0]) * 10 + (h[0] as int - '0' as int);
      DigitsValue(d)
    else if |d| == 1 then
      assert d[..0] == [];
      assert DigitsValue(d) == DigitsValue(d[..0]) * 10 + (d[0] as int - '0' as int);
      DigitsValue(d)
    else
      DigitsValue(d)
  }

  // ---------------------------------------------------------------------
  // `FR-[A-Z0-9]+`

  /** `FR-` and a part character start at `i`. */
  predicate FrAt(t: string, i: nat) {
    i + 3 < |t| && t[i] == 'F' && t[i + 1] == 'R' && t[i + 2] == '-' && IsPartChar(t[i + 3])
  }

  /** Where the greedy `FR-[A-Z0-9]+` starting at `i` ends. */
  function TokenEnd(t: string, i: nat): (e: nat)
    requires FrAt(t, i)
    ensures i + 3 < e <= |t| && (e < |t| ==> !IsPartChar(t[e]))
    ensures forall k :: i + 3 <= k < e ==> IsPartChar(t[k])
  {
    Span(IsPartChar, t, i + 3)
  }

  function FrFlags(t: string): (bs: seq<bool>)
    ensures |bs| == |t| && forall p :: 0 <= p < |t| ==> bs[p] == FrAt(t, p)
  {
    seq(|t|, p requires 0 <= p < |t| => FrAt(t, p))
  }

  /** `re.search(r"(FR-[A-Z0-9]+)", t)`: where the first part number
      starts. */
  function FirstFr(t: string): (r: Option<nat>)
    ensures r.Some? ==> FrAt(t, r.value)
    ensures forall p :: 0 <= p < |t| && (r.None? || p < r.value) ==> !FrAt(t, p)
  {
    FirstSet(FrFlags(t), 0)
  }

  /** A line where the search finds a part number contains `FR-`. */
  lemma {:induction false} FirstFrContains(t: string)
    ensures FirstFr(t).Some? ==> Contains(t, "FR-")
  {
    if FirstFr(t).Some? {
      ContainsFr(t, FirstFr(t).value);
    }
  }

  /** `"FR-" in t` holds wherever `FR-` is written. */
  lemma {:induction false} ContainsFr(t: string, p: nat)
    requires FrAt(t, p)
    ensures Contains(t, "FR-")
    decreases p
  {
    if p == 0 {
      assert t[..3] == "FR-";
    } else {
      ContainsFr(t[1..], p - 1);
    }
  }

  // ---------------------------------------------------------------------
  // The quantity heuristics

  /** `re.search(r"\d+\.\d+", t)` finds something. */
  predicate HasDecimal(t: string) {
    exists i :: 0 <= i && i + 2 < |t| && IsDigit(t[i]) && t[i + 1] == '.' && IsDigit(t[i + 2])
  }

  /** `re.match(r"^(FR-[A-Z0-9]*[A-Z]+)(\d{1,2})\b", t)`: a line that
      opens with a part number ending in a letter, run together with one or
      two digits. The digits are the whole digit tail of the first token,
      since `\b` cannot fall inside it. */
  function StartMatch(t: string): (r: Option<(string, nat)>)
    ensures r.Some? ==> FrAt(t, 0) && |r.value.0| < TokenEnd(t, 0) && r.value.0 == t[..|r.value.0|]
    ensures r.Some? ==> 3 < |r.value.0| && IsUpper(r.value.0[|r.value.0| - 1]) && r.value.1 < 100
    // the count is the one or two digits ending the first token, at a word boundary
    ensures r.Some? ==>
              && TokenEnd(t, 0) - |r.value.0| <= 2
              && (forall k :: |r.value.0| <= k < TokenEnd(t, 0) ==> IsDigit(t[k]))
              && (TokenEnd(t, 0) == |t| || !IsWordChar(t[TokenEnd(t, 0)]))
              && r.value.1 == DigitsAt(t, |r.value.0|, TokenEnd(t, 0))
  {
    if !FrAt(t, 0) then None
    else
      var e := TokenEnd(t, 0);
      var b := DigitTail(t, 3, e);
      if b > 3 && e - b <= 2 && b < e && (e == |t| || !IsWordChar(t[e])) then
        Some((t[..b], DigitsAt(t, b, e)))
      else None
  }

  /** `re.search(re.escape(pn) + r"(\d{1,2})\b", t)` matches at `q`: the
      part number again, directly followed by one or two digits that end a
      word. */
  predicate AppendedAt(t: string, pn: string, q: nat) {
    q + |pn| < |t| && t[q..q + |pn|] == pn
    && var e := Span(IsDigit, t, q + |pn|);
       q + |pn| < e <= q + |pn| + 2 && (e == |t| || !IsWordChar(t[e]))
  }

  /** The count a match at `q` gives: `int()` of its digits. */
  function AppendedValue(t: string, pn: string, q: nat): (v: nat)
    requires AppendedAt(t, pn, q)
    ensures v < 100
  {
    DigitsAt(t, q + |pn|, Span(IsDigit, t, q + |pn|))
  }

  function AppendedFlags(t: string, pn: string): (bs: seq<bool>)
    ensures |bs| == |t| && forall q :: 0 <= q < |t| ==> bs[q] == AppendedAt(t, pn, q)
  {
    seq(|t|, q requires 0 <= q < |t| => AppendedAt(t, pn, q))
  }

  /** The count the first such match gives. */
  function Appended(t: string, pn: string): (r: Option<nat>)
    ensures r.Some? <==> exists q :: 0 <= q < |t| && AppendedAt(t, pn, q)
    ensures r.Some? ==> r.value < 100
    // the count is read at the leftmost match
    ensures r.Some? ==> exists q :: 0 <= q < |t| && AppendedAt(t, pn, q)
                          && (forall q' :: 0 <= q' < q ==> !AppendedAt(t, pn, q'))
                          && r.value == AppendedValue(t, pn, q)
  {
    match FirstSet(AppendedFlags(t, pn), 0)
    case None => None
    case Some(q) =>
      Some(AppendedValue(t, pn, q))
  }

  /** `(?<!\.)\b\d{1,2}\b(?!\.)` matches at `i`: one or two digits standing
      alone, not next to a point. */
  predicate LoneAt(t: string, i: nat) {
    i < |t| && IsDigit(t[i]) && (i == 0 || (!IsWordChar(t[i - 1]) && t[i - 1] != '.'))
    && var e := Span(IsDigit, t, i);
       e - i <= 2 && (e == |t| || (!IsWordChar(t[e]) && t[e] != '.'))
  }

  /** The count a lone number at `i` gives. */
  function LoneValue(t: string, i: nat): (v: nat)
    requires LoneAt(t, i)
    ensures v < 100
  {
    DigitsAt(t, i, Span(IsDigit, t, i))
  }

  function LoneFlags(t: string): (bs: seq<bool>)
    ensures |bs| == |t| && forall i :: 0 <= i < |t| ==> bs[i] == LoneAt(t, i)
  {
    seq(|t|, i requires 0 <= i < |t| => LoneAt(t, i))
  }

  /** `int(re.findall(...)[-1])`: the last lone count of the line. */
  function LastLone(t: string): (r: Option<nat>)
    ensures r.Some? <==> exists i :: 0 <= i < |t| && LoneAt(t, i)
    ensures r.Some? ==> r.value < 100
    // the count is read at the rightmost lone number
    ensures r.Some? ==> exists i :: 0 <= i < |t| && LoneAt(t, i)
                          && (forall i' :: i < i' < |t| ==> !LoneAt(t, i'))
                          && r.value == LoneValue(t, i)
  {
    match LastWhere(b => b, LoneFlags(t))
    case None => None
    case Some(i) =>
      Some(LoneValue(t, i))
  }

  // ---------------------------------------------------------------------
  // parse_part_line

  /** `parse_part_line`: nothing without a part number; otherwise the first
      part number, split from a count run into it when the line opens that
      way and holds a decimal, else with the count written right after a
      later copy of it, else with the last lone count on the line. */
  function ParsePartLine(t: string): (r: Option<(string, Option<nat>)>)
    // the `"FR-" in line` guard never hides a part number the search finds
    ensures r.None? <==> FirstFr(t).None?
  {
    if !Contains(t, "FR-") then
      FirstFrContains(t);
      None
    else
      match FirstFr(t)
      case None => None
      case Some(p) =>
        var token := t[p..TokenEnd(t, p)];
        var start := if StartMatch(t).Some? && HasDecimal(t) then StartMatch(t) else None;
        match start
        case Some((pn, q)) => Some((pn, Some(q)))
        case None =>
          var appended := if IsUpper(token[|token| - 1]) then Appended(t, token) else None;
          if appended.Some? then Some((token, appended)) else Some((token, LastLone(t)))
  }

  /** A line gives a part exactly when `FR-` and a part character occur in
      it somewhere. */
  lemma {:induction false} ParsePartLineNone(t: string)
    ensures ParsePartLine(t).None? <==> forall p :: 0 <= p < |t| ==> !FrAt(t, p)
  {
    match FirstFr(t)
    case None =>
    case Some(p) =>
      ContainsFr(t, p);
  }

  /** The part number found is the first `FR-` token of the line, or a
      start of it longer than `FR-`. */
  lemma {:induction false} ParsePartLineToken(t: string)
    requires ParsePartLine(t).Some?
    ensures var pn := ParsePartLine(t).value.0;
            var p := FirstFr(t).value;
            3 < |pn| && p + |pn| <= TokenEnd(t, p) && pn == t[p..p + |pn|]
  {
    var p := FirstFr(t).value;
    var e := TokenEnd(t, p);
    var pn := ParsePartLine(t).value.0;
    if StartMatch(t).Some? && HasDecimal(t) {
      assert p == 0;
      assert pn == StartMatch(t).value.0;
    } else {
      assert pn == t[p..e];
    }
  }

  /** Hence it is `FR-` followed by part characters. */
  lemma {:induction false} ParsePartLineShape(t: string)
    requires ParsePartLine(t).Some?
    ensures var pn := ParsePartLine(t).value.0;
            3 < |pn| && pn[..3] == "FR-" && forall k :: 3 <= k < |pn| ==> IsPartChar(pn[k])
  {
    var pn := ParsePartLine(t).value.0;
    var p := FirstFr(t).value;
    ParsePartLineToken(t);
    assert 3 < |pn| && p + |pn| <= TokenEnd(t, p) && pn == t[p..p + |pn|];
    TokenPrefix(t, p, pn);
  }

  lemma {:induction false} TokenPrefix(t: string, p: nat, pn: string)
    requires FrAt(t, p) && 3 < |pn| && p + |pn| <= TokenEnd(t, p) && pn == t[p..p + |pn|]
    ensures pn[..3] == "FR-" && forall k :: 3 <= k < |pn| ==> IsPartChar(pn[k])
  {
    assert forall k :: 0 <= k < |pn| ==> pn[k] == t[p + k];
  }

  /** The count has at most two digits. */
  lemma {:induction false} ParsePartLineCount(t: string)
    requires ParsePartLine(t).Some? && ParsePartLine(t).value.1.Some?
    ensures ParsePartLine(t).value.1.value < 100
  {
  }

  /** The start match and the first token of such a line. */
  lemma {:induction false} StartSplitMatch(pn: string, d: string, rest: string)
    requires 3 < |pn| && pn[..3] == "FR-" && IsUpper(pn[|pn| - 1])
    requires forall k :: 3 <= k < |pn| ==> IsPartChar(pn[k])
    requires 0 < |d| <= 2 && AllDigits(d)
    requires rest == [] || !IsWordChar(rest[0])
    ensures FrAt(pn + d + rest, 0) && Contains(pn + d + rest, "FR-")
    ensures StartMatch(pn + d + rest) == Some((pn, DigitsValue(d)))
  {
    var t := pn + d + rest;
    var b := |pn|;
    var e := |pn| + |d|;
    assert t[..b] == pn && t[b..e] == d;
    assert forall k :: 0 <= k < b ==> t[k] == pn[k];
    assert forall k :: b <= k < e ==> t[k] == d[k - b];
    assert e < |t| ==> t[e] == rest[0];
    assert FrAt(t, 0);
    SpanOf(IsPartChar, t, 3, e);
    DigitTailOf(t, 3, b, e);
    ContainsFr(t, 0);
  }

  /** A line that opens with a part number ending in a letter, run into a
      one- or two-digit count, and holds a decimal somewhere, is read back as
      that part number and that count. */
  lemma {:induction false} StartSplit(pn: string, d: string, rest: string)
    requires 3 < |pn| && pn[..3] == "FR-" && IsUpper(pn[|pn| - 1])
    requires forall k :: 3 <= k < |pn| ==> IsPartChar(pn[k])
    requires 0 < |d| <= 2 && AllDigits(d)
    requires rest == [] || !IsWordChar(rest[0])
    requires HasDecimal(pn + d + rest)
    ensures ParsePartLine(pn + d + rest) == Some((pn, Some(DigitsValue(d))))
  {
    StartSplitMatch(pn, d, rest);
    assert FirstFr(pn + d + rest) == Some(0);
  }
}

=== FILE: reorder.dfy ===
/** `export_reordered_mpf`: cuts a program's lines into a preamble, the
    HKSTR...HKSTO contour blocks and a postamble, then writes the blocks
    back in a caller-given order. Both copies of the processor split and
    reassemble the same way. */
module Reorder {
  import opened Wrappers
  import opened Text
  import opened Seqs

  /** How the splitter reads a line, tried in this order on
      `line.strip().upper()`: a line with `HKSTR(` starts a block, a line
      with `HKSTO` ends the block it is in. */
  datatype LineKind = Begin | End | Plain

  function KindOf(line: string): LineKind {
    var u := Normalize(line);
    if Contains(u, "HKSTR(") then Begin else if Contains(u, "HKSTO") then End else Plain
  }

  /** The loop variables of the splitter: `inBlock`, `cur` and `seen` are
      `in_block`, `cur`/`current` and `seen_any`. */
  datatype Splitter = Splitter(
    pre: seq<string>, blocks: seq<seq<string>>, post: seq<string>,
    inBlock: bool, cur: seq<string>, seen: bool)

  const Start: Splitter := Splitter([], [], [], false, [], false)

  /** One turn of the loop on a line of kind `k`. A Begin line always
      starts a new block, even inside an unfinished one, whose lines are
      then lost; a line outside any block goes to the preamble before the
      first Begin line and to the postamble after it, even between two
      blocks. */
  function Feed(sp: Splitter, line: string, k: LineKind): Splitter {
    if k == Begin then sp.(inBlock := true, seen := true, cur := [line])
    else if sp.inBlock then
      if k == End then sp.(blocks := sp.blocks + [sp.cur + [line]], inBlock := false, cur := [])
      else sp.(cur := sp.cur + [line])
    else if !sp.seen then sp.(pre := sp.pre + [line])
    else sp.(post := sp.post + [line])
  }

  /** The loop over the remaining lines, each read by `kind`. The splitter
      is stated for any classifier; the processor's is `KindOf`. */
  function Scan(kind: string -> LineKind, sp: Splitter, rest: seq<string>): Splitter
    decreases |rest|
  {
    if rest == [] then sp else Scan(kind, Feed(sp, rest[0], kind(rest[0])), rest[1..])
  }

  /** The pieces of a program; a block still open at the end is dropped. */
  function Split(kind: string -> LineKind, lines: seq<string>): Splitter {
    Scan(kind, Start, lines)
  }

  // ---------------------------------------------------------------------
  // The preamble

  /** The index of the first Begin line, `|lines|` if none. */
  function FirstBegin(kind: string -> LineKind, lines: seq<string>): (r: nat)
    ensures r <= |lines|
    ensures forall i :: 0 <= i < r ==> kind(lines[i]) != Begin
    ensures r < |lines| ==> kind(lines[r]) == Begin
    decreases |lines|
  {
    if lines == [] then 0
    else if kind(lines[0]) == Begin then 0
    else
      var r := 1 + FirstBegin(kind, lines[1..]);
      assert forall i :: 1 <= i < r ==> lines[i] == lines[1..][i - 1];
      r
  }

  lemma {:induction false} ScanPreamble(kind: string -> LineKind, sp: Splitter, rest: seq<string>)
    requires sp.inBlock ==> sp.seen
    ensures !sp.seen ==> Scan(kind, sp, rest).pre == sp.pre + rest[..FirstBegin(kind, rest)]
    ensures sp.seen ==> Scan(kind, sp, rest).pre == sp.pre
    decreases |rest|
  {
    if rest != [] {
      var k := kind(rest[0]);
      ScanPreamble(kind, Feed(sp, rest[0], k), rest[1..]);
      if !sp.seen && k != Begin {
        assert rest[..FirstBegin(kind, rest)] == [rest[0]] + rest[1..][..FirstBegin(kind, rest[1..])];
        AppendAssoc(sp.pre, [rest[0]], rest[1..][..FirstBegin(kind, rest[1..])]);
      }
    }
  }

  /** The preamble is exactly the lines before the first HKSTR line. */
  lemma {:induction false} PreambleIsPrefix(kind: string -> LineKind, lines: seq<string>)
    ensures Split(kind, lines).pre == lines[..FirstBegin(kind, lines)]
  {
    ScanPreamble(kind, Start, lines);
  }

  // ---------------------------------------------------------------------
  // The shape of the pieces

  /** A block: a Begin line, Plain lines, and a last line that is an End
      line, so the block stops at the first End line after its Begin. */
  predicate BlockShaped(kind: string -> LineKind, b: seq<string>) {
    && |b| >= 2 && kind(b[0]) == Begin && kind(b[|b| - 1]) == End
    && forall i :: 0 < i < |b| - 1 ==> kind(b[i]) == Plain
  }

  /** The splitter's invariant: finished blocks are shaped, the block being
      read starts with its Begin line followed by Plain lines only, and no
      Begin line lands in the preamble or the postamble. */
  predicate Shaped(kind: string -> LineKind, sp: Splitter) {
    && (forall j :: 0 <= j < |sp.blocks| ==> BlockShaped(kind, sp.blocks[j]))
    && (sp.inBlock ==> sp.seen && sp.cur != [] && kind(sp.cur[0]) == Begin
                       && forall i :: 0 < i < |sp.cur| ==> kind(sp.cur[i]) == Plain)
    && (!sp.inBlock ==> sp.cur == [])
    && (forall i :: 0 <= i < |sp.pre| ==> kind(sp.pre[i]) != Begin)
    && (forall i :: 0 <= i < |sp.post| ==> kind(sp.post[i]) != Begin)
  }

  lemma {:induction false} FeedShaped(kind: string -> LineKind, sp: Splitter, line: string)
    requires Shaped(kind, sp)
    ensures Shaped(kind, Feed(sp, line, kind(line)))
  {
    var k := kind(line);
    var t := Feed(sp, line, k);
    if k == End && sp.inBlock {
      assert t.blocks[|sp.blocks|] == sp.cur + [line];
    }
  }

  lemma {:induction false} ScanShaped(kind: string -> LineKind, sp: Splitter, rest: seq<string>)
    requires Shaped(kind, sp)
    ensures Shaped(kind, Scan(kind, sp, rest))
    decreases |rest|
  {
    if rest != [] {
      FeedShaped(kind, sp, rest[0]);
      ScanShaped(kind, Feed(sp, rest[0], kind(rest[0])), rest[1..]);
    }
  }

  /** Every block runs from an HKSTR line to the first HKSTO line after
      it, with neither an HKSTR nor an HKSTO line inside, and the preamble
      and postamble hold no HKSTR line. */
  lemma {:induction false} SplitShaped(kind: string -> LineKind, lines: seq<string>)
    ensures Shaped(kind, Split(kind, lines))
  {
    ScanShaped(kind, Start, lines);
  }

  // ---------------------------------------------------------------------
  // The partition

  /** The kind of the next line that is not Plain, Plain if none. */
  function NextMark(kind: string -> LineKind, lines: seq<string>): LineKind
    decreases |lines|
  {
    if lines == [] then Plain
    else if kind(lines[0]) != Plain then kind(lines[0])
    else NextMark(kind, lines[1..])
  }

  /** Every HKSTR line reaches an HKSTO line before the next HKSTR line or
      the end of the program. */
  predicate Closed(kind: string -> LineKind, lines: seq<string>) {
    forall i :: 0 <= i < |lines| && kind(lines[i]) == Begin ==> NextMark(kind, lines[i + 1..]) == End
  }

  /** Number of Begin lines. */
  function CountBegins(kind: string -> LineKind, lines: seq<string>): nat
    decreases |lines|
  {
    if lines == [] then 0 else (if kind(lines[0]) == Begin then 1 else 0) + CountBegins(kind, lines[1..])
  }

  /** The pieces laid end to end. */
  function Whole(sp: Splitter): seq<string> {
    sp.pre + Concat(sp.blocks) + sp.post
  }

  /** All the lines the splitter holds. */
  function Held(sp: Splitter): multiset<string> {
    multiset(sp.pre) + multiset(Concat(sp.blocks)) + multiset(sp.post) + multiset(sp.cur)
  }

  lemma {:induction false} ClosedTail(kind: string -> LineKind, lines: seq<string>)
    requires lines != [] && Closed(kind, lines)
    ensures Closed(kind, lines[1..])
  {
    forall i | 0 <= i < |lines[1..]| && kind(lines[1..][i]) == Begin
      ensures NextMark(kind, lines[1..][i + 1..]) == End
    {
      assert lines[1..][i + 1..] == lines[i + 2..];
    }
  }

  /** One turn of the loop keeps every line it is given, as long as no
      Begin line arrives inside a block. */
  lemma {:induction false} FeedHeld(sp: Splitter, line: string, k: LineKind)
    requires (!sp.inBlock ==> sp.cur == []) && (sp.inBlock ==> k != Begin)
    ensures Held(Feed(sp, line, k)) == Held(sp) + multiset{line}
  {
    if k == Begin {
      HeldAdds(sp, sp.(inBlock := true, seen := true, cur := [line]), line);
    } else if sp.inBlock && k == End {
      ClosingHeld(sp, line);
    } else if sp.inBlock {
      HeldAdds(sp, sp.(cur := sp.cur + [line]), line);
    } else if !sp.seen {
      HeldAdds(sp, sp.(pre := sp.pre + [line]), line);
    } else {
      HeldAdds(sp, sp.(post := sp.post + [line]), line);
    }
  }

  /** A line added to the preamble, the postamble or the current block. */
  lemma {:induction false} HeldAdds(sp: Splitter, t: Splitter, line: string)
    requires t.blocks == sp.blocks
    requires multiset(t.pre) + multiset(t.post) + multiset(t.cur)
             == multiset(sp.pre) + multiset(sp.post) + multiset(sp.cur) + multiset{line}
    ensures Held(t) == Held(sp) + multiset{line}
  {
    var c := multiset(Concat(sp.blocks));
    forall x ensures Held(t)[x] == (Held(sp) + multiset{line})[x] {
      assert (multiset(t.pre) + multiset(t.post) + multiset(t.cur))[x]
          == (multiset(sp.pre) + multiset(sp.post) + multiset(sp.cur) + multiset{line})[x];
    }
  }

  /** The current block and its End line become a finished block. */
  lemma {:induction false} ClosingHeld(sp: Splitter, line: string)
    ensures Held(sp.(blocks := sp.blocks + [sp.cur + [line]], cur := [])) == Held(sp) + multiset{line}
  {
    ConcatAppend(sp.blocks, [sp.cur + [line]]);
    ConcatSingle(sp.cur + [line]);
  }

  /** One turn of the loop finishes a block on an End line inside one and
      starts one on every Begin line. */
  lemma {:induction false} FeedCount(sp: Splitter, line: string, k: LineKind)
    requires (!sp.inBlock ==> sp.cur == []) && (sp.inBlock ==> k != Begin)
    ensures var t := Feed(sp, line, k);
            && (!t.inBlock ==> t.cur == [])
            && t.inBlock == (k == Begin || (sp.inBlock && k == Plain))
            && |t.blocks| + (if t.inBlock then 1 else 0)
               == |sp.blocks| + (if sp.inBlock then 1 else 0) + (if k == Begin then 1 else 0)
  {
  }

  /** The loop's invariant survives one turn: every HKSTR line is still
      closed, and a block left open meets its HKSTO line before any HKSTR
      line. */
  lemma {:induction false} StepReady(kind: string -> LineKind, sp: Splitter, rest: seq<string>)
    requires rest != [] && Closed(kind, rest) && (!sp.inBlock ==> sp.cur == [])
    requires sp.inBlock ==> NextMark(kind, rest) == End
    ensures sp.inBlock ==> kind(rest[0]) != Begin
    ensures var t := Feed(sp, rest[0], kind(rest[0]));
            && Closed(kind, rest[1..]) && (!t.inBlock ==> t.cur == [])
            && (t.inBlock ==> NextMark(kind, rest[1..]) == End)
  {
    var k := kind(rest[0]);
    FeedCount(sp, rest[0], k);
    ClosedTail(kind, rest);
    if k == Begin {
      assert rest[0 + 1..] == rest[1..];
    }
  }

  /** With every HKSTR line closed, the loop ends outside any block, having
      finished one block per HKSTR line. */
  lemma {:induction false} ScanCount(kind: string -> LineKind, sp: Splitter, rest: seq<string>)
    requires Closed(kind, rest) && (!sp.inBlock ==> sp.cur == [])
    requires sp.inBlock ==> NextMark(kind, rest) == End
    ensures !Scan(kind, sp, rest).inBlock && Scan(kind, sp, rest).cur == []
    ensures |Scan(kind, sp, rest).blocks| == |sp.blocks| + (if sp.inBlock then 1 else 0) + CountBegins(kind, rest)
    decreases |rest|
  {
    if rest != [] {
      var k := kind(rest[0]);
      StepReady(kind, sp, rest);
      FeedCount(sp, rest[0], k);
      ScanCount(kind, Feed(sp, rest[0], k), rest[1..]);
    }
  }

  /** With every HKSTR line closed, the loop loses no line. */
  lemma {:induction false} ScanHeld(kind: string -> LineKind, sp: Splitter, rest: seq<string>)
    requires Closed(kind, rest) && (!sp.inBlock ==> sp.cur == [])
    requires sp.inBlock ==> NextMark(kind, rest) == End
    ensures Held(Scan(kind, sp, rest)) == Held(sp) + multiset(rest)
    decreases |rest|
  {
    if rest != [] {
      var line, tail := rest[0], rest[1..];
      var t := Feed(sp, line, kind(line));
      StepReady(kind, sp, rest);
      FeedHeld(sp, line, kind(line));
      ScanHeld(kind, t, tail);
      MultisetCons(rest);
    }
  }

  lemma {:induction false} MultisetCons<T>(s: seq<T>)
    requires s != []
    ensures multiset(s) == multiset{s[0]} + multiset(s[1..])
  {
    assert s == [s[0]] + s[1..];
  }

  /** With every block closed, the preamble, the blocks and the postamble
      together hold each input line exactly once, and there is one block
      per HKSTR line. */
  lemma {:induction false} SplitPartition(kind: string -> LineKind, lines: seq<string>)
    requires Closed(kind, lines)
    ensures multiset(Whole(Split(kind, lines))) == multiset(lines)
    ensures |Split(kind, lines).blocks| == CountBegins(kind, lines)
  {
    var sp := Split(kind, lines);
    ScanCount(kind, Start, lines);
    ScanHeld(kind, Start, lines);
    assert Concat<string>([]) == [];
    assert Held(Start) == multiset{};
    assert Held(sp) == multiset(sp.pre) + multiset(Concat(sp.blocks)) + multiset(sp.post);
  }

  // ---------------------------------------------------------------------
  // Reassembly

  datatype ReorderError =
    | LengthMismatch(given: nat, blocks: nat)  // `order length ... != blocks ...`
    | NoSuchBlock(id: int)                     // `blocks[cid - 1]` out of range
    | NotAPermutation                          // see `ReorderChecked`

  /** Python's `xs[i]` on a list of length `n`: a negative `i` counts from
      the end. */
  function PyIndex(n: nat, i: int): (r: Option<nat>)
    ensures r.Some? <==> -(n as int) <= i < n
    ensures r.Some? ==> r.value < n && (r.value == i || r.value == n + i)
  {
    if 0 <= i < n then Some(i) else if -(n as int) <= i < 0 then Some((n + i) as nat) else None
  }

  /** `[blocks[cid - 1] for cid in order]`, failing on the first id that
      does not index a block. */
  function Pick(blocks: seq<seq<string>>, order: seq<int>): (r: Result<seq<seq<string>>, ReorderError>)
    ensures r.Ok? <==> forall j :: 0 <= j < |order| ==> PyIndex(|blocks|, order[j] - 1).Some?
    ensures r.Ok? ==> |r.value| == |order|
    ensures r.Ok? ==> forall j :: 0 <= j < |order| ==>
              r.value[j] == blocks[PyIndex(|blocks|, order[j] - 1).value]
    ensures r.Err? ==> r.error.NoSuchBlock? && exists j :: 0 <= j < |order| && r.error.id == order[j]
    decreases |order|
  {
    if order == [] then Ok([])
    else
      match PyIndex(|blocks|, order[0] - 1)
      case None => Err(NoSuchBlock(order[0]))
      case Some(i) =>
        var rest := Pick(blocks, order[1..]);
        assert forall j :: 1 <= j < |order| ==> order[j] == order[1..][j - 1];
        if rest.Err? then
          assert exists j :: 0 <= j < |order[1..]| && rest.error.id == order[1..][j];
          rest
        else Ok([blocks[i]] + rest.value)
  }

  /** The reassembly of `export_reordered_mpf` from the pieces: the length
      check comes first, then the blocks are looked up, then the preamble,
      the chosen blocks and the postamble are written in that order. */
  function Assemble(sp: Splitter, order: seq<int>): (r: Result<seq<string>, ReorderError>)
    ensures r == Err(LengthMismatch(|order|, |sp.blocks|)) <==> |order| != |sp.blocks|
    ensures r.Err? ==> !r.error.NotAPermutation?
    ensures r.Ok? ==> sp.pre <= r.value
    // a success is the preamble, the block each id names (negative ids counting from the end), the postamble
    ensures r.Ok? ==> Pick(sp.blocks, order).Ok? && r.value == sp.pre + Concat(Pick(sp.blocks, order).value) + sp.post
  {
    if |order| != |sp.blocks| then Err(LengthMismatch(|order|, |sp.blocks|))
    else
      match Pick(sp.blocks, order)
      case Err(e) => Err(e)
      case Ok(bs) => Ok(sp.pre + Concat(bs) + sp.post)
  }

  /** `export_reordered_mpf` on the lines of a program. */
  function ReorderLines(lines: seq<string>, order: seq<int>): (r: Result<seq<string>, ReorderError>)
    ensures r == Err(LengthMismatch(|order|, |Split(KindOf, lines).blocks|)) <==> |order| != |Split(KindOf, lines).blocks|
    ensures r.Ok? ==> Split(KindOf, lines).pre <= r.value
  {
    Assemble(Split(KindOf, lines), order)
  }

  /** `[1, 2, ..., n]` */
  function Range(n: nat): (r: seq<int>)
    ensures |r| == n && forall i :: 0 <= i < n ==> r[i] == i + 1
  {
    seq(n, i requires 0 <= i < n => i + 1)
  }

  /** The block an id in `1..n` names; the empty list otherwise. */
  function BlockOf(blocks: seq<seq<string>>): int -> seq<string> {
    id => if 1 <= id <= |blocks| then blocks[id - 1] else []
  }

  lemma {:induction false} PickInRange(blocks: seq<seq<string>>, order: seq<int>)
    requires forall j :: 0 <= j < |order| ==> 1 <= order[j] <= |blocks|
    ensures Pick(blocks, order) == Ok(Map(BlockOf(blocks), order))
    decreases |order|
  {
    if order != [] {
      assert forall j :: 0 <= j < |order[1..]| ==> order[1..][j] == order[j + 1];
      PickInRange(blocks, order[1..]);
      assert Map(BlockOf(blocks), order) == [blocks[order[0] - 1]] + Map(BlockOf(blocks), order[1..]);
    }
  }

  /** With every id naming a block, the output is the preamble, the named
      blocks in the order given, and the postamble. */
  lemma {:induction false} AssembleOrder(sp: Splitter, order: seq<int>)
    requires |order| == |sp.blocks|
    requires forall j :: 0 <= j < |order| ==> 1 <= order[j] <= |sp.blocks|
    ensures Assemble(sp, order) == Ok(sp.pre + Concat(Map(BlockOf(sp.blocks), order)) + sp.post)
    ensures forall j :: 0 <= j < |order| ==> Map(BlockOf(sp.blocks), order)[j] == sp.blocks[order[j] - 1]
  {
    PickInRange(sp.blocks, order);
  }

  lemma {:induction false} ConcatCons<T>(b: seq<T>, rest: seq<seq<T>>)
    ensures Concat([b] + rest) == b + Concat(rest)
  {
    ConcatAppend([b], rest);
    ConcatSingle(b);
  }

  /** With the ids in their original order, the program comes back as the
      preamble, the blocks in order, and the postamble. */
  lemma {:induction false} AssembleIdentity(sp: Splitter)
    ensures Assemble(sp, Range(|sp.blocks|)) == Ok(Whole(sp))
  {
    var ids := Range(|sp.blocks|);
    AssembleOrder(sp, ids);
    var m := Map(BlockOf(sp.blocks), ids);
    assert Assemble(sp, ids) == Ok(sp.pre + Concat(m) + sp.post);
    MapRange(sp.blocks);
  }

  /** Looking up the ids `1..n` in order gives the blocks back. */
  lemma {:induction false} MapRange(blocks: seq<seq<string>>)
    ensures Map(BlockOf(blocks), Range(|blocks|)) == blocks
  {
    var ids := Range(|blocks|);
    var m := Map(BlockOf(blocks), ids);
    forall i | 0 <= i < |m| ensures m[i] == blocks[i] {
      assert ids[i] == i + 1;
    }
  }

  /** The ids of a permutation of `1..n` all name a block. */
  lemma {:induction false} PermutationInRange(order: seq<int>, n: nat)
    requires multiset(order) == multiset(Range(n))
    ensures |order| == n && forall j :: 0 <= j < |order| ==> 1 <= order[j] <= n
  {
    assert |order| == |multiset(order)| == |multiset(Range(n))| == n;
    forall j | 0 <= j < |order| ensures 1 <= order[j] <= n {
      assert order[j] in multiset(Range(n));
    }
  }

  /** An order that is a permutation of `1..n` puts every block back exactly
      once. */
  lemma {:induction false} AssemblePermutes(sp: Splitter, order: seq<int>)
    requires multiset(order) == multiset(Range(|sp.blocks|))
    ensures Assemble(sp, order).Ok?
    ensures multiset(Assemble(sp, order).value) == multiset(Whole(sp))
  {
    var n := |sp.blocks|;
    var f := BlockOf(sp.blocks);
    PermutationInRange(order, n);
    PickInRange(sp.blocks, order);
    MapPermutation(f, order, Range(n));
    assert Map(f, Range(n)) == sp.blocks;
    ConcatPermutation(Map(f, order), sp.blocks);
  }

  /** With every block closed, reordering by a permutation of `1..n` gives
      back each input line exactly once. */
  lemma {:induction false} ReorderPermutes(lines: seq<string>, order: seq<int>)
    requires Closed(KindOf, lines)
    requires multiset(order) == multiset(Range(|Split(KindOf, lines).blocks|))
    ensures ReorderLines(lines, order).Ok?
    ensures multiset(ReorderLines(lines, order).value) == multiset(lines)
  {
    AssemblePermutes(Split(KindOf, lines), order);
    SplitPartition(KindOf, lines);
  }

  // ---------------------------------------------------------------------
  // The order is not checked to be a permutation

  /** The length check is the only check on the order: with two blocks,
      `[1, 1]` is accepted and writes the first block twice and the second
      not at all, so the lines that come out are not the lines that went
      in unless the two blocks hold the same lines. */
  lemma {:induction false} RepeatedIdAccepted(sp: Splitter)
    requires |sp.blocks| == 2
    ensures Assemble(sp, [1, 1]) == Ok(sp.pre + sp.blocks[0] + sp.blocks[0] + sp.post)
    ensures multiset(sp.blocks[0]) != multiset(sp.blocks[1]) ==>
              multiset(Assemble(sp, [1, 1]).value) != multiset(Whole(sp))
  {
    var b0, b1 := sp.blocks[0], sp.blocks[1];
    PickInRange(sp.blocks, [1, 1]);
    assert Map(BlockOf(sp.blocks), [1, 1]) == [b0, b0];
    ConcatCons(b0, [b0]);
    ConcatSingle(b0);
    assert Concat(sp.blocks) == b0 + b1 by {
      assert sp.blocks == [b0] + [b1];
      ConcatCons(b0, [b1]);
      ConcatSingle(b1);
    }
    AppendAssoc(sp.pre, b0, b0);
    AppendAssoc(sp.pre, b0, b1);
    var m := multiset(sp.pre) + multiset(sp.post) + multiset(b0);
    assert multiset(sp.pre + b0 + b0 + sp.post) == m + multiset(b0);
    assert multiset(Whole(sp)) == m + multiset(b1);
    if multiset(b0) != multiset(b1) {
      UnionCancel(m, multiset(b0), multiset(b1));
    }
  }

  /** Adding the same lines to two different multisets keeps them apart. */
  lemma {:induction false} UnionCancel<T>(m: multiset<T>, a: multiset<T>, b: multiset<T>)
    requires a != b
    ensures m + a != m + b
  {
    var x :| a[x] != b[x];
    assert (m + a)[x] != (m + b)[x];
  }

  /** An id of 0 is not rejected either: `blocks[-1]` is the last block. */
  lemma {:induction false} ZeroIdIsLastBlock(sp: Splitter)
    requires |sp.blocks| == 1
    ensures Assemble(sp, [0]) == Ok(sp.pre + sp.blocks[0] + sp.post)
  {
    var order: seq<int> := [0];
    assert order[1..] == [];
    assert PyIndex(1, -1) == Some(0);
    assert Pick(sp.blocks, order[1..]) == Ok([]);
    assert [sp.blocks[0]] + [] == [sp.blocks[0]];
    assert Pick(sp.blocks, order) == Ok([sp.blocks[0]]);
    ConcatSingle(sp.blocks[0]);
  }

  /** `export_reordered_mpf` with the order checked to be a permutation of
      `1..n` before any block is looked up. */
  function AssembleChecked(sp: Splitter, order: seq<int>): (r: Result<seq<string>, ReorderError>)
    ensures r.Ok? ==> Assemble(sp, order) == r
    ensures r.Ok? <==> multiset(order) == multiset(Range(|sp.blocks|))
    ensures r.Ok? ==> multiset(r.value) == multiset(Whole(sp))
  {
    var n := |sp.blocks|;
    if |order| != n then
      assert |multiset(order)| != |multiset(Range(n))|;
      Err(LengthMismatch(|order|, n))
    else if multiset(order) != multiset(Range(n)) then Err(NotAPermutation)
    else
      AssemblePermutes(sp, order);
      Assemble(sp, order)
  }

  /** The checked reorder on the lines of a program: with every block
      closed, whatever it writes holds each input line exactly once. */
  function ReorderChecked(lines: seq<string>, order: seq<int>): (r: Result<seq<string>, ReorderError>)
    ensures r.Ok? ==> ReorderLines(lines, order) == r
    ensures r.Ok? <==> multiset(order) == multiset(Range(|Split(KindOf, lines).blocks|))
    ensures r.Ok? && Closed(KindOf, lines) ==> multiset(r.value) == multiset(lines)
  {
    var r := AssembleChecked(Split(KindOf, lines), order);
    if r.Ok? && Closed(KindOf, lines) then SplitPartition(KindOf, lines); r else r
  }
}

=== FILE: ring.dfy ===
/** `_contour_to_ring`: a contour's segments flattened into one list of
    points, closed when its ends are apart, ready for the polygon
    operations. Both copies of the processor carry the same function. */
module Ring {
  import opened Wrappers
  import opened Geometry

  /** The default tolerance `tol=1e-4`, in inches. */
  const Tol: real := 0.0001

  /** The squared distance; `hypot(dx, dy) > tol` is `Dist2 > tol * tol`
      for a non-negative `tol`. */
  function Dist2(p: Point, q: Point): real {
    (p.x - q.x) * (p.x - q.x) + (p.y - q.y) * (p.y - q.y)
  }

  /** A segment the flattener can take: `pts[-1] == poly[0]` fails on a
      polyline without points once the chain is non-empty. */
  predicate Joinable(seg: Segment) {
    seg.Polyline? ==> seg.points != []
  }

  /** The points a segment is drawn through. */
  function Points(seg: Segment): seq<Point> {
    match seg
    case Line(a, b) => [a, b]
    case Polyline(ps) => ps
  }

  /** One step of the flattening loop: a line adds its start point only
      to an empty chain, then its end point; a polyline drops its first
      point when that point equals the chain's last one exactly. */
  function Join(pts: seq<Point>, seg: Segment): (r: seq<Point>)
    requires Joinable(seg)
    ensures pts <= r
    ensures seg.Line? ==> r == (if pts == [] then [seg.a] else pts) + [seg.b]
    ensures seg.Polyline? && pts == [] ==> r == seg.points
    // the first point is dropped on exact equality only, never within a tolerance
    ensures seg.Polyline? && pts != [] ==>
              r == pts + (if pts[|pts| - 1] == seg.points[0] then seg.points[1..] else seg.points)
  {
    match seg
    case Line(a, b) => (if pts == [] then [a] else pts) + [b]
    case Polyline(ps) =>
      if pts == [] then ps
      else if pts[|pts| - 1] == ps[0] then pts + ps[1..]
      else pts + ps
  }

  predicate AllJoinable(segs: seq<Segment>) {
    forall k :: 0 <= k < |segs| ==> Joinable(segs[k])
  }

  /** The points of the segments, joined in order. */
  function Chain(segs: seq<Segment>): seq<Point>
    requires AllJoinable(segs)
    decreases |segs|
  {
    if segs == [] then [] else Join(Chain(segs[..|segs| - 1]), segs[|segs| - 1])
  }

  /** `_contour_to_ring`: no ring below four points; otherwise the chain,
      with its first point appended when the ends are more than `Tol`
      apart. */
  function ToRing(segs: seq<Segment>): (r: Option<seq<Point>>)
    requires AllJoinable(segs)
    ensures r.None? <==> |Chain(segs)| < 4
    ensures r.Some? ==> |r.value| >= 4 && Dist2(r.value[0], r.value[|r.value| - 1]) <= Tol * Tol
    ensures r.Some? ==> Chain(segs) <= r.value && |r.value| <= |Chain(segs)| + 1
    ensures r.Some? && |r.value| > |Chain(segs)| ==> r.value[|r.value| - 1] == r.value[0]
    // the first point is appended exactly when the chain's ends are more than `Tol` apart
    ensures r.Some? ==> (|r.value| > |Chain(segs)| <==>
                         Dist2(Chain(segs)[0], Chain(segs)[|Chain(segs)| - 1]) > Tol * Tol)
  {
    var pts := Chain(segs);
    if |pts| < 4 then None
    else if Dist2(pts[0], pts[|pts| - 1]) > Tol * Tol then Some(pts + [pts[0]])
    else Some(pts)
  }

  /** Flattening distributes over splitting the segments: the chain of
      more segments extends the chain of the first ones. */
  lemma {:induction false} ChainGrows(a: seq<Segment>, b: seq<Segment>)
    requires AllJoinable(a + b)
    ensures AllJoinable(a) && Chain(a) <= Chain(a + b)
    decreases |b|
  {
    assert forall k :: 0 <= k < |a| ==> a[k] == (a + b)[k];
    if b != [] {
      var init := (a + b)[..|a + b| - 1];
      assert init == a + b[..|b| - 1];
      ChainGrows(a, b[..|b| - 1]);
    } else {
      assert a + b == a;
    }
  }

  /** A chain of straight moves only: the first line's start point, then
      the end point of every line. The start points of later lines are
      not read at all. */
  lemma {:induction false} ChainOfLines(segs: seq<Segment>)
    requires segs != [] && forall k :: 0 <= k < |segs| ==> segs[k].Line?
    ensures AllJoinable(segs)
    ensures Chain(segs) == [segs[0].a] + seq(|segs|, k requires 0 <= k < |segs| => segs[k].b)
    decreases |segs|
  {
    var init := segs[..|segs| - 1];
    if |segs| > 1 {
      ChainOfLines(init);
      assert Chain(segs) == Chain(init) + [segs[|segs| - 1].b];
    }
  }

  /** Every point of the chain is a point of one of the segments. */
  lemma {:induction false} ChainPoints(segs: seq<Segment>)
    requires AllJoinable(segs)
    ensures forall i :: 0 <= i < |Chain(segs)| ==>
              exists k :: 0 <= k < |segs| && Chain(segs)[i] in Points(segs[k])
    decreases |segs|
  {
    if segs != [] {
      var init := segs[..|segs| - 1];
      var last := segs[|segs| - 1];
      ChainPoints(init);
      var pts := Chain(init);
      assert Chain(segs) == Join(pts, last);
      forall i | 0 <= i < |Chain(segs)|
        ensures exists k :: 0 <= k < |segs| && Chain(segs)[i] in Points(segs[k])
      {
        if i < |pts| {
          var k :| 0 <= k < |init| && pts[i] in Points(init[k]);
          assert init[k] == segs[k];
        } else {
          JoinAdds(pts, last);
          assert Chain(segs)[i] in Points(segs[|segs| - 1]);
        }
      }
    } else {
      assert Chain(segs) == [];
    }
  }

  /** The points a join adds come from the segment. */
  lemma {:induction false} JoinAdds(pts: seq<Point>, seg: Segment)
    requires Joinable(seg)
    ensures forall i :: |pts| <= i < |Join(pts, seg)| ==> Join(pts, seg)[i] in Points(seg)
  {
    match seg
    case Line(a, b) =>
    case Polyline(ps) =>
      if pts != [] && pts[|pts| - 1] == ps[0] {
        forall i | |pts| <= i < |Join(pts, seg)| ensures Join(pts, seg)[i] in ps {
          assert Join(pts, seg)[i] == ps[1..][i - |pts|];
        }
      }
  }

  /** Every well-formed segment adds at least one point, the first at least
      two, so a chain of `n` segments has at least `n + 1` points. */
  lemma {:induction false} ChainLength(segs: seq<Segment>)
    requires forall k :: 0 <= k < |segs| ==> WellFormed(segs[k])
    ensures AllJoinable(segs)
    ensures segs != [] ==> |Chain(segs)| >= |segs| + 1
    decreases |segs|
  {
    if segs != [] {
      ChainLength(segs[..|segs| - 1]);
    }
  }

  /** A contour of three or more well-formed segments always flattens to a
      ring. */
  lemma {:induction false} ThreeSegmentsMakeRing(segs: seq<Segment>)
    requires |segs| >= 3 && forall k :: 0 <= k < |segs| ==> WellFormed(segs[k])
    ensures AllJoinable(segs) && ToRing(segs).Some?
  {
    ChainLength(segs);
  }
}

=== FILE: seqs.dfy ===
/** Sequence utilities used by the line transforms: flattening a list of
    line blocks, and the fact that flattening respects permutation. */
module Seqs {
  import opened Wrappers

  /** The index of the last element satisfying `p`, if any. */
  function LastWhere<T>(p: T -> bool, xs: seq<T>): (r: Option<nat>)
    ensures r.Some? ==> r.value < |xs| && p(xs[r.value])
                        && forall j :: r.value < j < |xs| ==> !p(xs[j])
    ensures r.None? ==> forall i :: 0 <= i < |xs| ==> !p(xs[i])
  {
    if xs == [] then None
    else if p(xs[|xs| - 1]) then Some(|xs| - 1)
    else LastWhere(p, xs[..|xs| - 1])
  }

  /** The first index from `i` on whose flag is set, if any. */
  function FirstSet(bs: seq<bool>, i: nat): (r: Option<nat>)
    requires i <= |bs|
    ensures r.Some? ==> i <= r.value < |bs| && bs[r.value]
    ensures forall q :: i <= q < |bs| && (r.None? || q < r.value) ==> !bs[q]
    decreases |bs| - i
  {
    if i == |bs| then None
    else if bs[i] then Some(i)
    else FirstSet(bs, i + 1)
  }

  /** `[x for x in xs if x is not None]`, unwrapped. */
  function Somes<T>(xs: seq<Option<T>>): (r: seq<T>)
    ensures |r| <= |xs|
  {
    if xs == [] then []
    else if xs[0].Some? then [xs[0].value] + Somes(xs[1..])
    else Somes(xs[1..])
  }

  lemma {:induction false} SomesAppend<T>(a: seq<Option<T>>, b: seq<Option<T>>)
    ensures Somes(a + b) == Somes(a) + Somes(b)
    decreases |a|
  {
    if a == [] {
      assert a + b == b;
    } else {
      assert (a + b)[1..] == a[1..] + b;
      SomesAppend(a[1..], b);
    }
  }

  /** The indices from `i` on that hold a value, in order. */
  function SomeIndices<T>(xs: seq<Option<T>>, i: nat): (os: seq<nat>)
    requires i <= |xs|
    ensures forall k :: 0 <= k < |os| ==> i <= os[k] < |xs| && xs[os[k]].Some?
    ensures forall k, l :: 0 <= k < l < |os| ==> os[k] < os[l]
    ensures forall j :: i <= j < |xs| && xs[j].Some? ==> j in os
    decreases |xs| - i
  {
    if i == |xs| then []
    else if xs[i].Some? then [i] + SomeIndices(xs, i + 1)
    else SomeIndices(xs, i + 1)
  }

  /** `r` holds the values at the indices `os` of `xs`, in that order. */
  ghost predicate Picks<T>(xs: seq<Option<T>>, os: seq<nat>, r: seq<T>) {
    |r| == |os| && forall k :: 0 <= k < |os| ==> os[k] < |xs| && xs[os[k]] == Some(r[k])
  }

  /** The values kept are those at the indices that hold one, in order. */
  lemma {:induction false} SomesAt<T>(xs: seq<Option<T>>, i: nat)
    requires i <= |xs|
    ensures Picks(xs, SomeIndices(xs, i), Somes(xs[i..]))
    decreases |xs| - i
  {
    if i < |xs| {
      SomesAt(xs, i + 1);
      var r', os' := Somes(xs[i + 1..]), SomeIndices(xs, i + 1);
      assert xs[i..][1..] == xs[i + 1..];
      if xs[i].Some? {
        assert xs[i..][0] == xs[i];
        PicksCons(xs, i, os', r');
      } else {
        assert xs[i..][0] == xs[i];
      }
    }
  }

  lemma {:induction false} PicksCons<T>(xs: seq<Option<T>>, i: nat, os: seq<nat>, r: seq<T>)
    requires i < |xs| && xs[i].Some? && Picks(xs, os, r)
    ensures Picks(xs, [i] + os, [xs[i].value] + r)
  {
    var os2, r2 := [i] + os, [xs[i].value] + r;
    forall k | 0 <= k < |os2| ensures os2[k] < |xs| && xs[os2[k]] == Some(r2[k]) {
      if k > 0 {
        assert os2[k] == os[k - 1] && r2[k] == r[k - 1];
      }
    }
  }

  /** Concatenation is associative. */
  lemma {:induction false} AppendAssoc<T>(a: seq<T>, b: seq<T>, c: seq<T>)
    ensures (a + b) + c == a + (b + c)
  {
  }

  /** `[x for b in bs for x in b]` */
  function Concat<T>(bs: seq<seq<T>>): seq<T> {
    if bs == [] then [] else Concat(bs[..|bs| - 1]) + bs[|bs| - 1]
  }

  lemma {:induction false} ConcatAppend<T>(a: seq<seq<T>>, b: seq<seq<T>>)
    ensures Concat(a + b) == Concat(a) + Concat(b)
    decreases |b|
  {
    if b == [] {
      assert a + b == a;
    } else {
      ConcatAppend(a, b[..|b| - 1]);
      assert (a + b)[..|a + b| - 1] == a + b[..|b| - 1];
      assert Concat(b) == Concat(b[..|b| - 1]) + b[|b| - 1];
    }
  }

  lemma {:induction false} ConcatSingle<T>(b: seq<T>)
    ensures Concat([b]) == b
  {
    assert [b][..0] == [];
  }

  lemma {:induction false} RemoveAt<T>(b: seq<T>, j: nat)
    requires j < |b|
    ensures multiset(b[..j] + b[j + 1..]) == multiset(b) - multiset{b[j]}
  {
    assert b == b[..j] + [b[j]] + b[j + 1..];
  }

  lemma {:induction false} DropLast<T>(a: seq<T>)
    requires |a| > 0
    ensures multiset(a[..|a| - 1]) == multiset(a) - multiset{a[|a| - 1]}
  {
    assert a == a[..|a| - 1] + [a[|a| - 1]];
  }

  lemma {:induction false} ConcatSplitAt<T>(b: seq<seq<T>>, j: nat)
    requires j < |b|
    ensures Concat(b) == Concat(b[..j]) + b[j] + Concat(b[j + 1..])
    ensures Concat(b[..j] + b[j + 1..]) == Concat(b[..j]) + Concat(b[j + 1..])
  {
    var pre, mid, post := b[..j], [b[j]], b[j + 1..];
    assert b == pre + (mid + post);
    ConcatAppend(pre, mid + post);
    ConcatAppend(mid, post);
    ConcatSingle(b[j]);
    assert Concat(b) == Concat(pre) + (b[j] + Concat(post));
    ConcatAppend(pre, post);
  }

  /** Flattening two block lists that hold the same blocks, in any order,
      yields the same multiset of elements. */
  lemma {:induction false} ConcatPermutation<T>(a: seq<seq<T>>, b: seq<seq<T>>)
    requires multiset(a) == multiset(b)
    ensures multiset(Concat(a)) == multiset(Concat(b))
    decreases |a|
  {
    if a == [] {
      assert |b| == |multiset(b)| == 0;
    } else {
      var x := a[|a| - 1];
      assert x in multiset(b);
      var j :| 0 <= j < |b| && b[j] == x;
      RemoveAt(b, j);
      DropLast(a);
      ConcatPermutation(a[..|a| - 1], b[..j] + b[j + 1..]);
      ConcatSplitAt(b, j);
    }
  }

  /** `[f(x) for x in xs]` */
  function Map<A, B>(f: A -> B, xs: seq<A>): (r: seq<B>)
    ensures |r| == |xs| && forall i :: 0 <= i < |xs| ==> r[i] == f(xs[i])
  {
    seq(|xs|, i requires 0 <= i < |xs| => f(xs[i]))
  }

  lemma {:induction false} MapAppend<A, B>(f: A -> B, a: seq<A>, b: seq<A>)
    ensures Map(f, a + b) == Map(f, a) + Map(f, b)
  {
  }

  /** Mapping two sequences with the same elements gives two sequences
      with the same elements. */
  lemma {:induction false} MapPermutation<A, B>(f: A -> B, xs: seq<A>, ys: seq<A>)
    requires multiset(xs) == multiset(ys)
    ensures multiset(Map(f, xs)) == multiset(Map(f, ys))
    decreases |xs|
  {
    if xs == [] {
      assert |ys| == |multiset(ys)| == 0;
    } else {
      var x := xs[|xs| - 1];
      assert x in multiset(ys);
      var j :| 0 <= j < |ys| && ys[j] == x;
      var front, pre, post := xs[..|xs| - 1], ys[..j], ys[j + 1..];
      assert xs == front + [x];
      assert ys == pre + [x] + post;
      RemoveAt(ys, j);
      DropLast(xs);
      MapPermutation(f, front, pre + post);
      MapAppend(f, front, [x]);
      MapAppend(f, pre + [x], post);
      MapAppend(f, pre, [x]);
      MapAppend(f, pre, post);
    }
  }
}

=== FILE: sheet_numbers.dfy ===
/** The numbers of a cut sheet's text: `re.findall(r"\d+(?:\.\d+)?", text)`
    and the sheet size pattern `(\d+(?:\.\d+)?)'\s*[xX]\s*(\d+(?:\.\d+)?)'`,
    with `parse_sheet_dimensions` and `parse_sheet_size` on top. */
module SheetNumbers {
  import opened Wrappers
  import opened Text
  import opened Seqs

  /** A number found in a text: where it starts, how long it is and what
      `float()` makes of it. */
  datatype Num = Num(start: nat, len: nat, value: real)

  function Pow10(n: nat): (r: nat)
    ensures r > 0
  {
    if n == 0 then 1 else 10 * Pow10(n - 1)
  }

  /** The value of `<whole>.<fraction>`, read exactly. */
  function DecimalValue(whole: string, fraction: string): real
    requires AllDigits(whole) && AllDigits(fraction)
  {
    DigitsValue(whole) as real + DigitsValue(fraction) as real / Pow10(|fraction|) as real
  }

  /** The end of the run of digits starting at `i`. */
  function RunEnd(t: string, i: nat): (e: nat)
    requires i <= |t|
    ensures i <= e <= |t| && (e < |t| ==> !IsDigit(t[e]))
    ensures forall k :: i <= k < e ==> IsDigit(t[k])
    decreases |t| - i
  {
    if i < |t| && IsDigit(t[i]) then RunEnd(t, i + 1) else i
  }

  /** `t[i..e]` is all digits. */
  predicate DigitsIn(t: string, i: nat, e: nat)
    requires i <= e <= |t|
  {
    forall k :: i <= k < e ==> IsDigit(t[k])
  }

  /** Text `\d+(?:\.\d+)?` matches `t[i..e]` in full. */
  predicate DecimalIn(t: string, i: nat, e: nat)
    requires i <= e <= |t|
  {
    exists m :: i < m <= e && DigitsIn(t, i, m) && (m == e || (t[m] == '.' && m + 1 < e && DigitsIn(t, m + 1, e)))
  }

  /** Where the number starting at `i` ends: after the digits, and after a
      point and more digits when there are some, as the greedy pattern
      takes them. */
  function NumberEnd(t: string, i: nat): (e: nat)
    requires i < |t| && IsDigit(t[i])
    ensures i < e <= |t| && DecimalIn(t, i, e)
    ensures e < |t| ==> !IsDigit(t[e])
  {
    var m := RunEnd(t, i);
    if m + 1 < |t| && t[m] == '.' && IsDigit(t[m + 1]) then RunEnd(t, m + 1) else m
  }

  /** What `float()` makes of the number in `t[i..e]`, read exactly. */
  function ValueIn(t: string, i: nat, e: nat): real
    requires i < e <= |t| && DecimalIn(t, i, e)
  {
    var m := RunEnd(t, i);
    var whole := t[i..m];
    assert AllDigits(whole) by {
      forall k | 0 <= k < |whole| ensures IsDigit(whole[k]) {
        assert whole[k] == t[i + k];
      }
    }
    if m + 1 < e then
      var fraction := t[m + 1..e];
      assert AllDigits(fraction) by {
        var m' :| i < m' <= e && DigitsIn(t, i, m') && (m' == e || (t[m'] == '.' && m' + 1 < e && DigitsIn(t, m' + 1, e)));
        assert m' == m;
        forall k | 0 <= k < |fraction| ensures IsDigit(fraction[k]) {
          assert fraction[k] == t[m + 1 + k];
        }
      }
      DecimalValue(whole, fraction)
    else
      DecimalValue(whole, [])
  }

  /** The number starting at `i`. */
  function NumberAt(t: string, i: nat): (n: Num)
    requires i < |t| && IsDigit(t[i])
    ensures n.start == i && n.len == NumberEnd(t, i) - i
    ensures i + n.len <= |t| && DecimalIn(t, i, i + n.len)
    ensures i + n.len < |t| ==> !IsDigit(t[i + n.len])
  {
    var e := NumberEnd(t, i);
    Num(i, e - i, ValueIn(t, i, e))
  }

  /** Every number from position `i` on, left to right, as `re.findall`
      finds them. */
  function Numbers(t: string, i: nat): (ns: seq<Num>)
    requires i <= |t|
    ensures forall k :: 0 <= k < |ns| ==> i <= ns[k].start && ns[k].start + ns[k].len <= |t|
    decreases |t| - i
  {
    if i == |t| then []
    else if IsDigit(t[i]) then
      var n := NumberAt(t, i);
      [n] + Numbers(t, i + n.len)
    else
      Numbers(t, i + 1)
  }

  /** Each number found starts on a digit and is the greedy match there. */
  lemma {:induction false} NumbersMatch(t: string, i: nat, k: nat)
    requires i <= |t| && k < |Numbers(t, i)|
    ensures Numbers(t, i)[k].start < |t| && IsDigit(t[Numbers(t, i)[k].start])
    ensures Numbers(t, i)[k] == NumberAt(t, Numbers(t, i)[k].start)
    decreases |t| - i
  {
    var ns := Numbers(t, i);
    if IsDigit(t[i]) {
      var n := NumberAt(t, i);
      var rest := Numbers(t, i + n.len);
      assert ns == [n] + rest;
      if k > 0 {
        NumbersMatch(t, i + n.len, k - 1);
        assert ns[k] == rest[k - 1];
      }
    } else {
      assert ns == Numbers(t, i + 1);
      NumbersMatch(t, i + 1, k);
    }
  }

  /** The numbers found come in text order and do not overlap. */
  lemma {:induction false} NumbersOrdered(t: string, i: nat, k: nat)
    requires i <= |t| && k + 1 < |Numbers(t, i)|
    ensures Numbers(t, i)[k].start + Numbers(t, i)[k].len <= Numbers(t, i)[k + 1].start
    decreases |t| - i
  {
    if IsDigit(t[i]) {
      if k > 0 {
        NumbersOrdered(t, i + NumberAt(t, i).len, k - 1);
      }
    } else {
      NumbersOrdered(t, i + 1, k);
    }
  }

  /** No digit is missed: every digit from `i` on lies in one of the
      numbers found. */
  lemma {:induction false} NumbersCover(t: string, i: nat, j: nat)
    requires i <= j < |t| && IsDigit(t[j])
    ensures exists k :: 0 <= k < |Numbers(t, i)| && Numbers(t, i)[k].start <= j < Numbers(t, i)[k].start + Numbers(t, i)[k].len
    decreases |t| - i
  {
    var ns := Numbers(t, i);
    if IsDigit(t[i]) {
      var n := NumberAt(t, i);
      var rest := Numbers(t, i + n.len);
      assert ns == [n] + rest;
      if j >= i + n.len {
        NumbersCover(t, i + n.len, j);
        var k :| 0 <= k < |rest| && rest[k].start <= j < rest[k].start + rest[k].len;
        assert ns[k + 1] == rest[k];
      } else {
        assert ns[0] == n;
      }
    } else {
      NumbersCover(t, i + 1, j);
    }
  }

  datatype Dimensions = Dimensions(length: real, width: real, thickness: real)

  /** `parse_sheet_dimensions`: no dimensions below three numbers; the
      last three numbers, as length, width and thickness, otherwise. */
  function ParseSheetDimensions(t: string): (r: Option<Dimensions>)
    ensures r.None? <==> |Numbers(t, 0)| < 3
    ensures r.Some? ==> var ns := Numbers(t, 0);
              r.value == Dimensions(ns[|ns| - 3].value, ns[|ns| - 2].value, ns[|ns| - 1].value)
  {
    var ns := Numbers(t, 0);
    if |ns| < 3 then None
    else Some(Dimensions(ns[|ns| - 3].value, ns[|ns| - 2].value, ns[|ns| - 1].value))
  }

  // ---------------------------------------------------------------------
  // The sheet size pattern

  datatype Size = Size(width: real, length: real)

  /** The first index from `i` on that is not a blank. */
  function SkipSpace(t: string, i: nat): (j: nat)
    requires i <= |t|
    ensures i <= j <= |t| && (j < |t| ==> !IsSpace(t[j]))
    ensures forall k :: i <= k < j ==> IsSpace(t[k])
    decreases |t| - i
  {
    if i < |t| && IsSpace(t[i]) then SkipSpace(t, i + 1) else i
  }

  /** The pattern tried at `i`: a number, a foot mark, blanks, an `x`,
      blanks, a number, a foot mark. Where it matches, the start of its
      second number. */
  function SizeSpan(t: string, i: nat): (r: Option<nat>)
    requires i <= |t|
    ensures r.Some? ==> i < r.value < |t| && IsDigit(t[i]) && IsDigit(t[r.value])
  {
    if i == |t| || !IsDigit(t[i]) then None
    else
      var j := NumberEnd(t, i);
      if j == |t| || t[j] != '\'' then None
      else
        var x := SkipSpace(t, j + 1);
        if x == |t| || (t[x] != 'x' && t[x] != 'X') then None
        else
          var k := SkipSpace(t, x + 1);
          if k == |t| || !IsDigit(t[k]) then None
          else
            var e := NumberEnd(t, k);
            if e == |t| || t[e] != '\'' then None
            else Some(k)
  }

  /** The size the pattern reads at `i`, if it matches there. */
  function SizeAt(t: string, i: nat): Option<Size>
    requires i <= |t|
  {
    match SizeSpan(t, i)
    case None => None
    case Some(k) => Some(Size(NumberAt(t, i).value, NumberAt(t, k).value))
  }

  /** Where the pattern matches: one flag per start position, the end of
      the text included. */
  function Hits(t: string): (hs: seq<bool>)
    ensures |hs| == |t| + 1
    ensures forall q :: 0 <= q <= |t| ==> hs[q] == SizeSpan(t, q).Some?
  {
    seq(|t| + 1, q requires 0 <= q <= |t| => SizeSpan(t, q).Some?)
  }

  /** The largest sheet the reader accepts, in feet. */
  const MaxWidth: real := 20.0
  const MaxLength: real := 30.0

  /** `parse_sheet_size`: the first size the pattern finds, dropped when it
      is wider than 20 feet or longer than 30. */
  function ParseSheetSize(t: string): (r: Option<Size>)
    ensures r.Some? ==> r.value.width <= MaxWidth && r.value.length <= MaxLength
  {
    match FirstSet(Hits(t), 0)
    case None => None
    case Some(p) =>
      var s := SizeAt(t, p).value;
      if s.width > MaxWidth || s.length > MaxLength then None else Some(s)
  }

  /** `p` is where the pattern first matches. */
  predicate FirstMatch(t: string, p: nat)
  {
    p <= |t| && SizeSpan(t, p).Some? && forall q :: 0 <= q < p ==> SizeSpan(t, q).None?
  }

  /** A size within bounds at the leftmost match comes back. */
  lemma {:induction false} SheetSizeFound(t: string, p: nat)
    requires FirstMatch(t, p)
    requires SizeAt(t, p).value.width <= MaxWidth && SizeAt(t, p).value.length <= MaxLength
    ensures ParseSheetSize(t) == SizeAt(t, p)
  {
    assert FirstSet(Hits(t), 0) == Some(p);
  }

  /** What comes back is read at the leftmost match; a later match is never
      looked at, so an oversized first match hides a sensible one. */
  lemma {:induction false} SheetSizeFirst(t: string)
    requires ParseSheetSize(t).Some?
    ensures exists p :: FirstMatch(t, p) && SizeAt(t, p) == ParseSheetSize(t)
  {
    var p := FirstSet(Hits(t), 0).value;
    assert FirstMatch(t, p);
  }

  /** An oversized leftmost match means no size at all. */
  lemma {:induction false} SheetSizeOversized(t: string, p: nat)
    requires FirstMatch(t, p)
    requires SizeAt(t, p).value.width > MaxWidth || SizeAt(t, p).value.length > MaxLength
    ensures ParseSheetSize(t).None?
  {
    assert FirstSet(Hits(t), 0) == Some(p);
  }

  /** Without any match there is no size. */
  lemma {:induction false} SheetSizeNone(t: string)
    requires forall q :: 0 <= q <= |t| ==> SizeSpan(t, q).None?
    ensures ParseSheetSize(t).None?
  {
    assert FirstSet(Hits(t), 0).None?;
  }
}

=== FILE: skeleton.dfy ===
/** `generate_skeleton_mpf`: writes the skeleton cuts into a program as one
    extra part, before the program's end. Both copies of the processor
    write the same lines; they differ only in how they spot the end. */
module Skeleton {
  import opened Wrappers
  import opened Text
  import opened Geometry
  import opened ParseState
  import AppParser

  /** A skeleton cut: the chord from `a` to `b`. */
  datatype Cut = Cut(a: Point, b: Point)

  /** The program id and technology of the extra part, chosen not to clash
      with real ones. */
  const ProgramId: nat := 990001
  const Tech: nat := 99

  /** The line number of the HKOST line and of the first HKSTR line; the
      numbers then go up in steps of ten. */
  const HeaderNumber: nat := 900000
  const FirstNumber: nat := 900010

  // ---------------------------------------------------------------------
  // Where the lines go

  /** The end of a program, as the cut planner's copy spots it: `HKEND`
      anywhere in the upper-cased line, or the upper-cased, stripped line
      starting with `M30`. */
  predicate EndsProgram(line: string) {
    Contains(Upper(line), "HKEND") || StartsWith(Strip(Upper(line)), "M30")
  }

  /** The main application's copy strips before upper-casing. */
  predicate EndsProgramApp(line: string) {
    Contains(Upper(line), "HKEND") || StartsWith(Upper(Strip(line)), "M30")
  }

  /** The two copies find the same end. */
  lemma {:induction false} EndsProgramAgree(line: string)
    ensures EndsProgram(line) <==> EndsProgramApp(line)
  {
    StripUpperCommute(line);
  }

  /** The index of the first line `ends` holds of, `|lines|` when there is
      none; the processor's test is `EndsProgram`. */
  function FirstWhere(ends: string -> bool, lines: seq<string>): (r: nat)
    ensures r <= |lines|
    ensures forall i :: 0 <= i < r ==> !ends(lines[i])
    ensures r < |lines| ==> ends(lines[r])
    decreases |lines|
  {
    if lines == [] then 0
    else if ends(lines[0]) then 0
    else
      var r := 1 + FirstWhere(ends, lines[1..]);
      assert forall i :: 1 <= i < r ==> lines[i] == lines[1..][i - 1];
      r
  }

  // ---------------------------------------------------------------------
  // The lines written

  /** `N<n> `, the start of a numbered line. */
  function Prefix(n: nat): string {
    "N" + NatToString(n) + " "
  }

  /** The HKOST line of the extra part. */
  function Header(): string {
    Prefix(HeaderNumber) + HeaderCall()
  }

  function HeaderCall(): string {
    "HKOST(0.0,0.0,0.0," + NatToString(ProgramId) + "," + NatToString(Tech) + ",0,0,0)"
  }

  /** The HKSTR line of a cut: an outer contour starting at `a`; `fmt` is
      the `:.4f` formatting of a coordinate. */
  function StrCall(fmt: real -> string, c: Cut): string {
    "HKSTR(0,1," + fmt(c.a.x) + "," + fmt(c.a.y) + ",0,0,0,0)"
  }

  /** A straight move to `p`. */
  function MoveLine(fmt: real -> string, p: Point): string {
    "G1 X" + fmt(p.x) + " Y" + fmt(p.y)
  }

  /** The argument list of the calls that take none that matter. */
  const NoArgs: string := "(0,0,0)"

  const Pierce: string := "HKPIE" + NoArgs
  const LeadIn: string := "HKLEA" + NoArgs
  const CutOn: string := "HKCUT" + NoArgs
  const Stop: string := "HKSTO" + NoArgs

  /** The seven lines of one cut, numbered `n`. */
  function CutBlock(fmt: real -> string, n: nat, c: Cut): (r: seq<string>)
    ensures |r| == 7
  {
    [Prefix(n) + StrCall(fmt, c), Pierce, LeadIn, CutOn, MoveLine(fmt, c.a), MoveLine(fmt, c.b), Stop]
  }

  /** The blocks of the cuts, numbered from `n` in steps of ten. */
  function CutBlocks(fmt: real -> string, n: nat, cuts: seq<Cut>): (r: seq<string>)
    ensures |r| == 7 * |cuts|
    decreases |cuts|
  {
    if cuts == [] then [] else CutBlock(fmt, n, cuts[0]) + CutBlocks(fmt, n + 10, cuts[1..])
  }

  /** The HKPED line closing the extra part. */
  function PedLine(n: nat): string {
    Prefix(n) + ("HKPED" + NoArgs)
  }

  /** Everything written between the program's body and its end. */
  function Appendix(fmt: real -> string, cuts: seq<Cut>): (r: seq<string>)
    ensures |r| == 7 * |cuts| + 2
  {
    [Header()] + CutBlocks(fmt, FirstNumber, cuts) + [PedLine(FirstNumber + 10 * |cuts|)]
  }

  /** `generate_skeleton_mpf` on the lines of a program: the program up to
      its end, the extra part, then the program's end. Nothing of the
      program is changed or dropped. `ends` is the copy's end test,
      `EndsProgram` or `EndsProgramApp`, which agree. */
  function GenerateSkeleton(ends: string -> bool, fmt: real -> string, lines: seq<string>, cuts: seq<Cut>): (out: seq<string>)
    ensures |out| == |lines| + 7 * |cuts| + 2
    ensures out[..FirstWhere(ends, lines)] == lines[..FirstWhere(ends, lines)]
    ensures out[FirstWhere(ends, lines) + 7 * |cuts| + 2..] == lines[FirstWhere(ends, lines)..]
  {
    var at := FirstWhere(ends, lines);
    var r := lines[..at] + Appendix(fmt, cuts) + lines[at..];
    assert r[at + 7 * |cuts| + 2..] == lines[at..];
    r
  }

  /** Cutting the extra part out of the output gives the program back. */
  lemma {:induction false} SkeletonRemovable(ends: string -> bool, fmt: real -> string, lines: seq<string>, cuts: seq<Cut>)
    ensures var out := GenerateSkeleton(ends, fmt, lines, cuts);
            var at := FirstWhere(ends, lines);
            out[..at] + out[at + 7 * |cuts| + 2..] == lines
  {
    var at := FirstWhere(ends, lines);
    assert lines[..at] + lines[at..] == lines;
  }

  /** The lines the extra part is made of, in order. */
  lemma {:induction false} SkeletonAppendix(ends: string -> bool, fmt: real -> string, lines: seq<string>, cuts: seq<Cut>)
    ensures var out := GenerateSkeleton(ends, fmt, lines, cuts);
            var at := FirstWhere(ends, lines);
            forall j :: 0 <= j < 7 * |cuts| + 2 ==> out[at + j] == Appendix(fmt, cuts)[j]
  {
    var at := FirstWhere(ends, lines);
    var out := GenerateSkeleton(ends, fmt, lines, cuts);
    var app := Appendix(fmt, cuts);
    assert out == lines[..at] + app + lines[at..];
  }

  // ---------------------------------------------------------------------
  // Reading the lines back

  /** Line `j` of block `i` is line `j` of the block of cut `i`, numbered
      `n + 10 * i`. */
  lemma {:induction false} BlockAt(fmt: real -> string, n: nat, cuts: seq<Cut>, i: nat, j: nat)
    requires i < |cuts| && j < 7
    ensures CutBlocks(fmt, n, cuts)[7 * i + j] == CutBlock(fmt, n + 10 * i, cuts[i])[j]
    decreases i
  {
    var rest := CutBlocks(fmt, n + 10, cuts[1..]);
    assert CutBlocks(fmt, n, cuts) == CutBlock(fmt, n, cuts[0]) + rest;
    if i > 0 {
      BlockAt(fmt, n + 10, cuts[1..], i - 1, j);
      assert 7 * i + j == 7 + (7 * (i - 1) + j);
    }
  }

  /** The number of a numbered line reads back as the number written. */
  lemma {:induction false} NumberReadsBack(n: nat, body: string)
    requires body == [] || !IsDigit(body[0])
    ensures LineNumber(Prefix(n) + body) == Some(n)
    ensures n > 0 ==> PlacementKey(Prefix(n) + body) == n
  {
    var d := NatToString(n);
    var u := Prefix(n) + body;
    assert u[1..] == d + (" " + body);
    DigitRunOf(d, " " + body);
    DigitsRoundTrip(n);
  }

  lemma {:induction false} HeaderNumbered()
    ensures LineNumber(Header()) == Some(HeaderNumber)
  {
    NumberReadsBack(HeaderNumber, HeaderCall());
  }

  lemma {:induction false} PedNumbered(n: nat)
    ensures LineNumber(PedLine(n)) == Some(n)
  {
    NumberReadsBack(n, "HKPED" + NoArgs);
  }

  /** The HKSTR line of cut `i` is keyed `n + 10 * i`. */
  lemma {:induction false} BlockNumbered(fmt: real -> string, n: nat, cuts: seq<Cut>, i: nat)
    requires i < |cuts| && n > 0
    ensures PlacementKey(CutBlocks(fmt, n, cuts)[7 * i]) == n + 10 * i
  {
    BlockAt(fmt, n, cuts, i, 0);
    NumberReadsBack(n + 10 * i, StrCall(fmt, cuts[i]));
  }

  /** In the output, the HKSTR line of cut `i` carries line number
      `900010 + 10 * i`, the key the cut planner's parser looks placements
      up by. */
  lemma {:induction false} SkeletonNumbers(ends: string -> bool, fmt: real -> string, lines: seq<string>, cuts: seq<Cut>)
    ensures var out := GenerateSkeleton(ends, fmt, lines, cuts);
            var at := FirstWhere(ends, lines);
            forall i :: 0 <= i < |cuts| ==> PlacementKey(out[at + 1 + 7 * i]) == FirstNumber + 10 * i
  {
    var out := GenerateSkeleton(ends, fmt, lines, cuts);
    var at := FirstWhere(ends, lines);
    SkeletonLayout(ends, fmt, lines, cuts);
    forall i | 0 <= i < |cuts|
      ensures PlacementKey(out[at + 1 + 7 * i]) == FirstNumber + 10 * i
    {
      var blocks := CutBlocks(fmt, FirstNumber, cuts);
      assert 7 * i < 7 * |cuts|;
      assert out[at + 1 + 7 * i] == blocks[7 * i];
      BlockNumbered(fmt, FirstNumber, cuts, i);
    }
  }

  /** The HKOST line before the cuts is number 900000 and the HKPED line
      after them follows the last cut's number. */
  lemma {:induction false} SkeletonFrameNumbers(ends: string -> bool, fmt: real -> string, lines: seq<string>, cuts: seq<Cut>)
    ensures var out := GenerateSkeleton(ends, fmt, lines, cuts);
            var at := FirstWhere(ends, lines);
            && LineNumber(out[at]) == Some(HeaderNumber)
            && LineNumber(out[at + 7 * |cuts| + 1]) == Some(FirstNumber + 10 * |cuts|)
  {
    SkeletonLayout(ends, fmt, lines, cuts);
    HeaderNumbered();
    PedNumbered(FirstNumber + 10 * |cuts|);
  }

  /** Where each written line lands in the output. */
  lemma {:induction false} SkeletonLayout(ends: string -> bool, fmt: real -> string, lines: seq<string>, cuts: seq<Cut>)
    ensures var out := GenerateSkeleton(ends, fmt, lines, cuts);
            var at := FirstWhere(ends, lines);
            && out[at] == Header()
            && out[at + 7 * |cuts| + 1] == PedLine(FirstNumber + 10 * |cuts|)
            && forall i :: 0 <= i < 7 * |cuts| ==> out[at + 1 + i] == CutBlocks(fmt, FirstNumber, cuts)[i]
  {
    var out := GenerateSkeleton(ends, fmt, lines, cuts);
    var at := FirstWhere(ends, lines);
    var app := Appendix(fmt, cuts);
    SkeletonAppendix(ends, fmt, lines, cuts);
    AppendixAt(fmt, cuts);
    assert out[at] == app[0];
    assert out[at + 7 * |cuts| + 1] == app[7 * |cuts| + 1];
    forall i | 0 <= i < 7 * |cuts| ensures out[at + 1 + i] == CutBlocks(fmt, FirstNumber, cuts)[i] {
      assert out[at + 1 + i] == app[1 + i];
    }
  }

  /** The extra part is its header, the blocks and the closing line. */
  lemma {:induction false} AppendixAt(fmt: real -> string, cuts: seq<Cut>)
    ensures var app := Appendix(fmt, cuts);
            && app[0] == Header()
            && app[7 * |cuts| + 1] == PedLine(FirstNumber + 10 * |cuts|)
            && forall i :: 0 <= i < 7 * |cuts| ==> app[1 + i] == CutBlocks(fmt, FirstNumber, cuts)[i]
  {
    var blocks := CutBlocks(fmt, FirstNumber, cuts);
    var head := [Header()] + blocks;
    assert Appendix(fmt, cuts) == head + [PedLine(FirstNumber + 10 * |cuts|)];
    assert head[0] == Header();
    assert forall i :: 0 <= i < 7 * |cuts| ==> head[1 + i] == blocks[i];
  }

  // ---------------------------------------------------------------------
  // What the parsers make of the lines

  /** The characters `:.4f` writes for a finite number: digits, the point
      and the sign. */
  predicate NumberText(s: string) {
    forall i :: 0 <= i < |s| ==> IsDigit(s[i]) || s[i] == '.' || s[i] == '-'
  }

  /** A formatting of coordinates that writes some number text. */
  ghost predicate Formats(fmt: real -> string) {
    forall x :: fmt(x) != [] && NumberText(fmt(x))
  }

  /** Text the classifier reads as written and in which no call can begin:
      no lower-case letter and no `H`. */
  predicate Tame(s: string) {
    forall i :: 0 <= i < |s| ==> !IsLower(s[i]) && s[i] != 'H'
  }

  /** Tame after the first character. */
  predicate TameAfter(s: string) {
    forall i :: 1 <= i < |s| ==> !IsLower(s[i]) && s[i] != 'H'
  }

  lemma {:induction false} TameAfterConcat(a: string, b: string)
    requires a != [] && TameAfter(a) && Tame(b)
    ensures TameAfter(a + b)
  {
    forall i | 1 <= i < |a + b| ensures !IsLower((a + b)[i]) && (a + b)[i] != 'H' {
      if i >= |a| {
        assert (a + b)[i] == b[i - |a|];
      }
    }
  }

  lemma {:induction false} TameConcat(a: string, b: string)
    requires Tame(a) && Tame(b)
    ensures Tame(a + b)
  {
    forall i | 0 <= i < |a + b| ensures !IsLower((a + b)[i]) && (a + b)[i] != 'H' {
      if i >= |a| {
        assert (a + b)[i] == b[i - |a|];
      }
    }
  }

  lemma {:induction false} PrefixTame(n: nat)
    ensures Tame(Prefix(n)) && Prefix(n)[0] == 'N'
  {
    var d := NatToString(n);
    assert Prefix(n) == "N" + d + " ";
    TameConcat("N", d);
    TameConcat("N" + d, " ");
  }

  /** A line does not start with `p` when it differs from `p` at `i`. */
  lemma {:induction false} DiffersAt(s: string, p: string, i: nat)
    requires i < |p| && i < |s| && s[i] != p[i]
    ensures !StartsWith(s, p)
  {
    if |p| <= |s| {
      assert s[..|p|][i] != p[i];
    }
  }

  /** The command of a call that is not `HKINI`, found by the first of the
      call names it starts with. */
  function CallOf(b: string): Command {
    if StartsWith(b, "HKOST(") then Ost
    else if StartsWith(b, "HKSTR(") then Str
    else if StartsWith(b, "HKCUT") then Command.Cut
    else if StartsWith(b, "HKSTO") then Sto
    else if StartsWith(b, "HKPED") then Ped
    else Other
  }

  /** A call as the generator writes it: the only `H` is its first
      character, nothing is lower-case, it does not end in a space, and it
      is not an HKINI call. */
  predicate CallShaped(b: string) {
    && b != [] && b[0] == 'H' && TameAfter(b) && !IsSpace(b[|b| - 1])
    && !StartsWith(b, "HKINI")
  }

  /** A call line: an optional number, then a call. Its command is the
      first of the calls it starts with. */
  lemma {:induction false} CallCommand(a: string, b: string)
    requires a == [] || a[0] == 'N'
    requires Tame(a) && CallShaped(b)
    ensures CommandOf(a + b) == CallOf(b)
  {
    var u := a + b;
    CallWritten(a, b);
    CallNames(a, b);
    if a == [] {
      assert u == b;
    } else {
      DiffersAt(u, "HKINI", 0);
    }
    DiffersAt(u, "WHEN", 0);
    DiffersAt(u, "G1", 0);
    DiffersAt(u, "G2", 0);
    DiffersAt(u, "G3", 0);
    ClassifyChain(u);
    if StartsWith(b, "HKOST(") {
      assert Classify(u) == Ost == CallOf(b);
    } else if StartsWith(b, "HKSTR(") {
      assert Classify(u) == Str == CallOf(b);
    } else if StartsWith(b, "HKCUT") {
      assert Classify(u) == Command.Cut == CallOf(b);
    } else if StartsWith(b, "HKSTO") {
      assert Classify(u) == Sto == CallOf(b);
    } else if StartsWith(b, "HKPED") {
      assert Classify(u) == Ped == CallOf(b);
    } else {
      assert Classify(u) == Other == CallOf(b);
    }
  }

  /** A call line is in normal form and starts with `N` or `H`. */
  lemma {:induction false} CallWritten(a: string, b: string)
    requires a == [] || a[0] == 'N'
    requires Tame(a) && CallShaped(b)
    ensures CommandOf(a + b) == Classify(a + b) && ((a + b)[0] == 'N' || (a + b)[0] == 'H')
  {
    var u := a + b;
    forall i | 0 <= i < |u| ensures !IsLower(u[i]) {
      if i >= |a| {
        assert u[i] == b[i - |a|];
      }
    }
    if a == [] {
      assert u == b;
    } else {
      assert u[0] == a[0];
    }
    assert u[|u| - 1] == b[|b| - 1];
    AsWritten(u);
  }

  /** In a call line, a call name can only be found where the call starts. */
  lemma {:induction false} CallNames(a: string, b: string)
    requires Tame(a) && CallShaped(b)
    ensures && (Contains(a + b, "HKOST(") <==> StartsWith(b, "HKOST("))
            && (Contains(a + b, "HKSTR(") <==> StartsWith(b, "HKSTR("))
            && (Contains(a + b, "HKCUT") <==> StartsWith(b, "HKCUT"))
            && (Contains(a + b, "HKSTO") <==> StartsWith(b, "HKSTO"))
            && (Contains(a + b, "HKPED") <==> StartsWith(b, "HKPED"))
  {
    assert !HasChar(a, 'H');
    assert !HasChar(b[1..], 'H') by {
      forall i | 0 <= i < |b[1..]| ensures b[1..][i] != 'H' {
        assert b[1..][i] == b[i + 1];
      }
    }
    ContainsOnlyAt(a, b, "HKOST(");
    ContainsOnlyAt(a, b, "HKSTR(");
    ContainsOnlyAt(a, b, "HKCUT");
    ContainsOnlyAt(a, b, "HKSTO");
    ContainsOnlyAt(a, b, "HKPED");
  }

  /** A line already in normal form is classified as written. */
  lemma {:induction false} AsWritten(u: string)
    requires u != [] && NoLower(u) && !IsSpace(u[0]) && !IsSpace(u[|u| - 1])
    ensures CommandOf(u) == Classify(u)
  {
    StripKeeps(u);
    UpperKeeps(u);
  }

  /** A line without an `H` contains no call name. */
  lemma {:induction false} NoCallName(u: string)
    requires !HasChar(u, 'H')
    ensures !Contains(u, "HKOST(") && !Contains(u, "HKSTR(") && !Contains(u, "HKCUT")
    ensures !Contains(u, "HKSTO") && !Contains(u, "HKPED")
  {
    NotContains(u, "HKOST(");
    NotContains(u, "HKSTR(");
    NotContains(u, "HKCUT");
    NotContains(u, "HKSTO");
    NotContains(u, "HKPED");
  }

  /** A line without an `H` holds no call; one starting `G1` is a straight
      move. */
  lemma {:induction false} MoveCommand(u: string)
    requires Tame(u) && StartsWith(u, "G1") && !IsSpace(u[|u| - 1])
    ensures CommandOf(u) == G1
  {
    assert u[0] == u[..2][0] == 'G';
    AsWritten(u);
    NoCallName(u);
    DiffersAt(u, "HKINI", 0);
    DiffersAt(u, "WHEN", 0);
    ClassifyChain(u);
  }

  lemma {:induction false} NumberTame(s: string)
    requires s != [] && NumberText(s)
    ensures Tame(s) && !IsSpace(s[|s| - 1])
  {
  }

  /** The HKSTR line of a cut is a call starting `HKSTR(`. */
  lemma {:induction false} StrCallShaped(fmt: real -> string, c: Cut)
    requires Formats(fmt)
    ensures CallShaped(StrCall(fmt, c)) && CallOf(StrCall(fmt, c)) == Str
  {
    var x, y := fmt(c.a.x), fmt(c.a.y);
    NumberTame(x);
    NumberTame(y);
    var b := StrCall(fmt, c);
    TameAfterConcat("HKSTR(0,1,", x);
    TameAfterConcat("HKSTR(0,1," + x, ",");
    TameAfterConcat("HKSTR(0,1," + x + ",", y);
    TameAfterConcat("HKSTR(0,1," + x + "," + y, ",0,0,0,0)");
    DiffersAt(b, "HKINI", 2);
    DiffersAt(b, "HKOST(", 2);
    assert b[..6] == "HKSTR(";
  }

  lemma {:induction false} StrLineCommand(fmt: real -> string, n: nat, c: Cut)
    requires Formats(fmt)
    ensures CommandOf(Prefix(n) + StrCall(fmt, c)) == Str
  {
    PrefixTame(n);
    StrCallShaped(fmt, c);
    CallCommand(Prefix(n), StrCall(fmt, c));
  }

  lemma {:induction false} MoveLineCommand(fmt: real -> string, p: Point)
    requires Formats(fmt)
    ensures CommandOf(MoveLine(fmt, p)) == G1
  {
    var x, y := fmt(p.x), fmt(p.y);
    NumberTame(x);
    NumberTame(y);
    TameConcat("G1 X", x);
    TameConcat("G1 X" + x, " Y");
    TameConcat("G1 X" + x + " Y", y);
    var u := MoveLine(fmt, p);
    assert u[|u| - 1] == y[|y| - 1];
    MoveCommand(u);
  }

  /** A call without arguments that matter, `<name>(0,0,0)`, is shaped as
      a call when its name starts with the only `H` and is not `HKINI`. */
  lemma {:induction false} FixedShaped(name: string)
    requires |name| >= 3 && name[0] == 'H' && TameAfter(name) && name[2] != 'I'
    ensures CallShaped(name + NoArgs)
  {
    var b := name + NoArgs;
    assert Tame(NoArgs);
    TameAfterConcat(name, NoArgs);
    assert b[|b| - 1] == NoArgs[6] == ')';
    DiffersAt(b, "HKINI", 2);
  }

  /** The HKPIE and HKLEA calls between the HKSTR line and cutting on mean
      nothing to the parsers. */
  lemma {:induction false} PierceCommand()
    ensures CommandOf(Pierce) == Other
  {
    var b := "HKPIE" + NoArgs;
    FixedShaped("HKPIE");
    assert [] + b == b;
    PierceCall();
    CallCommand([], b);
  }

  lemma {:induction false} PierceCall()
    ensures CallOf("HKPIE" + NoArgs) == Other
  {
    var b := "HKPIE" + NoArgs;
    DiffersAt(b, "HKOST(", 2);
    DiffersAt(b, "HKSTR(", 2);
    DiffersAt(b, "HKCUT", 2);
    DiffersAt(b, "HKSTO", 2);
    DiffersAt(b, "HKPED", 3);
  }

  lemma {:induction false} LeadInCommand()
    ensures CommandOf(LeadIn) == Other
  {
    var b := "HKLEA" + NoArgs;
    FixedShaped("HKLEA");
    assert [] + b == b;
    LeadInCall();
    CallCommand([], b);
  }

  lemma {:induction false} LeadInCall()
    ensures CallOf("HKLEA" + NoArgs) == Other
  {
    var b := "HKLEA" + NoArgs;
    DiffersAt(b, "HKOST(", 2);
    DiffersAt(b, "HKSTR(", 2);
    DiffersAt(b, "HKCUT", 2);
    DiffersAt(b, "HKSTO", 2);
    DiffersAt(b, "HKPED", 2);
  }

  lemma {:induction false} CutOnCommand()
    ensures CommandOf(CutOn) == Command.Cut
  {
    var b := "HKCUT" + NoArgs;
    FixedShaped("HKCUT");
    assert [] + b == b;
    CutOnCall();
    CallCommand([], b);
  }

  lemma {:induction false} CutOnCall()
    ensures CallOf("HKCUT" + NoArgs) == Command.Cut
  {
    var b := "HKCUT" + NoArgs;
    DiffersAt(b, "HKOST(", 2);
    DiffersAt(b, "HKSTR(", 2);
    assert b[..5] == "HKCUT";
  }

  lemma {:induction false} StopCommand()
    ensures CommandOf(Stop) == Sto
  {
    var b := "HKSTO" + NoArgs;
    FixedShaped("HKSTO");
    assert [] + b == b;
    StopCall();
    CallCommand([], b);
  }

  lemma {:induction false} StopCall()
    ensures CallOf("HKSTO" + NoArgs) == Sto
  {
    var b := "HKSTO" + NoArgs;
    DiffersAt(b, "HKOST(", 2);
    DiffersAt(b, "HKSTR(", 4);
    DiffersAt(b, "HKCUT", 2);
    assert b[..5] == "HKSTO";
  }

  /** The commands of one cut's block: a new contour, two ignored calls,
      cutting on, two straight moves, cutting off. */
  lemma {:induction false} BlockCommands(fmt: real -> string, n: nat, c: Cut)
    requires Formats(fmt)
    ensures var b := CutBlock(fmt, n, c);
            && CommandOf(b[0]) == Str && CommandOf(b[1]) == Other && CommandOf(b[2]) == Other
            && CommandOf(b[3]) == Command.Cut && CommandOf(b[4]) == G1 && CommandOf(b[5]) == G1
            && CommandOf(b[6]) == Sto
  {
    BlockCalls(fmt, n, c);
    BlockEnd(fmt, n, c);
    BlockMoves(fmt, n, c);
  }

  lemma {:induction false} BlockCalls(fmt: real -> string, n: nat, c: Cut)
    requires Formats(fmt)
    ensures var b := CutBlock(fmt, n, c);
            CommandOf(b[0]) == Str && CommandOf(b[1]) == Other && CommandOf(b[2]) == Other
  {
    BlockStart(fmt, n, c);
    BlockIgnored(fmt, n, c);
  }

  lemma {:induction false} BlockStart(fmt: real -> string, n: nat, c: Cut)
    requires Formats(fmt)
    ensures CommandOf(CutBlock(fmt, n, c)[0]) == Str
  {
    StrLineCommand(fmt, n, c);
  }

  lemma {:induction false} BlockIgnored(fmt: real -> string, n: nat, c: Cut)
    ensures var b := CutBlock(fmt, n, c);
            CommandOf(b[1]) == Other && CommandOf(b[2]) == Other
  {
    BlockPierce(fmt, n, c);
    BlockLeadIn(fmt, n, c);
  }

  lemma {:induction false} BlockPierce(fmt: real -> string, n: nat, c: Cut)
    ensures CommandOf(CutBlock(fmt, n, c)[1]) == Other
  {
    PierceCommand();
    assert CutBlock(fmt, n, c)[1] == Pierce;
  }

  lemma {:induction false} BlockLeadIn(fmt: real -> string, n: nat, c: Cut)
    ensures CommandOf(CutBlock(fmt, n, c)[2]) == Other
  {
    LeadInCommand();
    assert CutBlock(fmt, n, c)[2] == LeadIn;
  }

  lemma {:induction false} BlockEnd(fmt: real -> string, n: nat, c: Cut)
    ensures var b := CutBlock(fmt, n, c);
            CommandOf(b[3]) == Command.Cut && CommandOf(b[6]) == Sto
  {
    BlockCutOn(fmt, n, c);
    BlockStop(fmt, n, c);
  }

  lemma {:induction false} BlockCutOn(fmt: real -> string, n: nat, c: Cut)
    ensures CommandOf(CutBlock(fmt, n, c)[3]) == Command.Cut
  {
    CutOnCommand();
    assert CutBlock(fmt, n, c)[3] == CutOn;
  }

  lemma {:induction false} BlockStop(fmt: real -> string, n: nat, c: Cut)
    ensures CommandOf(CutBlock(fmt, n, c)[6]) == Sto
  {
    StopCommand();
    assert CutBlock(fmt, n, c)[6] == Stop;
  }

  lemma {:induction false} BlockMoves(fmt: real -> string, n: nat, c: Cut)
    requires Formats(fmt)
    ensures var b := CutBlock(fmt, n, c);
            CommandOf(b[4]) == G1 && CommandOf(b[5]) == G1
  {
    MoveLineCommand(fmt, c.a);
    MoveLineCommand(fmt, c.b);
  }

  /** The HKOST line opens a new part. */
  lemma {:induction false} HeaderCommand()
    ensures CommandOf(Header()) == Ost
  {
    PrefixTame(HeaderNumber);
    OstCallShaped(ProgramId, Tech);
    CallCommand(Prefix(HeaderNumber), HeaderCall());
  }

  lemma {:induction false} OstCallShaped(id: nat, tech: nat)
    ensures var b := "HKOST(0.0,0.0,0.0," + NatToString(id) + "," + NatToString(tech) + ",0,0,0)";
            CallShaped(b) && CallOf(b) == Ost
  {
    var p, q := NatToString(id), NatToString(tech);
    NumberTame(p);
    NumberTame(q);
    var b := "HKOST(0.0,0.0,0.0," + p + "," + q + ",0,0,0)";
    TameAfterConcat("HKOST(0.0,0.0,0.0,", p);
    TameAfterConcat("HKOST(0.0,0.0,0.0," + p, ",");
    TameAfterConcat("HKOST(0.0,0.0,0.0," + p + ",", q);
    TameAfterConcat("HKOST(0.0,0.0,0.0," + p + "," + q, ",0,0,0)");
    DiffersAt(b, "HKINI", 2);
    assert b[..6] == "HKOST(";
  }

  /** The HKPED line closes the part. */
  lemma {:induction false} PedCommand(n: nat)
    ensures CommandOf(PedLine(n)) == Ped
  {
    var b := "HKPED" + NoArgs;
    PrefixTame(n);
    FixedShaped("HKPED");
    PedCall();
    CallCommand(Prefix(n), b);
  }

  lemma {:induction false} PedCall()
    ensures CallOf("HKPED" + NoArgs) == Ped
  {
    var b := "HKPED" + NoArgs;
    DiffersAt(b, "HKOST(", 2);
    DiffersAt(b, "HKSTR(", 2);
    DiffersAt(b, "HKCUT", 2);
    DiffersAt(b, "HKSTO", 2);
    assert b[..5] == "HKPED";
  }

  // ---------------------------------------------------------------------
  // Counting contours

  /** Counting commands distributes over joining lines. */
  lemma {:induction false} CountAppend(a: seq<string>, b: seq<string>, cmd: Command)
    ensures CountCommand(a + b, cmd) == CountCommand(a, cmd) + CountCommand(b, cmd)
    decreases |b|
  {
    if b == [] {
      assert a + b == a;
    } else {
      var init := b[..|b| - 1];
      assert (a + b)[..|a + b| - 1] == a + init;
      assert (a + b)[|a + b| - 1] == b[|b| - 1];
      CountAppend(a, init, cmd);
    }
  }

  /** One line counts once when it is recognised as `cmd`. */
  lemma {:induction false} CountOne(line: string, cmd: Command)
    ensures CountCommand([line], cmd) == if CommandOf(line) == cmd then 1 else 0
  {
    assert [line][..0] == [];
  }

  /** Lines of which only the first is recognised as `cmd` count once. */
  lemma {:induction false} CountFirstOnly(lines: seq<string>, cmd: Command)
    requires lines != [] && CommandOf(lines[0]) == cmd
    requires forall j :: 1 <= j < |lines| ==> CommandOf(lines[j]) != cmd
    ensures CountCommand(lines, cmd) == 1
    decreases |lines|
  {
    if |lines| == 1 {
      CountOne(lines[0], cmd);
      assert lines == [lines[0]];
    } else {
      var init := lines[..|lines| - 1];
      assert forall j :: 0 <= j < |init| ==> init[j] == lines[j];
      CountFirstOnly(init, cmd);
    }
  }

  /** Each cut's block holds exactly one HKSTR line. */
  lemma {:induction false} BlockCount(fmt: real -> string, n: nat, c: Cut)
    requires Formats(fmt)
    ensures CountCommand(CutBlock(fmt, n, c), Str) == 1
  {
    var b := CutBlock(fmt, n, c);
    BlockCommands(fmt, n, c);
    assert forall j :: 1 <= j < 7 ==> CommandOf(b[j]) != Str by {
      forall j | 1 <= j < 7 ensures CommandOf(b[j]) != Str {
        if j == 1 {} else if j == 2 {} else if j == 3 {} else if j == 4 {} else if j == 5 {} else {}
      }
    }
    CountFirstOnly(b, Str);
  }

  /** The blocks of `k` cuts hold `k` HKSTR lines. */
  lemma {:induction false} BlocksCount(fmt: real -> string, n: nat, cuts: seq<Cut>)
    requires Formats(fmt)
    ensures CountCommand(CutBlocks(fmt, n, cuts), Str) == |cuts|
    decreases |cuts|
  {
    if cuts == [] {
      assert CutBlocks(fmt, n, cuts) == [];
    } else {
      BlocksCount(fmt, n + 10, cuts[1..]);
      BlockCount(fmt, n, cuts[0]);
      CountAppend(CutBlock(fmt, n, cuts[0]), CutBlocks(fmt, n + 10, cuts[1..]), Str);
    }
  }

  /** The extra part holds one HKSTR line per cut. */
  lemma {:induction false} AppendixCount(fmt: real -> string, cuts: seq<Cut>)
    requires Formats(fmt)
    ensures CountCommand(Appendix(fmt, cuts), Str) == |cuts|
  {
    var blocks := CutBlocks(fmt, FirstNumber, cuts);
    var ped := PedLine(FirstNumber + 10 * |cuts|);
    BlocksCount(fmt, FirstNumber, cuts);
    HeaderCommand();
    PedCommand(FirstNumber + 10 * |cuts|);
    CountOne(Header(), Str);
    CountOne(ped, Str);
    CountAppend([Header()], blocks, Str);
    CountAppend([Header()] + blocks, [ped], Str);
  }

  /** The output holds one more HKSTR line per cut than the program. */
  lemma {:induction false} SkeletonAddsHkstr(ends: string -> bool, fmt: real -> string, lines: seq<string>, cuts: seq<Cut>)
    requires Formats(fmt)
    ensures CountCommand(GenerateSkeleton(ends, fmt, lines, cuts), Str) == CountCommand(lines, Str) + |cuts|
  {
    var at := FirstWhere(ends, lines);
    var app := Appendix(fmt, cuts);
    assert GenerateSkeleton(ends, fmt, lines, cuts) == lines[..at] + app + lines[at..];
    assert lines == lines[..at] + lines[at..];
    AppendixCount(fmt, cuts);
    CountAppend(lines[..at], app, Str);
    CountAppend(lines[..at] + app, lines[at..], Str);
    CountAppend(lines[..at], lines[at..], Str);
  }

  /** Parsing the output finds one more contour per cut than parsing the
      program: the skeleton cuts come back as contours. */
  lemma {:induction false} SkeletonAddsContours(lex: Lexer, ends: string -> bool, fmt: real -> string, lines: seq<string>, cuts: seq<Cut>)
    requires Tessellates(lex) && Formats(fmt)
    ensures |Contours(AppParser.Parse(lex, GenerateSkeleton(ends, fmt, lines, cuts)).parts)|
            == |Contours(AppParser.Parse(lex, lines).parts)| + |cuts|
  {
    SkeletonAddsHkstr(ends, fmt, lines, cuts);
    AppParser.ParseContourCount(lex, lines);
    AppParser.ParseContourCount(lex, GenerateSkeleton(ends, fmt, lines, cuts));
  }
}

=== FILE: text.dfy ===
/** The handful of Python `str` operations the processor relies on, restricted
    to ASCII: `strip()`, `upper()`, `lower()`, `in`, `startswith()`,
    `" ".join(s.split())`, `int()` of a digit run and `str()` of a
    natural number. */
module Text {

  /** Python's `str.isspace()` on the ASCII range. */
  predicate IsSpace(c: char) {
    c == ' ' || c == '\t' || c == '\n' || c == '\r' || c == '\U{0B}' || c == '\U{0C}'
    || ('\U{1C}' <= c <= '\U{1F}')
  }

  predicate IsDigit(c: char) {
    '0' <= c <= '9'
  }

  predicate IsUpper(c: char) {
    'A' <= c <= 'Z'
  }

  predicate IsLower(c: char) {
    'a' <= c <= 'z'
  }

  predicate IsAlpha(c: char) {
    IsUpper(c) || IsLower(c)
  }

  predicate AllDigits(s: string) {
    forall i :: 0 <= i < |s| ==> IsDigit(s[i])
  }

  predicate AllUpper(s: string) {
    forall i :: 0 <= i < |s| ==> IsUpper(s[i])
  }

  predicate AllSpace(s: string) {
    forall i :: 0 <= i < |s| ==> IsSpace(s[i])
  }

  function ToUpper(c: char): char {
    if IsLower(c) then (c as int - 32) as char else c
  }

  function ToLower(c: char): char {
    if IsUpper(c) then (c as int + 32) as char else c
  }

  /** `s.upper()` */
  function Upper(s: string): (r: string)
    ensures |r| == |s|
  {
    seq(|s|, i requires 0 <= i < |s| => ToUpper(s[i]))
  }

  /** `s.lower()` */
  function Lower(s: string): (r: string)
    ensures |r| == |s|
  {
    seq(|s|, i requires 0 <= i < |s| => ToLower(s[i]))
  }

  function TrimStart(s: string): (r: string)
    ensures |r| <= |s| && r == s[|s| - |r|..]
    ensures AllSpace(s[..|s| - |r|])
    ensures r == [] || !IsSpace(r[0])
  {
    if |s| > 0 && IsSpace(s[0]) then
      var r := TrimStart(s[1..]);
      var gone := s[..|s| - |r|];
      assert forall i :: 1 <= i < |gone| ==> gone[i] == s[1..][..|s| - 1 - |r|][i - 1];
      r
    else s
  }

  function TrimEnd(s: string): (r: string)
    ensures |r| <= |s| && r == s[..|r|]
    ensures AllSpace(s[|r|..])
    ensures r == [] || !IsSpace(r[|r| - 1])
  {
    if |s| > 0 && IsSpace(s[|s| - 1]) then
      var r := TrimEnd(s[..|s| - 1]);
      var gone := s[|r|..];
      assert forall i :: 0 <= i < |gone| - 1 ==> gone[i] == s[..|s| - 1][|r|..][i];
      r
    else s
  }

  /** `s.strip()`: drops the whitespace at both ends. */
  function Strip(s: string): (r: string)
    ensures |r| <= |s|
    ensures r == [] || (!IsSpace(r[0]) && !IsSpace(r[|r| - 1]))
  {
    TrimEnd(TrimStart(s))
  }

  /** `raw.strip().upper()`, the form every line is recognised in. */
  function Normalize(raw: string): string {
    Upper(Strip(raw))
  }

  /** `s.startswith(p)` */
  predicate StartsWith(s: string, p: string) {
    |p| <= |s| && s[..|p|] == p
  }

  /** `p in s`, computed by sliding a window along `s`. */
  predicate Contains(s: string, p: string) {
    StartsWith(s, p) || (|s| > 0 && Contains(s[1..], p))
  }

  /** The longest prefix of `s` made of digits. */
  function DigitRun(s: string): (r: string)
    ensures |r| <= |s| && r == s[..|r|] && AllDigits(r)
    ensures |r| < |s| ==> !IsDigit(s[|r|])
  {
    if |s| > 0 && IsDigit(s[0]) then [s[0]] + DigitRun(s[1..]) else []
  }

  /** `int(d)` for a string of digits. */
  function DigitsValue(d: string): nat
    requires AllDigits(d)
  {
    if d == [] then 0 else DigitsValue(d[..|d| - 1]) * 10 + (d[|d| - 1] as int - '0' as int)
  }

  function DigitChar(k: nat): (c: char)
    requires k < 10
    ensures IsDigit(c) && c as int - '0' as int == k
  {
    ('0' as int + k) as char
  }

  /** `str(n)` for a natural number. */
  function NatToString(n: nat): (r: string)
    ensures |r| > 0 && AllDigits(r)
  {
    if n < 10 then [DigitChar(n)] else NatToString(n / 10) + [DigitChar(n % 10)]
  }

  /** Printing a number in decimal and reading it back gives the number. */
  lemma {:induction false} DigitsRoundTrip(n: nat)
    ensures DigitsValue(NatToString(n)) == n
  {
    if n >= 10 {
      DigitsRoundTrip(n / 10);
      var s := NatToString(n);
      assert s[..|s| - 1] == NatToString(n / 10);
    }
  }

  /** Python's `int(f)` for a float: truncation toward zero. */
  function Trunc(r: real): (k: int)
    ensures 0.0 <= r ==> k as real <= r < k as real + 1.0
    ensures r < 0.0 ==> k as real - 1.0 < r <= k as real
  {
    if r >= 0.0 then r.Floor else -((-r).Floor)
  }

  /** `s.split()`: the maximal runs of non-whitespace characters, in order. */
  function Words(s: string): (r: seq<string>)
    decreases |s|
  {
    var t := TrimStart(s);
    if t == [] then []
    else
      var w := WordRun(t);
      [w] + Words(t[|w|..])
  }

  /** The longest prefix of `s` without whitespace. */
  function WordRun(s: string): (r: string)
    ensures |r| <= |s| && r == s[..|r|]
    ensures |s| > 0 && !IsSpace(s[0]) ==> |r| > 0
  {
    if |s| > 0 && !IsSpace(s[0]) then [s[0]] + WordRun(s[1..]) else []
  }

  /** `sep.join(ws)` */
  function Join(ws: seq<string>, sep: string): string {
    if ws == [] then [] else if |ws| == 1 then ws[0] else ws[0] + sep + Join(ws[1..], sep)
  }

  /** `" ".join(s.split())`: collapses every whitespace run to one blank and
      drops the whitespace at both ends. */
  function Collapse(s: string): string {
    Join(Words(s), " ")
  }

  // -----------------------------------------------------------------------
  // Facts about lines the processor writes itself

  /** A digit run followed by a non-digit is read back whole. */
  lemma {:induction false} DigitRunOf(d: string, t: string)
    requires AllDigits(d) && (t == [] || !IsDigit(t[0]))
    ensures DigitRun(d + t) == d
    decreases |d|
  {
    if d != [] {
      DigitRunOf(d[1..], t);
      assert (d + t)[1..] == d[1..] + t;
    } else {
      assert d + t == t;
    }
  }

  predicate NoLower(s: string) {
    forall i :: 0 <= i < |s| ==> !IsLower(s[i])
  }

  /** Upper-casing a string without lower-case letters changes nothing. */
  lemma {:induction false} UpperKeeps(s: string)
    requires NoLower(s)
    ensures Upper(s) == s
  {
  }

  lemma {:induction false} TrimStartKeeps(s: string)
    requires s == [] || !IsSpace(s[0])
    ensures TrimStart(s) == s
  {
  }

  lemma {:induction false} TrimEndKeeps(s: string)
    requires s == [] || !IsSpace(s[|s| - 1])
    ensures TrimEnd(s) == s
  {
  }

  /** Stripping a string that neither starts nor ends with whitespace
      changes nothing. */
  lemma {:induction false} StripKeeps(s: string)
    requires s == [] || (!IsSpace(s[0]) && !IsSpace(s[|s| - 1]))
    ensures Strip(s) == s
  {
    TrimStartKeeps(s);
    TrimEndKeeps(s);
  }

  lemma {:induction false} TrimStartUpper(s: string)
    ensures TrimStart(Upper(s)) == Upper(TrimStart(s))
    decreases |s|
  {
    if |s| > 0 && IsSpace(s[0]) {
      assert Upper(s)[1..] == Upper(s[1..]);
      TrimStartUpper(s[1..]);
    }
  }

  lemma {:induction false} TrimEndUpper(s: string)
    ensures TrimEnd(Upper(s)) == Upper(TrimEnd(s))
    decreases |s|
  {
    if |s| > 0 && IsSpace(s[|s| - 1]) {
      assert Upper(s)[..|s| - 1] == Upper(s[..|s| - 1]);
      TrimEndUpper(s[..|s| - 1]);
    }
  }

  /** `s.upper().strip()` and `s.strip().upper()` agree on ASCII text:
      upper-casing never makes or unmakes whitespace. */
  lemma {:induction false} StripUpperCommute(s: string)
    ensures Strip(Upper(s)) == Upper(Strip(s))
  {
    TrimStartUpper(s);
    TrimEndUpper(TrimStart(s));
  }

  /** Whether `c` occurs in `s`. */
  predicate HasChar(s: string, c: char) {
    exists i :: 0 <= i < |s| && s[i] == c
  }

  /** A pattern whose first character does not occur in `s` is not in `s`. */
  lemma {:induction false} NotContains(s: string, p: string)
    requires p != [] && !HasChar(s, p[0])
    ensures !Contains(s, p)
    decreases |s|
  {
    if |s| > 0 {
      NotContains(s[1..], p);
    }
  }

  /** A prefix in which the pattern's first character does not occur can
      be skipped when looking for the pattern. */
  lemma {:induction false} ContainsSkip(a: string, b: string, p: string)
    requires p != [] && !HasChar(a, p[0])
    ensures Contains(a + b, p) <==> Contains(b, p)
    decreases |a|
  {
    if a == [] {
      assert a + b == b;
    } else {
      assert a[0] != p[0];
      assert (a + b)[1..] == a[1..] + b;
      ContainsSkip(a[1..], b, p);
    }
  }

  /** With the pattern's first character only at the start of `b`, the
      pattern is in `a + b` exactly when `b` starts with it. */
  lemma {:induction false} ContainsOnlyAt(a: string, b: string, p: string)
    requires p != [] && b != [] && !HasChar(a, p[0]) && !HasChar(b[1..], p[0])
    ensures Contains(a + b, p) <==> StartsWith(b, p)
  {
    ContainsSkip(a, b, p);
    NotContains(b[1..], p);
  }
}

=== FILE: wrappers.dfy ===
/** Failure-carrying datatypes shared by every module: Python's `None`
    becomes `None`, a raised exception becomes `Err`. */
module Wrappers {

  datatype Option<+T> = None | Some(value: T) {
    /** `x or default` for an optional value. */
    function GetOr(default: T): T {
      match this
      case Some(v) => v
      case None => default
    }
  }

  datatype Result<+T, +E> = Ok(value: T) | Err(error: E)
}
